=== FILE: README.md ===
# Verified models of the teaching programs' data structures and small algorithms

This project is a Dafny model of the core logic of a teaching corpus of small C, C++ and JavaScript programs. The model covers six groups.

- **Dynamic containers.**
  - The singly linked list (`LinkedList`), in its C and C++ versions.
  - The stack backed by a 100-slot array (`ArrayStack`) and the stack backed by a linked chain (`LinkedStack`).
  - Three queue backings: a shifting array (`SimpleQueue`), a circular array (`CircularQueue`) and a linked chain (`LinkedQueue`). Each refines one abstract FIFO (`QueueSpec`).
  - The older pointer exercises: `Pila` (stack), `Lista` (list) and `Coda` (queue).
  - Every chain of nodes is the shared `Nodes.Chain` datatype, read as the sequence of its values.
- **Consumers of the containers.**
  - The balanced-bracket checker and the string reverser (`StackApps`).
  - The two-counter waiting line (`WaitingLine`).
- **Integer and character functions.**
  - Euclid's GCD, divisor sums and rectangle area, in two student versions (`Sollo`, `Zanirato`), over shared number theory (`Divisibility`).
  - Two Caesar ciphers with key 3 (`Tansella`, `Golzi`), over signed 8-bit `char` arithmetic (`Chars`).
  - The hex dump line format (`HexDump`) and the character and line counter (`Conta`).
- **Small state machines.**
  - The bank account (`Conto`).
  - The traffic light with a pedestrian button (`Semaforo`).
  - The grid explorer robot (`Robot`).
- **Helpers from the EV3 JavaScript lessons.**
  - The sensor helpers (`Sensori`).
  - The levelled log buffer (`Logging`).
  - The configuration catalog with dotted-path lookup (`Config`).
- **Sequence generators.** The values yielded by the C++20 coroutines (`Generators`).

The C and C++ versions of the linked list and of the two stacks run the same algorithm, so each is modelled once. Properties the C++ files state on their own are lemmas that cite the `.cpp` lines. Both bracket checkers scan with the 100-slot array stack and ignore a failed push; the unbounded-stack checker `StackApps.Balanced` is the corrected version recorded under "## Findings", and the rows about it say so. Pointers become values of `Nodes.Chain`, and arrays become sequences of fixed length. Results that C reports through a boolean and an out-parameter become a pair or an `Option`.

Everything nondeterministic becomes a parameter:

- the clock read by `time(NULL)`;
- the digits drawn by `rand()`;
- the ultrasonic readings;
- the formatted log time stamp;
- the bytes of the file being read.

## Model

| member | source | states |
|---|---|---|
| Nodes.CountNodes | F-Strutture_dati_dinamiche/StruttureDatiDinamiche/02_c_stack.c:145-155 | the node-counting walk returns exactly the number of values in the chain |
| LinkedList.InsertAtBeginning | F-Strutture_dati_dinamiche/StruttureDatiDinamiche/01_c_linked_list.c:23-27 | the new value comes first, followed by the old list unchanged; the length grows by one |
| LinkedList.InsertAtEnd | F-Strutture_dati_dinamiche/StruttureDatiDinamiche/01_c_linked_list.c:30-47 | the old list followed by the new value, a singleton when the list was empty |
| LinkedList.LinkAfter | F-Strutture_dati_dinamiche/StruttureDatiDinamiche/01_c_linked_list.c:56-76 | the walk fails exactly when it runs off the list; otherwise the value lands right after the node reached |
| LinkedList.InsertAtPosition | F-Strutture_dati_dinamiche/StruttureDatiDinamiche/01_c_linked_list.c:50-77 | for a position up to the length the value lands at that index with the others in order; past the end the list is untouched and "out of range" is reported |
| LinkedList.DeleteFromBeginning | F-Strutture_dati_dinamiche/StruttureDatiDinamiche/01_c_linked_list.c:80-90 | an empty list reports emptiness and stays empty; otherwise the first value goes and the rest keep their order |
| LinkedList.DropLast | F-Strutture_dati_dinamiche/StruttureDatiDinamiche/01_c_linked_list.c:99-114 | walking to the second-to-last node and unlinking its successor drops exactly the last value |
| LinkedList.DeleteFromEnd | F-Strutture_dati_dinamiche/StruttureDatiDinamiche/01_c_linked_list.c:93-115 | an empty list reports emptiness; otherwise the last value goes and the others keep their order |
| LinkedList.UnlinkAfter | F-Strutture_dati_dinamiche/StruttureDatiDinamiche/01_c_linked_list.c:131-148 | the walk fails exactly when no node follows the one reached; otherwise that following value is removed |
| LinkedList.DeleteFromPosition | F-Strutture_dati_dinamiche/StruttureDatiDinamiche/01_c_linked_list.c:118-149 | a valid position removes exactly that element, others in order; an empty list or a position past the end leaves the list as it was, with the matching report |
| LinkedList.Search | F-Strutture_dati_dinamiche/StruttureDatiDinamiche/01_c_linked_list.c:152-165 | -1 exactly when the key is absent; otherwise the index of its first occurrence |
| LinkedList.InsertThenDelete | F-Strutture_dati_dinamiche/StruttureDatiDinamiche/01_cpp_linked_list.cpp:49-140 | deleting at the position just inserted at gives back the original list |
| LinkedList.PositionalInsertCases | F-Strutture_dati_dinamiche/StruttureDatiDinamiche/01_cpp_linked_list.cpp:49-75 | position 0 is insert-at-beginning, position equal to the length is insert-at-end, and a larger position changes nothing |
| LinkedList.PositionalDeleteIff | F-Strutture_dati_dinamiche/StruttureDatiDinamiche/01_cpp_linked_list.cpp:111-140 | deleting by position changes the list if and only if the position is inside it, and then removes that element |
| LinkedList.Scenario | F-Strutture_dati_dinamiche/StruttureDatiDinamiche/01_c_linked_list.c:224-256 | one possible session of the menu: append 10, prepend 5 and insert 7 at 1 give 5 7 10; deleting position 1 then gives 5 10 |
| ArrayStack.Init | F-Strutture_dati_dinamiche/StruttureDatiDinamiche/02_c_stack.c:17-19 | a fresh stack is well formed and empty |
| ArrayStack.Push | F-Strutture_dati_dinamiche/StruttureDatiDinamiche/02_c_stack.c:32-40 | succeeds exactly when there is room, then the value goes on top; on overflow the stack is unchanged |
| ArrayStack.Pop | F-Strutture_dati_dinamiche/StruttureDatiDinamiche/02_c_stack.c:43-51 | on an empty stack nothing is returned and nothing changes; otherwise the top value is returned and removed |
| ArrayStack.Peek | F-Strutture_dati_dinamiche/StruttureDatiDinamiche/02_c_stack.c:54-62 | nothing exactly when empty; otherwise the top value |
| ArrayStack.Size | F-Strutture_dati_dinamiche/StruttureDatiDinamiche/02_c_stack.c:65-67 | the number of values held, between 0 and 100 |
| ArrayStack.PushAll | F-Strutture_dati_dinamiche/StruttureDatiDinamiche/02_c_stack.c:199-201 | repeated pushes keep the stack well formed, even when some of them overflow |
| ArrayStack.PopN | F-Strutture_dati_dinamiche/StruttureDatiDinamiche/02_c_stack.c:43-51 | repeated pops keep the stack well formed |
| ArrayStack.PopNBuffer | F-Strutture_dati_dinamiche/StruttureDatiDinamiche/02_c_stack.c:43-51 | n pops, n at most the size, leave the buffer as it was and lower the top by n |
| ArrayStack.PopNValues | F-Strutture_dati_dinamiche/StruttureDatiDinamiche/02_c_stack.c:43-51 | n pops, n at most the size, return the values from the top down |
| ArrayStack.PushThenPop | F-Strutture_dati_dinamiche/StruttureDatiDinamiche/02_cpp_stack.cpp:31-50 | on a stack that is not full, a push followed by a pop returns the pushed value and restores the stack |
| ArrayStack.PushAllElems | F-Strutture_dati_dinamiche/StruttureDatiDinamiche/02_c_stack.c:32-40 | pushes that fit append the values on top in order |
| ArrayStack.PopNElems | F-Strutture_dati_dinamiche/StruttureDatiDinamiche/02_c_stack.c:43-51 | n pops return the top n values newest first and leave the rest |
| ArrayStack.LifoLaw | F-Strutture_dati_dinamiche/StruttureDatiDinamiche/02_cpp_stack.cpp:31-50 | pushing values that fit and popping as many returns them in reverse order and restores the stack |
| LinkedStack.Init | F-Strutture_dati_dinamiche/StruttureDatiDinamiche/02_c_stack.c:96-98 | a fresh stack is empty |
| LinkedStack.Push | F-Strutture_dati_dinamiche/StruttureDatiDinamiche/02_c_stack.c:106-117 | always succeeds and puts the value on top of the old contents |
| LinkedStack.Pop | F-Strutture_dati_dinamiche/StruttureDatiDinamiche/02_c_stack.c:120-131 | fails without change on an empty stack; otherwise returns and removes the top value |
| LinkedStack.Peek | F-Strutture_dati_dinamiche/StruttureDatiDinamiche/02_c_stack.c:134-142 | nothing exactly when empty; otherwise the top value |
| LinkedStack.Size | F-Strutture_dati_dinamiche/StruttureDatiDinamiche/02_c_stack.c:145-155 | the counting walk returns the number of values held |
| LinkedStack.SizeCountsOps | F-Strutture_dati_dinamiche/StruttureDatiDinamiche/02_cpp_stack.cpp:108-149 | after any run of pushes and pops, the size is the old size plus the pushes minus the pops that returned a value |
| LinkedStack.BackingsAgree | F-Strutture_dati_dinamiche/StruttureDatiDinamiche/02_cpp_stack.cpp:31-149 | from stacks holding the same values, the array and linked versions give the same peek, pop, size and (when there is room) push |
| StackApps.ScansAgree | F-Strutture_dati_dinamiche/StruttureDatiDinamiche/02_c_stack.c:193-214 | while no opener overflows the array, scanning with the array stack and with an unbounded stack gives the same verdict |
| StackApps.ScanArray | F-Strutture_dati_dinamiche/StruttureDatiDinamiche/02_c_stack.c:194-217 | an accepted scan never meets more closers than the openers it saw plus those already stacked; a string without brackets is accepted exactly when the stack starts empty |
| StackApps.AreParenthesesBalanced | F-Strutture_dati_dinamiche/StruttureDatiDinamiche/02_c_stack.c:189-218 | an accepted expression has no more closers than openers; an expression without brackets is accepted; one that starts with a closer is rejected |
| StackApps.ScanLinked | F-Strutture_dati_dinamiche/StruttureDatiDinamiche/02_c_stack.c:194-217 | the loop as it runs in the corrected checker (the same loop on an unbounded stack, the corrected member of the first "## Findings" row): an accepted scan meets exactly as many closers as its openers plus those already stacked |
| StackApps.Balanced | F-Strutture_dati_dinamiche/StruttureDatiDinamiche/02_c_stack.c:194-217 | the corrected checker (the same loop on an unbounded stack, the corrected member of the first "## Findings" row): a string it accepts has as many closers as openers |
| StackApps.CheckerCorrectWithinCapacity | F-Strutture_dati_dinamiche/StruttureDatiDinamiche/02_c_stack.c:189-218 | for nesting depth at most 100 the checker as written gives the unbounded checker's verdict, and so accepts exactly the strings whose brackets the well-nested grammar produces |
| StackApps.ScanSeesBrackets | F-Strutture_dati_dinamiche/StruttureDatiDinamiche/02_c_stack.c:194-214 | the scan's verdict depends only on the brackets of the input, in order |
| StackApps.CloserMatchesPush | F-Strutture_dati_dinamiche/StruttureDatiDinamiche/02_c_stack.c:204-212 | after an opener is pushed, the scan accepts a rest that starts with a bracket only if that bracket is the opener's own closer |
| StackApps.ParseLevel | F-Strutture_dati_dinamiche/StruttureDatiDinamiche/02_c_stack.c:194-217 | in the corrected checker (the same loop on an unbounded stack, the corrected member of the first "## Findings" row), every bracket run the scan accepts starts with a well-nested part followed by the end or a closer, and the scan accepts that remainder from the same stack |
| StackApps.BalancedIsNest | F-Strutture_dati_dinamiche/StruttureDatiDinamiche/02_c_stack.c:194-217 | in the corrected checker (the same loop on an unbounded stack, the corrected member of the first "## Findings" row), whatever is accepted has brackets that form a well-nested string |
| StackApps.BalancedIffNest | F-Strutture_dati_dinamiche/StruttureDatiDinamiche/02_c_stack.c:194-217 | in the corrected checker (the same loop on an unbounded stack, the corrected member of the first "## Findings" row), a string is accepted exactly when its brackets form a well-nested string |
| StackApps.MismatchRejects | F-Strutture_dati_dinamiche/StruttureDatiDinamiche/02_c_stack.c:207-212 | a closer of another kind than the opener on top rejects at once, whatever follows, in both checkers |
| StackApps.CrossedPairRejects | F-Strutture_dati_dinamiche/StruttureDatiDinamiche/02_c_stack.c:194-217 | in the corrected checker (the same loop on an unbounded stack, the corrected member of the first "## Findings" row), after any well-nested part, an opener followed straight away by a closer of another kind is rejected, whatever the stack and the rest |
| StackApps.ScanSkipsNest | F-Strutture_dati_dinamiche/StruttureDatiDinamiche/02_c_stack.c:194-217 | in the corrected checker (the same loop on an unbounded stack, the corrected member of the first "## Findings" row), scanning a well-nested group leaves the stack exactly as it found it |
| StackApps.NestIsBalanced | F-Strutture_dati_dinamiche/StruttureDatiDinamiche/02_c_stack.c:194-217 | in the corrected checker (the same loop on an unbounded stack, the corrected member of the first "## Findings" row), every string built by the bracket grammar is accepted |
| StackApps.CloserOnEmptyRejects | F-Strutture_dati_dinamiche/StruttureDatiDinamiche/02_c_stack.c:198-201 | a closer met on an empty stack, at the start or anywhere later in the scan, rejects the input whatever follows, in both checkers |
| StackApps.ExampleNested | F-Strutture_dati_dinamiche/StruttureDatiDinamiche/02_c_stack.c:189-218 | "{[()()]}" is balanced and the checker accepts it |
| StackApps.ExampleEmpty | F-Strutture_dati_dinamiche/StruttureDatiDinamiche/02_c_stack.c:189-218 | the checker accepts the empty expression |
| StackApps.ExampleCrossed | F-Strutture_dati_dinamiche/StruttureDatiDinamiche/02_c_stack.c:189-218 | "{[(])}" is not balanced and the checker rejects it |
| StackApps.ExampleReversed | F-Strutture_dati_dinamiche/StruttureDatiDinamiche/02_c_stack.c:199-202 | ")(" is rejected at its first closer, found on an empty stack |
| StackApps.DeepNestBalanced | F-Strutture_dati_dinamiche/StruttureDatiDinamiche/02_c_stack.c:194-217 | in the corrected checker (the same loop on an unbounded stack, the corrected member of the first "## Findings" row), n openers followed by n closers are accepted for every n |
| StackApps.DeepNestRejectedAsWritten | F-Strutture_dati_dinamiche/StruttureDatiDinamiche/02_c_stack.c:189-218 | the checker as written rejects n openers followed by n closers for every n above 100, because the openers past the hundredth are dropped |
| StackApps.ScanOpeners | F-Strutture_dati_dinamiche/StruttureDatiDinamiche/02_c_stack.c:194-196 | a run of openers only pushes, losing those that find the array full |
| StackApps.ScanClosersRejects | F-Strutture_dati_dinamiche/StruttureDatiDinamiche/02_c_stack.c:197-201 | more closers than stored openers make the checker reject |
| StackApps.OverflowRejectsBalancedInput | F-Strutture_dati_dinamiche/StruttureDatiDinamiche/02_c_stack.c:189-218 | 101 nested parentheses are balanced, yet the checker as written rejects them |
| StackApps.IgnoresOtherChars | F-Strutture_dati_dinamiche/StruttureDatiDinamiche/02_c_stack.c:193-214 | characters that are not brackets change neither checker's verdict |
| StackApps.ReverseString | F-Strutture_dati_dinamiche/StruttureDatiDinamiche/02_cpp_stack.cpp:201-217 | pushing every character and popping until empty gives the string reversed |
| QueueSpec.Run | F-Strutture_dati_dinamiche/StruttureDatiDinamiche/03_c_queue.c:34-71 | one reply per request |
| QueueSpec.FifoLaw | F-Strutture_dati_dinamiche/StruttureDatiDinamiche/03_c_queue.c:34-71 | the values dequeued, followed by those still queued, are the starting queue followed by the values whose enqueue was accepted |
| SimpleQueue.Init | F-Strutture_dati_dinamiche/StruttureDatiDinamiche/03_c_queue.c:18-21 | a fresh queue is well formed and empty |
| SimpleQueue.Enqueue | F-Strutture_dati_dinamiche/StruttureDatiDinamiche/03_c_queue.c:34-47 | fails without change exactly when the queue holds 100 values; otherwise the value joins at the rear |
| SimpleQueue.ShiftedLeft | F-Strutture_dati_dinamiche/StruttureDatiDinamiche/03_c_queue.c:63-66 | slots below rear take their right neighbour's value; the rest are untouched |
| SimpleQueue.ShiftLeft | F-Strutture_dati_dinamiche/StruttureDatiDinamiche/03_c_queue.c:63-66 | the shifting loop produces exactly that buffer |
| SimpleQueue.Dequeue | F-Strutture_dati_dinamiche/StruttureDatiDinamiche/03_c_queue.c:50-71 | fails without change on an empty queue; otherwise returns the oldest value and keeps the rest in order; removing the last value resets both indices to -1 |
| SimpleQueue.Front | F-Strutture_dati_dinamiche/StruttureDatiDinamiche/03_c_queue.c:74-82 | nothing exactly when empty; otherwise the oldest value |
| SimpleQueue.Size | F-Strutture_dati_dinamiche/StruttureDatiDinamiche/03_c_queue.c:85-90 | the number of values queued |
| SimpleQueue.Run | F-Strutture_dati_dinamiche/StruttureDatiDinamiche/03_c_queue.c:34-71 | any run of requests keeps the array queue well formed |
| SimpleQueue.Refines | F-Strutture_dati_dinamiche/StruttureDatiDinamiche/03_c_queue.c:34-90 | the array queue gives the same replies and contents as the abstract queue of capacity 100 |
| CircularQueue.Elems | F-Strutture_dati_dinamiche/StruttureDatiDinamiche/03_c_queue.c:186-188 | the values read round the ring number exactly the tracked size |
| CircularQueue.Init | F-Strutture_dati_dinamiche/StruttureDatiDinamiche/03_c_queue.c:117-121 | a fresh ring is well formed and empty |
| CircularQueue.DistinctSlots | F-Strutture_dati_dinamiche/StruttureDatiDinamiche/03_c_queue.c:145-147 | distinct offsets below 100 from one start land on distinct slots, so no queued value is overwritten |
| CircularQueue.Enqueue | F-Strutture_dati_dinamiche/StruttureDatiDinamiche/03_c_queue.c:134-150 | fails without change exactly when 100 values are queued; otherwise rear advances modulo 100 and the value joins at the rear |
| CircularQueue.Dequeue | F-Strutture_dati_dinamiche/StruttureDatiDinamiche/03_c_queue.c:153-172 | fails without change when empty; otherwise returns the value at front, keeps the rest in order, and resets both indices to -1 after the last value |
| CircularQueue.Front | F-Strutture_dati_dinamiche/StruttureDatiDinamiche/03_c_queue.c:175-183 | nothing exactly when empty; otherwise the oldest value |
| CircularQueue.Size | F-Strutture_dati_dinamiche/StruttureDatiDinamiche/03_c_queue.c:186-188 | the number of values queued, between 0 and 100 |
| CircularQueue.Run | F-Strutture_dati_dinamiche/StruttureDatiDinamiche/03_c_queue.c:134-172 | any run of requests keeps the ring well formed |
| CircularQueue.Refines | F-Strutture_dati_dinamiche/StruttureDatiDinamiche/03_c_queue.c:134-188 | the ring gives the same replies and contents as the abstract queue of capacity 100 |
| LinkedQueue.LastCell | F-Strutture_dati_dinamiche/StruttureDatiDinamiche/03_c_queue.c:235-256 | the rear node holds the last queued value and links to nothing |
| LinkedQueue.Init | F-Strutture_dati_dinamiche/StruttureDatiDinamiche/03_c_queue.c:224-227 | a fresh queue is well formed and empty |
| LinkedQueue.Append | F-Strutture_dati_dinamiche/StruttureDatiDinamiche/03_c_queue.c:252-253 | linking a node after the last one appends its value |
| LinkedQueue.Enqueue | F-Strutture_dati_dinamiche/StruttureDatiDinamiche/03_c_queue.c:235-256 | always succeeds; the new node is the rear and its value joins at the end |
| LinkedQueue.Dequeue | F-Strutture_dati_dinamiche/StruttureDatiDinamiche/03_c_queue.c:259-278 | fails without change when empty; otherwise returns the front value and keeps the rest; removing the last value clears both front and rear |
| LinkedQueue.Front | F-Strutture_dati_dinamiche/StruttureDatiDinamiche/03_c_queue.c:281-289 | nothing exactly when empty; otherwise the oldest value |
| LinkedQueue.Size | F-Strutture_dati_dinamiche/StruttureDatiDinamiche/03_c_queue.c:292-306 | the counting walk returns the number of values queued |
| LinkedQueue.Run | F-Strutture_dati_dinamiche/StruttureDatiDinamiche/03_c_queue.c:235-278 | any run of requests keeps the chain queue well formed |
| LinkedQueue.Refines | F-Strutture_dati_dinamiche/StruttureDatiDinamiche/03_c_queue.c:235-306 | the chain queue gives the same replies and contents as the unbounded abstract queue |
| Lista.CercaEleR | F-Puntatori_e_strutture_dati_dinamiche/lista/lista01.cpp:41-49 | the recursive search answers true exactly when the value is in the list |
| Lista.CercaEle | F-Puntatori_e_strutture_dati_dinamiche/lista/lista01.cpp:51-62 | the iterative search answers true exactly when the value is in the list, so it always agrees with the recursive one |
| Lista.PosEle | F-Puntatori_e_strutture_dati_dinamiche/lista/lista01.cpp:64-78 | on a non-empty list: the index of the first occurrence, or the last index when the value is absent |
| Lista.TrovaPosEle | F-Puntatori_e_strutture_dati_dinamiche/lista/lista01.cpp:64-78 | the node returned is the one at that index, and the list from it onward is the tail starting there |
| Lista.InserisciDopo | F-Puntatori_e_strutture_dati_dinamiche/lista/lista01.cpp:192-196 | linking a new node after the node found inserts the value right after that index |
| Lista.InsertAfterPlacement | F-Puntatori_e_strutture_dati_dinamiche/lista/lista01.cpp:192-196 | the value lands right after the first occurrence of the wanted value, or at the end when that value is absent |
| Lista.StampaListaR | F-Puntatori_e_strutture_dati_dinamiche/lista/lista01.cpp:27-38 | the recursive printer writes one cell per value of the list, in order, then the NULL marker |
| Lista.StampaLista | F-Puntatori_e_strutture_dati_dinamiche/lista/lista01.cpp:17-38 | the iterative printer writes exactly the text of the recursive printer |
| Lista.PrintedShape | F-Puntatori_e_strutture_dati_dinamiche/lista/lista01.cpp:27-38 | the printed text has at least five characters per node and always ends with the NULL terminator line |
| Lista.Scenario | F-Puntatori_e_strutture_dati_dinamiche/lista/lista01.cpp:84-166 | the driver's edits turn 1 2 3 into 0 1 2 3, then 0 4 1 2 3, 0 4 1 2 3 5, 4 1 2 3 5, 4 2 3 5 and finally 4 2 3 |
| Pila.CreaPila | F-Puntatori_e_strutture_dati_dinamiche/pila/pila01.cpp:19-22 | a new stack is empty |
| Pila.IsVuota | F-Puntatori_e_strutture_dati_dinamiche/pila/pila01.cpp:25-31 | true exactly for the empty stack |
| Pila.Push | F-Puntatori_e_strutture_dati_dinamiche/pila/pila01.cpp:75-82 | the new value sits on top of the unchanged old stack |
| Pila.Pop1 | F-Puntatori_e_strutture_dati_dinamiche/pila/pila01.cpp:46-56 | removes the top value; the empty stack stays empty |
| Pila.Pop | F-Puntatori_e_strutture_dati_dinamiche/pila/pila01.cpp:58-71 | removes the top value and releases the node that held it; the empty stack stays empty and nothing is released |
| Pila.PopsAgree | F-Puntatori_e_strutture_dati_dinamiche/pila/pila01.cpp:46-71 | the two pop variants leave the same stack on every input; `pop` releases a node exactly when the stack was not empty, and that node is the old top whose successor is the new head |
| Pila.PopPush | F-Puntatori_e_strutture_dati_dinamiche/pila/pila01.cpp:58-82 | popping what was just pushed gives back the original stack and releases the node holding the pushed value |
| Pila.Digit | F-Puntatori_e_strutture_dati_dinamiche/pila/pila01.cpp:91 | every random datum lies between 1 and 9 |
| Pila.CreaPilaRandom | F-Puntatori_e_strutture_dati_dinamiche/pila/pila01.cpp:84-95 | the stack holds the drawn digits, last drawn on top, each between 1 and 9; a non-positive count gives the empty stack |
| Pila.Scenario | F-Puntatori_e_strutture_dati_dinamiche/pila/pila01.cpp:137-144 | pushing 10, 20, 30 and popping once leaves 20 over 10 |
| Coda.CreaCoda | F-Strutture_dati/coda/coda01.cpp:27-31 | whatever it is given, the result is the empty queue |
| Coda.IsVuota | F-Strutture_dati/coda/coda01.cpp:33-39 | true exactly for the empty queue |
| Coda.Enqueue | F-Strutture_dati/coda/coda01.cpp:112-119 | the node goes in front of the chain, so in arrival order the value joins at the back |
| Coda.Dequeue | F-Strutture_dati/coda/coda01.cpp:98-109 | with at least two nodes, the last node is unlinked, so the oldest value leaves |
| Coda.CreaCodaRandom | F-Strutture_dati/coda/coda01.cpp:121-132 | the queue holds the drawn digits in draw order, each between 1 and 9 |
| Coda.ActsAsFifo | F-Strutture_dati/coda/coda01.cpp:98-119 | enqueue and dequeue act on arrival order exactly as the unbounded abstract queue does |
| Coda.Scenario | F-Strutture_dati/coda/coda01.cpp:134-148 | enqueueing 1, 2, 3, 4 and dequeueing twice leaves 3 and 4, oldest first |
| WaitingLine.InizializzaListaAttesa | F-Strutture_dati_dinamiche/lista_attesa/lista_attesa.c:38-43 | an empty, well-formed waiting list whose next ticket is 1 |
| WaitingLine.InizializzaSportello | F-Strutture_dati_dinamiche/lista_attesa/lista_attesa.c:46-51 | an idle counter with its number, serving nobody |
| WaitingLine.AggiungiCliente | F-Strutture_dati_dinamiche/lista_attesa/lista_attesa.c:54-80 | the newcomer takes the next ticket and joins at the tail; the ticket counter and the waiting count both grow by one and the list stays well formed |
| WaitingLine.ServiProssimoCliente | F-Strutture_dati_dinamiche/lista_attesa/lista_attesa.c:83-114 | with nobody waiting it fails and changes nothing; otherwise the head customer leaves the list, the counter becomes active serving that ticket from now, and the wait is now minus the arrival time |
| WaitingLine.ServesEarliest | F-Strutture_dati_dinamiche/lista_attesa/lista_attesa.c:89-91 | the customer served holds a smaller ticket than everybody still waiting |
| WaitingLine.CalcolaTempoMedioAttesa | F-Strutture_dati_dinamiche/lista_attesa/lista_attesa.c:117-128 | 0 with nobody waiting; otherwise two minutes of service shared by two counters, that is 60 seconds per waiting customer |
| WaitingLine.Simula | F-Strutture_dati_dinamiche/lista_attesa/lista_attesa.c:213-226 | any sequence of menu commands keeps the waiting list well formed |
| WaitingLine.ServedInTicketOrder | F-Strutture_dati_dinamiche/lista_attesa/lista_attesa.c:54-114 | across both counters, tickets are served in strictly increasing order, each at least 1 and below every ticket still waiting, so nobody is served twice or overtaken |
| WaitingLine.NumbersGrow | F-Strutture_dati_dinamiche/lista_attesa/lista_attesa.c:54-114 | no ticket served or left waiting is below the smallest ticket that could be served at the start |
| WaitingLine.Scenario | F-Strutture_dati_dinamiche/lista_attesa/lista_attesa.c:54-114 | three arrivals get tickets 1, 2, 3; counter 1 then serves 1 and counter 2 serves 2, leaving 3 waiting |
| Divisibility.CRem | Altro/zanirato.c:130 | C's remainder: smaller in magnitude than the divisor, with the sign of the dividend, and the ordinary remainder for non-negative operands |
| Divisibility.Euclid | Altro/zanirato.c:126-136 | on non-negative inputs the remainder loop ends with a non-negative value that is 0 only for two zero inputs and never exceeds a positive second input |
| Divisibility.EuclidIsGcd | Altro/zanirato.c:126-136 | on non-negative inputs the remainder loop ends with the greatest common divisor |
| Divisibility.GcdUnique | Altro/sollo.c:125-148 | the greatest common divisor the loops aim at is unique, so any two correct answers agree |
| Divisibility.SumDivisorsMonotone | Altro/sollo.c:150-163 | the running sum of divisors never decreases as the loop index grows |
| Divisibility.PrimeSumsToOne | Altro/sollo.c:150-163 | for a prime, the divisors strictly below it add up to 1 |
| Divisibility.PrimeIffSumIsSuccessor | Altro/sollo.c:150-163 | above 1, the divisor sum is x + 1 exactly when x is prime |
| Sollo.MCD | Altro/sollo.c:125-148 | after the swap the loop runs on the larger argument first, and on non-negative inputs the result is their greatest common divisor |
| Sollo.Symmetric | Altro/sollo.c:131-135 | because of the swap, argument order never changes the result |
| Sollo.WithZero | Altro/sollo.c:125-148 | with zero on either side the result is the other argument |
| Sollo.SommaDivisori | Altro/sollo.c:150-163 | the sum of the positive divisors, 0 for a non-positive argument, and x + 1 exactly when x is a prime above 1 |
| Sollo.AreaRettangolo | Altro/sollo.c:165-171 | for a product that fits in int: non-negative for non-negative sides, zero exactly when a side is zero, and dividing by one side gives the other |
| Zanirato.MCD | Altro/zanirato.c:126-136 | the loop ends with the greatest common divisor of non-negative inputs |
| Zanirato.ZeroSecond | Altro/zanirato.c:126-136 | with a zero second argument the loop never runs and returns the first |
| Zanirato.FirstRoundSwaps | Altro/zanirato.c:126-136 | when the first argument is the smaller, the first round only swaps the two, so no explicit swap is needed |
| Zanirato.AgreesWithSollo | Altro/zanirato.c:126-136 | on non-negative inputs the loop without the swap returns the same value as the one with it |
| Zanirato.SommaDivisori | Altro/zanirato.c:113-124 | the sum of the positive divisors, 0 for a non-positive argument |
| Zanirato.AreaRettangolo | Altro/zanirato.c:105-110 | the same product as the other program's |
| Chars.WrapSChar | D-File/esercizio_e_golzi.cpp:66-72 | storing an int back into a char keeps it modulo 256 and leaves in-range values unchanged |
| Tansella.Crypt | D-File/crypt_tansella.c:40-68 | 'a'..'w' and 'A'..'W' move three places on; every character that is not a letter is copied unchanged |
| Tansella.Decrypt | D-File/crypt_tansella.c:93-121 | 'd'..'z' and 'D'..'Z' move three places back; every character that is not a letter is copied unchanged |
| Tansella.RoundTrip | D-File/crypt_tansella.c:40-121 | decryption undoes encryption and encryption undoes decryption, on every char |
| Tansella.RotatesAlphabet | D-File/crypt_tansella.c:40-68 | a letter stays a letter and its alphabet index moves by three modulo 26; the last three letters also change case |
| Tansella.Injective | D-File/crypt_tansella.c:40-68 | distinct characters encrypt to distinct characters, and letters exactly to letters |
| Tansella.FixedPoints | D-File/crypt_tansella.c:40-68 | a character is left unchanged exactly when it is not a letter |
| Tansella.CryptText | D-File/crypt_tansella.c:33-69 | the encrypted file is the character-by-character encryption of the input, of the same length |
| Tansella.DecryptText | D-File/crypt_tansella.c:89-122 | the decrypted file is the character-by-character decryption of the input, of the same length |
| Tansella.TextRoundTrip | D-File/crypt_tansella.c:33-122 | decrypting an encrypted file restores it |
| Golzi.Crypt | D-File/esercizio_e_golzi.cpp:66-72 | 'a'..'w' and 'A'..'W' move three on; 'x'..'z' and 'X'..'Z' wrap to the start of their alphabet; every other character is changed |
| Golzi.Decrypt | D-File/esercizio_e_golzi.cpp:107-113 | 'd'..'z' and 'D'..'Z' move three back; every other character is changed |
| Golzi.LettersRoundTrip | D-File/esercizio_e_golzi.cpp:66-113 | on letters, decrypting the encryption restores the character and keeps its case |
| Golzi.RoundTripIff | D-File/esercizio_e_golzi.cpp:66-113 | the round trip restores a character exactly when it lies outside the broken ranges |
| Golzi.BracketCounterexample | D-File/esercizio_e_golzi.cpp:66-113 | '[' encrypts to 'D', which decrypts to 'A' |
| Golzi.CryptFixed | D-File/esercizio_e_golzi.cpp:66-72 | letters go to letters of the same case and every other character is copied unchanged |
| Golzi.DecryptFixed | D-File/esercizio_e_golzi.cpp:107-113 | letters go to letters of the same case and every other character is copied unchanged |
| Golzi.FixedRoundTrip | D-File/esercizio_e_golzi.cpp:66-113 | the corrected pair are inverse to each other on every character |
| Golzi.FixedAgreesOnLetters | D-File/esercizio_e_golzi.cpp:66-113 | on letters, the corrected cipher is the original one |
| Decimal.IntToString | F-Puntatori_e_strutture_dati_dinamiche/lista/lista01.cpp:17-25 | the decimal text of an int: a leading minus exactly for negatives, then digits only |
| Decimal.IntRoundTrip | F-Puntatori_e_strutture_dati_dinamiche/lista/lista01.cpp:17-25 | the printed text reads back as the number, so distinct values never print alike |
| HexDump.HexValue | D-FileBinari/fileShow.c:45-46 | a hex digit has value below 16 and is the digit printed for that value |
| HexDump.ZeroPadHex | D-FileBinari/fileShow.c:42-46 | the hex text of a number has only hex digits and at least the requested width, exactly that width when the number fits |
| HexDump.HexRoundTrip | D-FileBinari/fileShow.c:42-46 | the padded hex text reads back as the number printed |
| HexDump.ColumnOf | D-FileBinari/fileShow.c:44-54 | every character of the hex area belongs to exactly one of the 16 columns |
| HexDump.HexArea | D-FileBinari/fileShow.c:44-54 | the hex area is 49 characters wide whatever the chunk length |
| HexDump.ColumnAt | D-FileBinari/fileShow.c:44-54 | column j of the hex area is the three-character field of byte j (blank when missing), with one extra space after column 7 |
| HexDump.HexColumns | D-FileBinari/fileShow.c:44-54 | the column loop writes exactly the hex area |
| HexDump.AsciiArea | D-FileBinari/fileShow.c:58-64 | one character per byte read: the byte itself when printable (32..126), '.' otherwise |
| HexDump.Lines | D-FileBinari/fileShow.c:41-68 | one line per 16-byte chunk, the last possibly shorter |
| HexDump.LineK | D-FileBinari/fileShow.c:41-68 | line k shows bytes 16k to 16k+15 at offset 16k |
| HexDump.LineOffset | D-FileBinari/fileShow.c:42 | while the offset is below 16 to the eighth, the first eight characters of a line read back as the offset |
| HexDump.ColumnDigits | D-FileBinari/fileShow.c:45-46 | a present byte's column opens with its two hex digits |
| HexDump.LineByte | D-FileBinari/fileShow.c:42-54 | byte i of the chunk reads back from the two hex digits at column i, ten characters into the line |
| HexDump.LineTail | D-FileBinari/fileShow.c:56-66 | after the hex area comes one blank, then the ASCII column, then the newline |
| HexDump.LineDecodes | D-FileBinari/fileShow.c:41-68 | a printed line gives back its offset, every byte read and the ASCII column |
| HexDump.PrintHexAndAscii | D-FileBinari/fileShow.c:36-69 | the output is the lines of every chunk in order, and nothing for an empty file |
| Conta.Printables | D-File/conta.c:38-40 | the printable codes of the input, in order: each appears as often as in the input |
| Conta.Count | D-File/conta.c:32-46 | the loop's counters are the fold over the input; the word counter stays 0 and neither other counter exceeds the input length |
| Conta.Additive | D-File/conta.c:32-46 | counting two pieces and adding gives the count of their concatenation |
| Conta.WordsNeverCounted | D-File/conta.c:17 | the word counter is never incremented |
| Conta.CountsMatch | D-File/conta.c:38-45 | the character count is the number of printable codes and the line count the number of newlines; together they never exceed the input length |
| Conto.Crea | D-OOP/Moduli/ContoBancario.cpp:23-24 | the account holds the given number, holder and opening balance |
| Conto.OttieniSaldo | D-OOP/Moduli/ContoBancario.cpp:46-48 | the balance is all the state an account has beyond number and holder: rebuilding an account from those and the balance read gives the same account |
| Conto.Deposita | D-OOP/Moduli/ContoBancario.cpp:30-36 | accepted exactly for a positive amount, which is then added; a rejected deposit changes nothing; number and holder never change |
| Conto.Preleva | D-OOP/Moduli/ContoBancario.cpp:38-44 | accepted exactly for a positive amount covered by the balance, which then drops by it and stays non-negative; a rejected withdrawal changes nothing |
| Conto.Esegui | D-OOP/Moduli/ContoBancario.cpp:30-44 | one accept-or-reject report per request |
| Conto.EseguiInvariant | D-OOP/Moduli/ContoBancario.cpp:30-44 | no sequence of requests makes a non-negative balance negative; number and holder are kept; the final balance is the opening one plus the net of the accepted requests |
| Conto.Scenario | D-OOP/Moduli/main.cpp:4-15 | 1000 plus 500 gives 1500, minus 200 gives 1300, and the withdrawal of 1500 is refused |
| Semaforo.CambiaStato | _Learning_JS_with_Lego_EV3/10-ProgrammazioneAvanzata/esercizi/01_Esercizio_SemaforoIntelligente.js:34-36 | the new state is entered with its timer at 0; the pending request is kept |
| Semaforo.Iniziale | _Learning_JS_with_Lego_EV3/10-ProgrammazioneAvanzata/esercizi/01_Esercizio_SemaforoIntelligente.js:24-26 | the light starts red, timer 0, no request, and satisfies the timer invariant |
| Semaforo.Pulsante | _Learning_JS_with_Lego_EV3/10-ProgrammazioneAvanzata/esercizi/01_Esercizio_SemaforoIntelligente.js:58-62 | the button sets the pending request and touches nothing else; the timer invariant is kept |
| Semaforo.Tick | _Learning_JS_with_Lego_EV3/10-ProgrammazioneAvanzata/esercizi/01_Esercizio_SemaforoIntelligente.js:68-97 | a tick either keeps the state with 100 ms more on the timer or enters the next state of the cycle with the timer at 0; leaving a state for any state but green keeps the pending request |
| Semaforo.TickStep | _Learning_JS_with_Lego_EV3/10-ProgrammazioneAvanzata/esercizi/01_Esercizio_SemaforoIntelligente.js:68-97 | a tick either adds 100 ms to the timer or moves to the next state of the red, yellow, green, yellow cycle with the timer at 0; entering green clears the request; the timer invariant is kept |
| Semaforo.TicksSnoc | _Learning_JS_with_Lego_EV3/10-ProgrammazioneAvanzata/esercizi/01_Esercizio_SemaforoIntelligente.js:68-70 | n + 1 ticks are n ticks followed by one |
| Semaforo.Waits | _Learning_JS_with_Lego_EV3/10-ProgrammazioneAvanzata/esercizi/01_Esercizio_SemaforoIntelligente.js:68-97 | while a state is not over, ticks only advance its timer |
| Semaforo.RedLasts5000 | _Learning_JS_with_Lego_EV3/10-ProgrammazioneAvanzata/esercizi/01_Esercizio_SemaforoIntelligente.js:73-77 | red lasts exactly 50 ticks, then yellow begins, whatever the request |
| Semaforo.GreenDuration | _Learning_JS_with_Lego_EV3/10-ProgrammazioneAvanzata/esercizi/01_Esercizio_SemaforoIntelligente.js:84-90 | green lasts 5000 ms without a request and 2000 ms with one |
| Semaforo.YellowLasts2000 | _Learning_JS_with_Lego_EV3/10-ProgrammazioneAvanzata/esercizi/01_Esercizio_SemaforoIntelligente.js:78-83 | each yellow lasts 2000 ms; the first leads to green with the request cleared, the second to red |
| Robot.Set | _Learning_JS_with_Lego_EV3/10-ProgrammazioneAvanzata/esempi/06_RobotEsploratoreSemplice.js:12 | writing one map cell changes that cell only and keeps the map 10 x 10 |
| Robot.InizializzaMappa | _Learning_JS_with_Lego_EV3/10-ProgrammazioneAvanzata/esempi/06_RobotEsploratoreSemplice.js:15-17 | the robot starts at (5, 5) facing north with no steps; every cell is unknown except its own, which is free |
| Robot.AggiornaPosizione | _Learning_JS_with_Lego_EV3/10-ProgrammazioneAvanzata/esempi/06_RobotEsploratoreSemplice.js:41-55 | the robot moves one cell ahead when that cell is on the grid and otherwise stays at the border; direction and steps are kept |
| Robot.GiraDestra | _Learning_JS_with_Lego_EV3/10-ProgrammazioneAvanzata/esempi/06_RobotEsploratoreSemplice.js:57-65 | a right turn gives a valid direction whose forward step is the old step rotated a quarter turn clockwise on the grid |
| Robot.GiraSinistra | _Learning_JS_with_Lego_EV3/10-ProgrammazioneAvanzata/esempi/06_RobotEsploratoreSemplice.js:67-75 | a left turn gives a valid direction whose forward step is the old step rotated a quarter turn anticlockwise on the grid |
| Robot.TurnsInverse | _Learning_JS_with_Lego_EV3/10-ProgrammazioneAvanzata/esempi/06_RobotEsploratoreSemplice.js:57-75 | the right and left turns undo each other; four right turns make a full circle; a turn always changes direction |
| Robot.ControllaEAggiornaMappa | _Learning_JS_with_Lego_EV3/10-ProgrammazioneAvanzata/esempi/06_RobotEsploratoreSemplice.js:91-113 | an obstacle is reported exactly for a reading under 25 cm; then the cell ahead is marked as an obstacle when it is on the grid; position, direction and steps never change |
| Robot.Esplora | _Learning_JS_with_Lego_EV3/10-ProgrammazioneAvanzata/esempi/06_RobotEsploratoreSemplice.js:119-155 | the robot stops exactly after 30 steps; otherwise each call is one step: it turns right on an obstacle, advances into a cell ahead that is on the grid and not an obstacle (marking it free), and turns left otherwise |
| Robot.Esplorazione | _Learning_JS_with_Lego_EV3/10-ProgrammazioneAvanzata/esempi/06_RobotEsploratoreSemplice.js:161-167 | the repeated exploration keeps the robot invariant |
| Robot.StepsBounded | _Learning_JS_with_Lego_EV3/10-ProgrammazioneAvanzata/esempi/06_RobotEsploratoreSemplice.js:119-167 | n calls make min(n, 30) steps in total, and a robot that has made 30 no longer changes |
| Sensori.NomeColore | _Learning_JS_with_Lego_EV3/05-Funzioni-Modularita/esercizi/Esercizio2_FunzioniSensori.js:54-68 | codes 0..7 get their name from the table; "Sconosciuto" is returned exactly for every other code |
| Sensori.NomiDistinti | _Learning_JS_with_Lego_EV3/05-Funzioni-Modularita/esercizi/Esercizio2_FunzioniSensori.js:54-68 | different known codes get different names |
| Sensori.CalcolaVelocita | _Learning_JS_with_Lego_EV3/05-Funzioni-Modularita/esercizi/Esercizio2_FunzioniSensori.js:93-108 | the speed is one of 0, 30, 60 and 90 |
| Sensori.OstacoloRilevato | _Learning_JS_with_Lego_EV3/05-Funzioni-Modularita/esercizi/Esercizio2_FunzioniSensori.js:76-82 | an object exactly at the threshold is not an obstacle; with the 10 cm threshold an obstacle is seen exactly when the speed rule stops the robot |
| Sensori.VelocitaMonotona | _Learning_JS_with_Lego_EV3/05-Funzioni-Modularita/esercizi/Esercizio2_FunzioniSensori.js:76-108 | a greater distance never gives a lower speed; the speed is 0 exactly when an obstacle is within 10 cm |
| Sensori.DecidiAzioneColore | _Learning_JS_with_Lego_EV3/05-Funzioni-Modularita/esercizi/Esercizio2_FunzioniSensori.js:115-136 | the action is always a known one, "proseguire con cautela" for every code outside 1..6 |
| Sensori.AzioniDistinte | _Learning_JS_with_Lego_EV3/05-Funzioni-Modularita/esercizi/Esercizio2_FunzioniSensori.js:115-136 | codes 1..6 get six different actions, none of them the default |
| Sensori.EseguiAzione | _Learning_JS_with_Lego_EV3/05-Funzioni-Modularita/esercizi/Esercizio2_FunzioniSensori.js:144-177 | the result is true exactly for the seven known actions |
| Sensori.DecisioniEseguibili | _Learning_JS_with_Lego_EV3/05-Funzioni-Modularita/esercizi/Esercizio2_FunzioniSensori.js:115-177 | every action decided on for a colour can be carried out |
| Logging.Iniziale | _Learning_JS_with_Lego_EV3/09-GestioneDati/esempi/05_LoggingAvanzato.js:21-24 | the logger starts at level INFO with an empty buffer |
| Logging.LevelStr | _Learning_JS_with_Lego_EV3/09-GestioneDati/esempi/05_LoggingAvanzato.js:34-41 | the tag has three letters; it is "LOG" exactly for levels other than DEBUG to ERROR |
| Logging.Format | _Learning_JS_with_Lego_EV3/09-GestioneDati/esempi/05_LoggingAvanzato.js:44-45 | the stored line is the time stamp, "s [", the tag, "]: " and the message |
| Logging.Log | _Learning_JS_with_Lego_EV3/09-GestioneDati/esempi/05_LoggingAvanzato.js:29-55 | a message below the current level changes nothing; otherwise its line is appended and only the last five lines are kept; the level never changes |
| Logging.LogAll | _Learning_JS_with_Lego_EV3/09-GestioneDati/esempi/05_LoggingAvanzato.js:29-55 | a run of messages never leaves more than five lines and never changes the level |
| Logging.LastNAppend | _Learning_JS_with_Lego_EV3/09-GestioneDati/esempi/05_LoggingAvanzato.js:48-51 | appending to the last n lines and keeping the last n again is the same as keeping the last n lines of the whole |
| Logging.BufferIsLastFive | _Learning_JS_with_Lego_EV3/09-GestioneDati/esempi/05_LoggingAvanzato.js:29-55 | after any run of messages the buffer holds the last five of those that passed the level filter, in order |
| Logging.LogAllSnoc | _Learning_JS_with_Lego_EV3/09-GestioneDati/esempi/05_LoggingAvanzato.js:29-55 | logging one more message after a run is one more call of the logger |
| Logging.SetLevel | _Learning_JS_with_Lego_EV3/09-GestioneDati/esempi/05_LoggingAvanzato.js:90-92 | the new level is the current one and the buffer is kept |
| Logging.SwitchToDebugAdmitsDebug | _Learning_JS_with_Lego_EV3/09-GestioneDati/esempi/05_LoggingAvanzato.js:90-95 | a DEBUG message is dropped at the initial level INFO but appended once the driver lowers the level to DEBUG, after the lines already kept |
| Logging.NoneSilencesNamedLevels | _Learning_JS_with_Lego_EV3/09-GestioneDati/esempi/05_LoggingAvanzato.js:12-18 | at level NONE every message of level DEBUG to ERROR is dropped |
| Config.Field | _Learning_JS_with_Lego_EV3/04-StruttureDati/esercizi/02_ConfigurazioniMultiple.js:104-105 | a property is missing exactly when no own key matches; a value found is the one stored under the first property with that key |
| Config.Trova | _Learning_JS_with_Lego_EV3/04-StruttureDati/esercizi/02_ConfigurazioniMultiple.js:61 | the index found is that of the first configuration with that name; none is found exactly when no configuration has it |
| Config.CaricaConfigurazione | _Learning_JS_with_Lego_EV3/04-StruttureDati/esercizi/02_ConfigurazioniMultiple.js:60-71 | the load succeeds exactly when a configuration has the name, and then the active configuration is that catalog entry; otherwise the active configuration is kept |
| Config.NomiUnivoci | _Learning_JS_with_Lego_EV3/04-StruttureDati/esercizi/02_ConfigurazioniMultiple.js:13-53 | no two catalog entries share a name |
| Config.IndexOf | _Learning_JS_with_Lego_EV3/04-StruttureDati/esercizi/02_ConfigurazioniMultiple.js:101 | the position found holds the separator and no earlier position does |
| Config.Split | _Learning_JS_with_Lego_EV3/04-StruttureDati/esercizi/02_ConfigurazioniMultiple.js:101 | splitting gives at least one piece and no piece contains the separator |
| Config.SplitJoin | _Learning_JS_with_Lego_EV3/04-StruttureDati/esercizi/02_ConfigurazioniMultiple.js:101 | joining the pieces with the separator gives the name back |
| Config.SplitOnce | _Learning_JS_with_Lego_EV3/04-StruttureDati/esercizi/02_ConfigurazioniMultiple.js:101 | a name with exactly one separator splits into the text before it and the text after it |
| Config.PercorriConcat | _Learning_JS_with_Lego_EV3/04-StruttureDati/esercizi/02_ConfigurazioniMultiple.js:102-111 | a path can be walked in two legs, the second starting where the first ends |
| Config.PercorriDue | _Learning_JS_with_Lego_EV3/04-StruttureDati/esercizi/02_ConfigurazioniMultiple.js:102-111 | a two-key path is the second key looked up in the value of the first |
| Config.GetParametroConfig | _Learning_JS_with_Lego_EV3/04-StruttureDati/esercizi/02_ConfigurazioniMultiple.js:99-112 | the result is the walk of the split name from the active configuration, undefined as soon as a step finds no object or no such key |
| Config.ScenarioPreciso | _Learning_JS_with_Lego_EV3/04-StruttureDati/esercizi/02_ConfigurazioniMultiple.js:119 | loading "Movimento Preciso" succeeds |
| Config.ScenarioPrecisoVelocita | _Learning_JS_with_Lego_EV3/04-StruttureDati/esercizi/02_ConfigurazioniMultiple.js:122 | its base speed is 25 |
| Config.SensoriPreciso | _Learning_JS_with_Lego_EV3/04-StruttureDati/esercizi/02_ConfigurazioniMultiple.js:127 | its sensor switches are ultrasonic, colour and touch, all on |
| Config.ColorePreciso | _Learning_JS_with_Lego_EV3/04-StruttureDati/esercizi/02_ConfigurazioniMultiple.js:127 | the colour switch among them is on |
| Config.ScenarioPrecisoColore | _Learning_JS_with_Lego_EV3/04-StruttureDati/esercizi/02_ConfigurazioniMultiple.js:127 | the path "sensoriAttivi.colore" gives true |
| Config.ScenarioSplit | _Learning_JS_with_Lego_EV3/04-StruttureDati/esercizi/02_ConfigurazioniMultiple.js:127 | "sensoriAttivi.colore" splits into its two keys |
| Config.ScenarioVeloce | _Learning_JS_with_Lego_EV3/04-StruttureDati/esercizi/02_ConfigurazioniMultiple.js:131-132 | loading "Esplorazione Veloce" succeeds and gives base speed 75 |
| Config.ScenarioInesistente | _Learning_JS_with_Lego_EV3/04-StruttureDati/esercizi/02_ConfigurazioniMultiple.js:138 | loading an unknown name fails and keeps the active configuration |
| Generators.Fibs | C++ByExample/26_cpp20_coroutines/esempi/generator_esempio.cpp:70-81 | the first n Fibonacci numbers, none for n not positive |
| Generators.Fibonacci | C++ByExample/26_cpp20_coroutines/esempi/generator_esempio.cpp:70-81 | the coroutine yields max(n, 0) values that start 0, 1 and follow the Fibonacci recurrence, so they are the first n Fibonacci numbers |
| Generators.FibonacciTen | C++ByExample/26_cpp20_coroutines/esempi/generator_esempio.cpp:99-103 | fibonacci(10) yields 0 1 1 2 3 5 8 13 21 34 |
| Generators.StepCount | C++ByExample/26_cpp20_coroutines/esempi/generator_esempio.cpp:84-95 | the loop visits no value exactly when max is below start, and otherwise the last value it visits is within 2 of max |
| Generators.CountBy2 | C++ByExample/26_cpp20_coroutines/esempi/generator_esempio.cpp:84-95 | the loop yields exactly the numbers from start to max with the parity of start, increasing by 2 |
| Generators.SteppingMembers | C++ByExample/26_cpp20_coroutines/esempi/generator_esempio.cpp:84-95 | a number is visited exactly when it lies between start and max with the parity of start |
| Generators.EvenNumbers | C++ByExample/26_cpp20_coroutines/esempi/generator_esempio.cpp:84-88 | even_numbers(max) yields 0, 2, 4 and so on up to max, and exactly the even numbers in that range |
| Generators.OddNumbers | C++ByExample/26_cpp20_coroutines/esempi/generator_esempio.cpp:91-95 | odd_numbers(max) yields 1, 3, 5 and so on up to max, and exactly the odd numbers in that range |
| Generators.EvensAndOddsPartition | C++ByExample/26_cpp20_coroutines/esempi/generator_esempio.cpp:84-95 | every number from 0 to max is in exactly one of the two sequences, and neither holds anything else |
| Generators.UpToTwenty | C++ByExample/26_cpp20_coroutines/esempi/generator_esempio.cpp:105-117 | the numbers up to 20: 0 to 20 even, 1 to 19 odd |

## Left out

- Console and display output is not modelled: `printf`, `cout`, `putchar`, the menus and `scanf` input, and the EV3 screen, lights and sounds. The one exception is the hex dump line, which is modelled exactly.
- Allocation, `free` and `delete`, and the allocation-failure branches are not modelled. Containers are immutable values.
- Files are not read. The model takes their contents as a sequence of bytes or codes. The extra byte written by the ciphers' `while (!feof(...))` loops is not modelled.
- The coroutine machinery of `generator_esempio.cpp` is not modelled: the promise type, the handle and the suspension points. Only the yielded sequences are.
- Motors and sensors are not modelled: `leggiDistanza`, `leggiColore`, `navigazioneAutonoma` and `main` in `Esercizio2_FunzioniSensori.js`, the motor commands in `eseguiAzione` and `avanzaUnaCella`, and `updateLogDisplay`. Only the values these functions compute or return are modelled.
- `riskyOperation` in the logging example is not modelled; it only calls the logger.
- `applicaConfigurazione` and `mostraConfigurazioniDisponibili` are not modelled; they only print. The JSON round-trip copy in `caricaConfigurazione` is the identity on immutable values.
- Config.GetParametroConfig: `key in value` in JavaScript also finds inherited properties such as `toString`. The model looks only at a configuration's own properties.
- Logging.Format: the time stamp is passed in already formatted, because `control.millis()` and `toFixed(1)` are not modelled.
- Conto.Deposita: amounts are exact reals; rounding of C++ `double` values is not modelled.
- Conto.Preleva: amounts are exact reals; rounding of C++ `double` values is not modelled.
- WaitingLine.CalcolaTempoMedioAttesa: the `double` division is computed exactly.
- Sollo.MCD: the remainder passes through a `float` in the source. The model keeps it exact, which matches the source for magnitudes below 2^24.
- Sollo.AreaRettangolo: requires the product to fit in a 32-bit `int`. Overflow is undefined behaviour in C.
- Zanirato.AreaRettangolo: requires the product to fit in a 32-bit `int`. Overflow is undefined behaviour in C.
- Sollo.SommaDivisori: the sum is unbounded; 32-bit overflow on very large arguments is not modelled.
- Zanirato.SommaDivisori: the sum is unbounded; 32-bit overflow on very large arguments is not modelled.
- Generators.Fibonacci: values are unbounded. The source's `int` overflows from the 48th value on.
- Generators.CountBy2: `i += 2` is unbounded. The source's `int` overflows when `max` is within 2 of `INT_MAX`.
- LinkedList.InsertAtPosition: the position is a `nat`. In the source a negative position acts on index 1 of a non-empty list.
- LinkedList.DeleteFromPosition: the position is a `nat`, for the same reason.
- Lista.PosEle: requires a non-empty list. On an empty list the loop of `trova_pos_ele` never runs and it returns the uninitialised `prec` (lista01.cpp:66-77), which the caller then dereferences at `p1->next` (lista01.cpp:195).
- Lista.TrovaPosEle: requires a non-empty list, for the same reason.
- Lista.InserisciDopo: requires a node to insert after, as the driver always has one.
- Coda.Dequeue: requires at least two nodes. With a single node the source reads an uninitialised `prec` pointer.
- HexDump.LineOffset: stated for offsets below 16^8. Beyond that, `%08zx` prints more than eight digits and the columns shift. `ZeroPadHex` still models that case.
- HexDump.LineByte: stated for offsets below 16^8, for the same reason.
- HexDump.LineTail: stated for offsets below 16^8, for the same reason.
- HexDump.LineDecodes: stated for offsets below 16^8, for the same reason.

## Findings

| source | as written | input that shows it | evidently intended | confidence | as-written member | corrected member |
|---|---|---|---|---|---|---|
| F-Strutture_dati_dinamiche/StruttureDatiDinamiche/02_c_stack.c:189-218 | an opener pushed onto the full 100-slot array stack is dropped, and the failed push is ignored | 101 '(' followed by 101 ')' is rejected | every balanced expression is accepted, whatever its depth; `StackApps.Balanced` scans with an unbounded stack | medium, not executed | StackApps.OverflowRejectsBalancedInput | StackApps.DeepNestBalanced |
| F-Strutture_dati_dinamiche/StruttureDatiDinamiche/02_cpp_stack.cpp:171-198 | the C++ checker declares the same 100-slot `ArrayStack` and ignores the result of `stack.push(c)`, so an opener that meets a full stack is dropped | 101 '(' followed by 101 ')' is rejected | every balanced expression is accepted, whatever its depth | medium, not executed | StackApps.OverflowRejectsBalancedInput | StackApps.DeepNestBalanced |
| D-File/esercizio_e_golzi.cpp:66-113 | `crypt` subtracts 23 from every character outside 'a'..'w' and 'A'..'W', and `decrypt` adds 23 outside 'd'..'z' and 'D'..'Z', so non-letters change and some do not come back | '[' is encrypted to 'D', which is decrypted to 'A' | letters rotate by three, everything else is copied, and decryption undoes encryption on every character | high, not executed | Golzi.BracketCounterexample | Golzi.FixedRoundTrip |

=== FILE: array_stack.dfy ===
/** The fixed-capacity ArrayStack of 02_c_stack.c, whose C++ class in
    02_cpp_stack.cpp runs the same code. `items` is the whole buffer; the
    slots 0..top hold the stack, oldest at 0 and newest at `top`. */
module ArrayStack {
  import Opt
  import Seqs

  const MAX_SIZE: int := 100

  datatype Stack = Stack(items: seq<int>, top: int)

  /** The buffer has MAX_SIZE slots and `top` lies in [-1, MAX_SIZE-1]. */
  predicate Valid(s: Stack)
  {
    |s.items| == MAX_SIZE && -1 <= s.top <= MAX_SIZE - 1
  }

  /** The values logically present, bottom first. */
  function Elems(s: Stack): seq<int>
    requires Valid(s)
  {
    s.items[..s.top + 1]
  }

  /** `initArrayStack` / the constructor: `top = -1`. The buffer's old
      contents are irrelevant and are modelled as zeros. */
  function Init(): (s: Stack)
    ensures Valid(s) && Elems(s) == []
  {
    Stack(seq(MAX_SIZE, _ => 0), -1)
  }

  predicate IsEmpty(s: Stack) { s.top == -1 }

  predicate IsFull(s: Stack) { s.top == MAX_SIZE - 1 }

  /** `arrayStackPush` / `ArrayStack::push`: fails, leaving the stack as it
      was, exactly when it is full; otherwise stores the value at `++top`. */
  function Push(s: Stack, value: int): (r: (bool, Stack))
    requires Valid(s)
    ensures Valid(r.1)
    ensures r.0 <==> |Elems(s)| < MAX_SIZE
    ensures !r.0 ==> r.1 == s
    ensures r.0 ==> Elems(r.1) == Elems(s) + [value]
  {
    if IsFull(s) then (false, s)
    else
      var s' := Stack(s.items[s.top + 1 := value], s.top + 1);
      assert Elems(s') == Elems(s) + [value];
      (true, s')
  }

  /** `arrayStackPop` / `ArrayStack::pop`: on an empty stack nothing is
      returned and nothing changes; otherwise the newest value comes out. */
  function Pop(s: Stack): (r: (Opt.Option<int>, Stack))
    requires Valid(s)
    ensures Valid(r.1)
    ensures Elems(s) == [] ==> r == (Opt.None, s)
    ensures Elems(s) != [] ==>
      r.0 == Opt.Some(Elems(s)[|Elems(s)| - 1]) && Elems(r.1) == Elems(s)[..|Elems(s)| - 1]
  {
    if IsEmpty(s) then (Opt.None, s)
    else (Opt.Some(s.items[s.top]), Stack(s.items, s.top - 1))
  }

  /** `arrayStackPeek` / `ArrayStack::peek`: the newest value, or nothing on
      an empty stack. */
  function Peek(s: Stack): (r: Opt.Option<int>)
    requires Valid(s)
    ensures r.None? <==> Elems(s) == []
    ensures r.Some? ==> r.value == Elems(s)[|Elems(s)| - 1]
  {
    if IsEmpty(s) then Opt.None else Opt.Some(s.items[s.top])
  }

  /** `arrayStackSize` / `ArrayStack::size`: `top + 1`. */
  function Size(s: Stack): (n: int)
    requires Valid(s)
    ensures n == |Elems(s)|
    ensures 0 <= n <= MAX_SIZE
  {
    s.top + 1
  }

  /** A successful push followed by a pop yields the pushed value and the
      same logical stack as before the push. */
  lemma PushThenPop(s: Stack, value: int)
    requires Valid(s) && !IsFull(s)
    ensures Push(s, value).0
    ensures Pop(Push(s, value).1).0 == Opt.Some(value)
    ensures Elems(Pop(Push(s, value).1).1) == Elems(s)
  {
    var e := Elems(Push(s, value).1);
    assert e == Elems(s) + [value];
    assert e[..|e| - 1] == Elems(s);
  }

  /** Pushing each of `xs` in turn, ignoring failures as the bracket checker does. */
  function PushAll(s: Stack, xs: seq<int>): (r: Stack)
    requires Valid(s)
    ensures Valid(r)
    decreases xs
  {
    if xs == [] then s else PushAll(Push(s, xs[0]).1, xs[1..])
  }

  /** Popping `n` times, collecting the values in the order they come out. */
  function PopN(s: Stack, n: nat): (r: (seq<int>, Stack))
    requires Valid(s)
    ensures Valid(r.1)
    decreases n
  {
    if n == 0 then ([], s)
    else
      var popped := Pop(s);
      var rest := PopN(popped.1, n - 1);
      (if popped.0.Some? then [popped.0.value] + rest.0 else rest.0, rest.1)
  }

  /** When nothing overflows, every push extends the logical stack. */
  lemma {:induction false} PushAllElems(s: Stack, xs: seq<int>)
    requires Valid(s) && |Elems(s)| + |xs| <= MAX_SIZE
    ensures Elems(PushAll(s, xs)) == Elems(s) + xs
    decreases xs
  {
    if xs != [] {
      var s1 := Push(s, xs[0]).1;
      PushAllElems(s1, xs[1..]);
      assert Elems(s) + [xs[0]] + xs[1..] == Elems(s) + xs;
    }
  }

  /** Popping `n` times lowers `top` by `n` and leaves the buffer untouched. */
  lemma {:induction false} PopNBuffer(s: Stack, n: nat)
    requires Valid(s) && n <= s.top + 1
    ensures PopN(s, n).1 == Stack(s.items, s.top - n)
    decreases n
  {
    if n > 0 {
      PopNBuffer(Stack(s.items, s.top - 1), n - 1);
    }
  }

  /** Reading downwards from `top` is the value at `top`, then reading
      downwards from `top - 1`. */
  lemma ReadDown(items: seq<int>, top: int, n: nat)
    requires 0 < n <= top + 1 <= |items|
    ensures seq(n, i requires 0 <= i < n => items[top - i])
         == [items[top]] + seq(n - 1, i requires 0 <= i < n - 1 => items[top - 1 - i])
  {
  }

  /** Popping `n` times reads the buffer downwards from `top`. */
  lemma {:induction false} PopNValues(s: Stack, n: nat)
    requires Valid(s) && n <= s.top + 1
    ensures PopN(s, n).0 == seq(n, i requires 0 <= i < n => s.items[s.top - i])
    decreases n
  {
    if n > 0 {
      var s' := Stack(s.items, s.top - 1);
      PopNValues(s', n - 1);
      ReadDown(s.items, s.top, n);
    }
  }

  /** Popping `n` values off a stack returns its top `n` values newest
      first and leaves the rest. */
  lemma PopNElems(s: Stack, n: nat)
    requires Valid(s) && n <= |Elems(s)|
    ensures PopN(s, n).0 == Seqs.Reverse(Elems(s)[|Elems(s)| - n..])
    ensures Elems(PopN(s, n).1) == Elems(s)[..|Elems(s)| - n]
  {
    PopNBuffer(s, n);
    PopNValues(s, n);
    var t := Elems(s)[|Elems(s)| - n..];
    assert forall i :: 0 <= i < n ==> Seqs.Reverse(t)[i] == s.items[s.top - i];
  }

  lemma ReverseSnoc(a: seq<int>, x: int)
    ensures Seqs.Reverse(a + [x]) == [x] + Seqs.Reverse(a)
  {
  }

  /** The LIFO law: pushing `xs` onto a stack with room for them and popping
      as many values returns `xs` reversed and restores the stack. */
  lemma LifoLaw(s: Stack, xs: seq<int>)
    requires Valid(s) && |Elems(s)| + |xs| <= MAX_SIZE
    ensures PopN(PushAll(s, xs), |xs|).0 == Seqs.Reverse(xs)
    ensures Elems(PopN(PushAll(s, xs), |xs|).1) == Elems(s)
  {
    PushAllElems(s, xs);
    var t := PushAll(s, xs);
    PopNElems(t, |xs|);
    assert Elems(t)[|Elems(t)| - |xs|..] == xs;
    assert Elems(t)[..|Elems(t)| - |xs|] == Elems(s);
  }
}

=== FILE: chars.dfy ===
/** Character codes as the C programs see them: a `char` is a signed 8-bit
    value, and letters and printable characters are ASCII ranges. */
module Chars {

  /** A value of C's (signed) `char`. */
  type SChar = c: int | -128 <= c < 128

  predicate IsLower(c: int)
  {
    'a' as int <= c <= 'z' as int
  }

  predicate IsUpper(c: int)
  {
    'A' as int <= c <= 'Z' as int
  }

  predicate IsLetter(c: int)
  {
    IsLower(c) || IsUpper(c)
  }

  /** Printable ASCII: space through '~'. */
  predicate IsPrintable(c: int)
  {
    32 <= c <= 126
  }

  /** The conversion of an `int` back into a `char`: two's-complement
      wrap-around modulo 256. */
  function WrapSChar(n: int): (c: SChar)
    ensures (c - n) % 256 == 0
    ensures -128 <= n < 128 ==> c == n
  {
    (n + 128) % 256 - 128
  }
}

=== FILE: circular_queue.dfy ===
/** The CircularQueue of 03_c_queue.c: a 100-slot ring with `front`, `rear`
    and an explicit `size`. Empty is `size == 0` with `front == rear == -1`;
    otherwise the live slots run from `front` for `size` slots, wrapping. */
module CircularQueue {
  import Opt
  import QueueSpec

  const MAX_SIZE: int := 100

  datatype Queue = Queue(items: seq<int>, front: int, rear: int, size: int)

  /** The ring invariant: `size` in [0, MAX_SIZE]; empty means the -1
      sentinels; otherwise `rear == (front + size - 1) mod MAX_SIZE`. */
  predicate Valid(q: Queue)
  {
    && |q.items| == MAX_SIZE
    && 0 <= q.size <= MAX_SIZE
    && (q.size == 0 ==> q.front == -1 && q.rear == -1)
    && (q.size > 0 ==> 0 <= q.front < MAX_SIZE && q.rear == (q.front + q.size - 1) % MAX_SIZE)
  }

  /** The queued values, oldest first, read round the ring from `front`. */
  function Elems(q: Queue): (s: seq<int>)
    requires Valid(q)
    ensures |s| == q.size
  {
    seq(q.size, i requires 0 <= i < q.size => q.items[(q.front + i) % MAX_SIZE])
  }

  /** `initCircularQueue`; the buffer's old contents are modelled as zeros. */
  function Init(): (q: Queue)
    ensures Valid(q) && Elems(q) == []
  {
    Queue(seq(MAX_SIZE, _ => 0), -1, -1, 0)
  }

  predicate IsEmpty(q: Queue) { q.size == 0 }

  predicate IsFull(q: Queue) { q.size == MAX_SIZE }

  /** Distinct offsets below MAX_SIZE from the same start land on distinct slots. */
  lemma DistinctSlots(front: int, i: int, j: int)
    requires 0 <= front < MAX_SIZE && 0 <= i < j < MAX_SIZE
    ensures (front + i) % MAX_SIZE != (front + j) % MAX_SIZE
  {
  }

  /** `circularQueueEnqueue`: fails iff `size == MAX_SIZE`; otherwise `rear`
      advances modulo MAX_SIZE, the value is stored there and `size` grows. */
  function Enqueue(q: Queue, value: int): (r: (bool, Queue))
    requires Valid(q)
    ensures Valid(r.1)
    ensures r.0 <==> q.size < MAX_SIZE
    ensures !r.0 ==> r.1 == q
    ensures r.0 ==> r.1.rear == (q.rear + 1) % MAX_SIZE && r.1.size == q.size + 1
    ensures r.0 ==> Elems(r.1) == Elems(q) + [value]
  {
    if IsFull(q) then (false, q)
    else
      var front := if q.front == -1 then 0 else q.front;
      var rear := (q.rear + 1) % MAX_SIZE;
      var q' := Queue(q.items[rear := value], front, rear, q.size + 1);
      assert rear == (front + q.size) % MAX_SIZE;
      forall i | 0 <= i < q.size
        ensures Elems(q')[i] == Elems(q)[i]
      {
        DistinctSlots(front, i, q.size);
      }
      (true, q')
  }

  /** `circularQueueDequeue`: fails on an empty queue; otherwise returns
      `items[front]`; the only element resets to the -1 sentinels, otherwise
      `front` advances modulo MAX_SIZE; `size` shrinks by one. */
  function Dequeue(q: Queue): (r: (Opt.Option<int>, Queue))
    requires Valid(q)
    ensures Valid(r.1)
    ensures q.size == 0 ==> r == (Opt.None, q)
    ensures q.size > 0 ==> r.0 == Opt.Some(q.items[q.front]) && r.1.size == q.size - 1
    ensures q.size > 0 ==> r.0 == Opt.Some(Elems(q)[0]) && Elems(r.1) == Elems(q)[1..]
    ensures q.size == 1 ==> r.1.front == -1 && r.1.rear == -1
  {
    if IsEmpty(q) then (Opt.None, q)
    else if q.front == q.rear then
      assert q.size == 1 by {
        if q.size > 1 {
          DistinctSlots(q.front, 0, q.size - 1);
        }
      }
      (Opt.Some(q.items[q.front]), Queue(q.items, -1, -1, 0))
    else
      var q' := Queue(q.items, (q.front + 1) % MAX_SIZE, q.rear, q.size - 1);
      forall i | 0 <= i < q.size - 1
        ensures Elems(q')[i] == Elems(q)[i + 1]
      {
        assert ((q.front + 1) % MAX_SIZE + i) % MAX_SIZE == (q.front + 1 + i) % MAX_SIZE;
      }
      (Opt.Some(q.items[q.front]), q')
  }

  /** `circularQueueFront`. */
  function Front(q: Queue): (r: Opt.Option<int>)
    requires Valid(q)
    ensures r.None? <==> Elems(q) == []
    ensures r.Some? ==> r.value == Elems(q)[0]
  {
    if IsEmpty(q) then Opt.None else Opt.Some(q.items[q.front])
  }

  /** `circularQueueSize`: the tracked `size`. */
  function Size(q: Queue): (n: int)
    requires Valid(q)
    ensures n == |Elems(q)| && 0 <= n <= MAX_SIZE
  {
    q.size
  }

  /** Runs queue requests against the ring, collecting the replies. */
  function Run(q: Queue, ops: seq<QueueSpec.Op>): (r: (Queue, seq<QueueSpec.Reply>))
    requires Valid(q)
    ensures Valid(r.0)
    decreases |ops|
  {
    if ops == [] then (q, [])
    else
      var (q1, reply) := match ops[0]
        case Enqueue(v) =>
          var (ok, q1) := Enqueue(q, v);
          (q1, if ok then QueueSpec.Accepted(v) else QueueSpec.Overflow)
        case Dequeue =>
          var (v, q1) := Dequeue(q);
          (q1, if v.Some? then QueueSpec.Got(v.value) else QueueSpec.Underflow);
      var (q2, rest) := Run(q1, ops[1..]);
      (q2, [reply] + rest)
  }

  /** The ring behaves as the abstract queue of capacity MAX_SIZE, so it
      inherits the FIFO law. */
  lemma {:induction false} Refines(q: Queue, ops: seq<QueueSpec.Op>)
    requires Valid(q)
    ensures Run(q, ops).1 == QueueSpec.Run(Elems(q), Opt.Some(MAX_SIZE), ops).1
    ensures Elems(Run(q, ops).0) == QueueSpec.Run(Elems(q), Opt.Some(MAX_SIZE), ops).0
    decreases |ops|
  {
    if ops != [] {
      match ops[0]
      case Enqueue(v) => Refines(Enqueue(q, v).1, ops[1..]);
      case Dequeue => Refines(Dequeue(q).1, ops[1..]);
    }
  }
}

=== FILE: coda.dfy ===
/** The prepend-and-drop-last queue of coda01.cpp. New elements enter at the
    head pointer; the oldest element is the last node, and `dequeue` cuts it
    off. Read from the last node back, the chain is the queue in FIFO order. */
module Coda {
  import opened Nodes
  import Seqs
  import LinkedList
  import Pila
  import QueueSpec
  import Opt

  /** The queue, oldest element first. */
  function Contents(p: Chain): seq<int>
  {
    Seqs.Reverse(Elems(p))
  }

  /** `creaCoda(p)`: the empty queue, whatever `p` held. */
  function CreaCoda(p: Chain): (r: Chain)
    ensures Contents(r) == []
  {
    Nil
  }

  /** `isVuota`: true exactly for the NULL head. */
  function IsVuota(p: Chain): (b: bool)
    ensures b <==> Contents(p) == []
  {
    p == Nil
  }

  /** `enqueue`: prepend a node, which in FIFO order joins at the back. */
  function Enqueue(p: Chain, elemento: int): (r: Chain)
    ensures Elems(r) == [elemento] + Elems(p)
    ensures Contents(r) == Contents(p) + [elemento]
  {
    Node(elemento, p)
  }

  /** `dequeue`: walk to the last node and unlink it, which removes the
      oldest element. The walk keeps the node before the last in `prec`,
      which is never set when the chain has one node and is dereferenced
      on a NULL head, so the source needs at least two nodes. */
  function Dequeue(p: Chain): (r: Chain)
    requires |Elems(p)| >= 2
    ensures Elems(r) == Elems(p)[..|Elems(p)| - 1]
    ensures Contents(r) == Contents(p)[1..]
  {
    LinkedList.DropLast(p)
  }

  /** `creaCoda(p, c, quanti)`: enqueue `quanti` random digits onto an empty
      queue, the i-th draw of `rand()` being `draws[i]`; the queue holds them
      in draw order. */
  method CreaCodaRandom(quanti: int, draws: seq<nat>) returns (p: Chain)
    requires quanti <= |draws|
    ensures quanti <= 0 ==> p == Nil
    ensures quanti > 0 ==> Contents(p) == Pila.Digits(draws[..quanti])
    ensures forall v :: v in Contents(p) ==> 1 <= v <= 9
  {
    p := CreaCoda(Nil);
    var x := 0;
    while x < quanti
      invariant 0 <= x <= if quanti < 0 then 0 else quanti
      invariant Contents(p) == Pila.Digits(draws[..x])
      decreases quanti - x
    {
      assert draws[..x + 1][..x] == draws[..x];
      p := Enqueue(p, Pila.Digit(draws[x]));
      x := x + 1;
    }
    if quanti > 0 {
      assert draws[..x] == draws[..quanti];
    } else {
      ElemsInjective(p, Nil);
    }
    forall v | v in Contents(p) ensures 1 <= v <= 9 {
      var i :| 0 <= i < |Contents(p)| && Contents(p)[i] == v;
    }
  }

  /** Both operations act on the FIFO order as the unbounded abstract queue
      does: enqueue appends, and dequeue (where the source allows it) takes
      away the oldest value. */
  lemma ActsAsFifo(p: Chain, v: int)
    ensures QueueSpec.Step(Contents(p), Opt.None, QueueSpec.Enqueue(v)) ==
      (Contents(Enqueue(p, v)), QueueSpec.Accepted(v))
    ensures |Elems(p)| >= 2 ==>
      QueueSpec.Step(Contents(p), Opt.None, QueueSpec.Dequeue) ==
      (Contents(Dequeue(p)), QueueSpec.Got(Elems(p)[|Elems(p)| - 1]))
  {
  }

  /** The driver of coda01.cpp: after enqueueing 1, 2, 3, 4 and dequeueing
      twice, the chain from the head reads 4, 3 — the two oldest are gone. */
  lemma Scenario()
    ensures var q := Enqueue(Enqueue(Enqueue(Enqueue(CreaCoda(Nil), 1), 2), 3), 4);
      Elems(Dequeue(Dequeue(q))) == [4, 3] && Contents(Dequeue(Dequeue(q))) == [3, 4]
  {
    var q := Enqueue(Enqueue(Enqueue(Enqueue(CreaCoda(Nil), 1), 2), 3), 4);
    assert Elems(q) == [4, 3, 2, 1];
    assert Elems(Dequeue(q)) == [4, 3, 2];
  }
}

=== FILE: config.dfy ===
/** The configuration catalog of 02_ConfigurazioniMultiple.js: a list of
    configuration objects, loading one by name (as a deep copy) into the
    active configuration, and reading a parameter of the active
    configuration by a dotted path. Console messages and applying the
    parameters to the robot are left out. */
module Config {
  import Opt

  /** A JavaScript value as it appears in the configurations. An object is
      its list of own properties, in order, with distinct keys. */
  datatype Json = JNull | JBool(b: bool) | JNum(n: real) | JStr(s: string) | JObj(fields: seq<(string, Json)>)

  /** The value of the own property `key`, if present: the first property
      with that key (an object's keys are distinct, so it is the only one). */
  function Field(fields: seq<(string, Json)>, key: string): (v: Opt.Option<Json>)
    ensures v.None? <==> forall i :: 0 <= i < |fields| ==> fields[i].0 != key
    ensures v.Some? ==>
      exists i :: (0 <= i < |fields| && fields[i] == (key, v.value)
                   && forall j :: 0 <= j < i ==> fields[j].0 != key)
  {
    if fields == [] then Opt.None
    else if fields[0].0 == key then Opt.Some(fields[0].1)
    else
      var v := Field(fields[1..], key);
      assert forall i :: 1 <= i < |fields| ==> fields[i] == fields[1..][i - 1];
      v
  }

  const ESPLORAZIONE_VELOCE := JObj([
    ("nomeConfig", JStr("Esplorazione Veloce")),
    ("descrizione", JStr("Modalità per coprire rapidamente terreno, meno precisa.")),
    ("velocitaBase", JNum(75.0)),
    ("velocitaCurva", JNum(40.0)),
    ("sensibilitaOstacoliCm", JNum(25.0)),
    ("sensoriAttivi", JObj([("ultrasuoni", JBool(true)), ("colore", JBool(false)), ("tocco", JBool(true))])),
    ("logLivello", JStr("info"))])

  const MOVIMENTO_PRECISO := JObj([
    ("nomeConfig", JStr("Movimento Preciso")),
    ("descrizione", JStr("Modalità per movimenti accurati, velocità ridotta.")),
    ("velocitaBase", JNum(25.0)),
    ("velocitaCurva", JNum(15.0)),
    ("sensibilitaOstacoliCm", JNum(10.0)),
    ("sensoriAttivi", JObj([("ultrasuoni", JBool(true)), ("colore", JBool(true)), ("tocco", JBool(true))])),
    ("logLivello", JStr("debug"))])

  const SEGUI_LINEA := JObj([
    ("nomeConfig", JStr("Segui Linea")),
    ("descrizione", JStr("Modalità ottimizzata per seguire una linea sul pavimento.")),
    ("velocitaBase", JNum(30.0)),
    ("guadagnoP", JNum(0.8)),
    ("guadagnoI", JNum(0.1)),
    ("guadagnoD", JNum(0.05)),
    ("sensoriAttivi", JObj([("ultrasuoni", JBool(false)), ("colore", JBool(true)), ("tocco", JBool(false))])),
    ("logLivello", JStr("info"))])

  const RISPARMIO_ENERGETICO := JObj([
    ("nomeConfig", JStr("Risparmio Energetico")),
    ("descrizione", JStr("Modalità per massimizzare la durata della batteria.")),
    ("velocitaBase", JNum(20.0)),
    ("velocitaCurva", JNum(10.0)),
    ("sensibilitaOstacoliCm", JNum(30.0)),
    ("sensoriAttivi", JObj([("ultrasuoni", JBool(true)), ("colore", JBool(false)), ("tocco", JBool(false))])),
    ("frequenzaPollingSensoriMs", JNum(1000.0)),
    ("logLivello", JStr("warn"))])

  /** `configurazioniRobot`. */
  const CONFIGURAZIONI_ROBOT: seq<Json> := [ESPLORAZIONE_VELOCE, MOVIMENTO_PRECISO, SEGUI_LINEA, RISPARMIO_ENERGETICO]

  /** Whether configuration `c` is named `nome` (`config.nomeConfig === nome`). */
  predicate HaNome(c: Json, nome: string)
  {
    c.JObj? && Field(c.fields, "nomeConfig") == Opt.Some(JStr(nome))
  }

  /** `Array.prototype.find`: the index of the first configuration with
      that name. */
  function Trova(cs: seq<Json>, nome: string): (i: Opt.Option<nat>)
    ensures i.None? <==> forall k :: 0 <= k < |cs| ==> !HaNome(cs[k], nome)
    ensures i.Some? ==> i.value < |cs| && HaNome(cs[i.value], nome)
    ensures i.Some? ==> forall k :: 0 <= k < i.value ==> !HaNome(cs[k], nome)
  {
    if cs == [] then Opt.None
    else if HaNome(cs[0], nome) then Opt.Some(0)
    else
      var r := Trova(cs[1..], nome);
      assert forall k :: 1 <= k < |cs| ==> cs[k] == cs[1..][k - 1];
      if r.None? then Opt.None else Opt.Some(r.value + 1)
  }

  /** `caricaConfigurazione`: when a configuration of that name exists, the
      active configuration becomes (a copy of) the first one and the result
      is true; otherwise the active configuration is kept and the result is
      false. A deep copy of an immutable value is the value itself. */
  function CaricaConfigurazione(attiva: Json, nome: string): (r: (Json, bool))
    ensures r.1 <==> exists k :: 0 <= k < |CONFIGURAZIONI_ROBOT| && HaNome(CONFIGURAZIONI_ROBOT[k], nome)
    ensures r.1 ==> HaNome(r.0, nome) && r.0 in CONFIGURAZIONI_ROBOT
    ensures !r.1 ==> r.0 == attiva
  {
    var i := Trova(CONFIGURAZIONI_ROBOT, nome);
    if i.Some? then (CONFIGURAZIONI_ROBOT[i.value], true) else (attiva, false)
  }

  /** The catalog's names are distinct, so loading by name finds exactly
      the configuration that carries it. */
  lemma NomiUnivoci(i: nat, j: nat, nome: string)
    requires i < |CONFIGURAZIONI_ROBOT| && j < |CONFIGURAZIONI_ROBOT|
    requires HaNome(CONFIGURAZIONI_ROBOT[i], nome) && HaNome(CONFIGURAZIONI_ROBOT[j], nome)
    ensures i == j
  {
  }

  /** `String.prototype.split` on a one-character separator: the pieces
      between separators, empty ones included. */
  function Split(s: string, sep: char): (parts: seq<string>)
    ensures |parts| >= 1
    ensures forall i :: 0 <= i < |parts| ==> sep !in parts[i]
    decreases |s|
  {
    if sep !in s then [s]
    else
      var k := IndexOf(s, sep);
      [s[..k]] + Split(s[k + 1..], sep)
  }

  function IndexOf(s: string, c: char): (k: nat)
    requires c in s
    ensures k < |s| && s[k] == c && c !in s[..k]
  {
    if s[0] == c then 0
    else
      var k := 1 + IndexOf(s[1..], c);
      assert s[..k] == [s[0]] + s[1..][..k - 1];
      k
  }

  /** `Array.prototype.join`. */
  function Join(parts: seq<string>, sep: char): string
    requires |parts| >= 1
  {
    if |parts| == 1 then parts[0] else parts[0] + [sep] + Join(parts[1..], sep)
  }

  /** Splitting loses nothing: joining the pieces gives the string back. */
  lemma {:induction false} SplitJoin(s: string, sep: char)
    ensures Join(Split(s, sep), sep) == s
    decreases |s|
  {
    if sep in s {
      var k := IndexOf(s, sep);
      var parts := Split(s, sep);
      var rest := Split(s[k + 1..], sep);
      assert parts == [s[..k]] + rest;
      assert parts[1..] == rest;
      assert Join(parts, sep) == s[..k] + [sep] + Join(rest, sep);
      SplitJoin(s[k + 1..], sep);
      assert s == s[..k] + [sep] + s[k + 1..];
    }
  }

  /** Following `keys` from `v`: each step needs an object having that own
      property; `None` is `undefined`. */
  function Percorri(v: Json, keys: seq<string>): Opt.Option<Json>
    decreases |keys|
  {
    if keys == [] then Opt.Some(v)
    else if v.JObj? then
      match Field(v.fields, keys[0])
      case None => Opt.None
      case Some(w) => Percorri(w, keys[1..])
    else Opt.None
  }

  /** A path can be followed in two legs. */
  lemma {:induction false} PercorriConcat(v: Json, a: seq<string>, b: seq<string>)
    ensures Percorri(v, a + b) ==
      match Percorri(v, a) case None => Opt.None case Some(w) => Percorri(w, b)
    decreases |a|
  {
    if a == [] {
      assert a + b == b;
    } else {
      assert (a + b)[1..] == a[1..] + b;
      assert (a + b)[0] == a[0];
      if v.JObj? {
        match Field(v.fields, a[0])
        case None =>
        case Some(w) => PercorriConcat(w, a[1..], b);
      }
    }
  }

  /** `getParametroConfig`: split the name on '.', then walk down the active
      configuration one key at a time, giving up as soon as the current
      value is not an object or lacks the key. */
  method GetParametroConfig(configAttiva: Json, nomeParametro: string) returns (r: Opt.Option<Json>)
    ensures r == Percorri(configAttiva, Split(nomeParametro, '.'))
    ensures '.' !in nomeParametro ==>
      r == (if configAttiva.JObj? then Field(configAttiva.fields, nomeParametro) else Opt.None)
  {
    var keys := Split(nomeParametro, '.');
    var value := configAttiva;
    var i := 0;
    while i < |keys|
      invariant i <= |keys|
      invariant Percorri(configAttiva, keys) == Percorri(value, keys[i..])
    {
      assert keys[i..][1..] == keys[i + 1..];
      if value.JObj? && Field(value.fields, keys[i]).Some? {
        value := Field(value.fields, keys[i]).value;
      } else {
        return Opt.None;
      }
      i := i + 1;
    }
    r := Opt.Some(value);
  }

  /** The driver, first load: "Movimento Preciso" is found. */
  lemma ScenarioPreciso()
    ensures CaricaConfigurazione(JObj([]), "Movimento Preciso") == (MOVIMENTO_PRECISO, true)
  {
    assert CONFIGURAZIONI_ROBOT[0] == ESPLORAZIONE_VELOCE && CONFIGURAZIONI_ROBOT[1] == MOVIMENTO_PRECISO;
    assert !HaNome(ESPLORAZIONE_VELOCE, "Movimento Preciso");
    assert HaNome(MOVIMENTO_PRECISO, "Movimento Preciso");
  }

  /** ... and then gives base speed 25 ... */
  lemma ScenarioPrecisoVelocita()
    ensures Percorri(MOVIMENTO_PRECISO, ["velocitaBase"]) == Opt.Some(JNum(25.0))
  {
  }

  /** The sensor switches of "Movimento Preciso". */
  lemma SensoriPreciso()
    ensures Field(MOVIMENTO_PRECISO.fields, "sensoriAttivi")
         == Opt.Some(JObj([("ultrasuoni", JBool(true)), ("colore", JBool(true)), ("tocco", JBool(true))]))
  {
  }

  /** A two-key path is two single steps. */
  lemma PercorriDue(v: Json, a: string, b: string)
    requires v.JObj? && Field(v.fields, a).Some?
    ensures Percorri(v, [a, b]) == Percorri(Field(v.fields, a).value, [b])
  {
    assert [a, b][1..] == [b];
  }

  /** The colour switch among those sensor switches. */
  lemma ColorePreciso()
    ensures Percorri(JObj([("ultrasuoni", JBool(true)), ("colore", JBool(true)), ("tocco", JBool(true))]), ["colore"])
         == Opt.Some(JBool(true))
  {
  }

  /** ... with the colour sensor on. */
  lemma ScenarioPrecisoColore()
    ensures Percorri(MOVIMENTO_PRECISO, ["sensoriAttivi", "colore"]) == Opt.Some(JBool(true))
  {
    SensoriPreciso();
    PercorriDue(MOVIMENTO_PRECISO, "sensoriAttivi", "colore");
    ColorePreciso();
  }

  /** The driver, second load: "Esplorazione Veloce" gives base speed 75. */
  lemma ScenarioVeloce()
    ensures CaricaConfigurazione(MOVIMENTO_PRECISO, "Esplorazione Veloce") == (ESPLORAZIONE_VELOCE, true)
    ensures Percorri(ESPLORAZIONE_VELOCE, ["velocitaBase"]) == Opt.Some(JNum(75.0))
  {
    assert HaNome(ESPLORAZIONE_VELOCE, "Esplorazione Veloce");
  }

  /** The driver, last load: an unknown name fails and keeps the active
      configuration. */
  lemma ScenarioInesistente()
    ensures CaricaConfigurazione(ESPLORAZIONE_VELOCE, "ModalitaInesistente") == (ESPLORAZIONE_VELOCE, false)
  {
    assert !HaNome(ESPLORAZIONE_VELOCE, "ModalitaInesistente");
    assert !HaNome(MOVIMENTO_PRECISO, "ModalitaInesistente");
    assert !HaNome(SEGUI_LINEA, "ModalitaInesistente");
    assert !HaNome(RISPARMIO_ENERGETICO, "ModalitaInesistente");
  }

  /** A string with exactly one separator splits into two pieces. */
  lemma SplitOnce(s: string, sep: char, k: nat)
    requires k < |s| && s[k] == sep && sep !in s[..k] && sep !in s[k + 1..]
    ensures Split(s, sep) == [s[..k], s[k + 1..]]
  {
    assert IndexOf(s, sep) == k;
  }

  /** The dotted parameter name of the driver splits into its two keys. */
  lemma ScenarioSplit()
    ensures Split("sensoriAttivi.colore", '.') == ["sensoriAttivi", "colore"]
  {
    var s := "sensoriAttivi.colore";
    assert s[..13] == "sensoriAttivi";
    assert s[14..] == "colore";
    SplitOnce(s, '.', 13);
  }
}

=== FILE: conta.dfy ===
/** The counting loop of D-File/conta.c: every character read is tested for
    being printable ASCII (a "character") and for being a newline (a "line").
    The file is given as the sequence of `fgetc` results before EOF. */
module Conta {
  import Chars

  type Code = c: int | 0 <= c < 256

  /** The three counters the program reports. */
  datatype Counts = Counts(contChar: nat, c2: nat, contRighe: nat)

  /** The counters as a left fold over the input. */
  function Fold(text: seq<Code>): (r: Counts)
    decreases |text|
  {
    if text == [] then Counts(0, 0, 0)
    else
      var prev := Fold(text[..|text| - 1]);
      var c := text[|text| - 1];
      Counts(prev.contChar + (if Chars.IsPrintable(c) then 1 else 0),
             prev.c2,
             prev.contRighe + (if c == '\n' as int then 1 else 0))
  }

  /** The printable characters of `text`, in order: an independent
      statement of what counts as a "character". */
  function Printables(text: seq<Code>): (p: seq<Code>)
    ensures forall i :: 0 <= i < |p| ==> Chars.IsPrintable(p[i])
    ensures forall c :: Chars.IsPrintable(c) ==> multiset(p)[c] == multiset(text)[c]
    ensures |p| <= |text|
  {
    if text == [] then []
    else
      var rest := Printables(text[1..]);
      assert text == [text[0]] + text[1..];
      if Chars.IsPrintable(text[0]) then [text[0]] + rest else rest
  }

  /** The main loop: read until EOF, counting as it goes. */
  method Count(text: seq<Code>) returns (r: Counts)
    ensures r == Fold(text)
    ensures r.c2 == 0
    ensures r.contChar <= |text| && r.contRighe <= |text|
  {
    var contChar, c2, contRighe := 0, 0, 0;
    var k := 0;
    while k < |text|
      invariant k <= |text|
      invariant Counts(contChar, c2, contRighe) == Fold(text[..k])
      invariant c2 == 0 && contChar <= k && contRighe <= k
    {
      var c := text[k];
      assert text[..k + 1][..k] == text[..k];
      if Chars.IsPrintable(c) {
        contChar := contChar + 1;
      }
      if c == '\n' as int {
        contRighe := contRighe + 1;
      }
      k := k + 1;
    }
    assert text[..k] == text;
    r := Counts(contChar, c2, contRighe);
  }

  /** Counting is additive over concatenation, so the file can be counted in
      pieces. */
  lemma {:induction false} Additive(a: seq<Code>, b: seq<Code>)
    ensures Fold(a + b).contChar == Fold(a).contChar + Fold(b).contChar
    ensures Fold(a + b).contRighe == Fold(a).contRighe + Fold(b).contRighe
    ensures Fold(a + b).c2 == 0
    decreases |b|
  {
    if b == [] {
      assert a + b == a;
      WordsNeverCounted(a);
    } else {
      var b' := b[..|b| - 1];
      assert (a + b)[..|a + b| - 1] == a + b';
      Additive(a, b');
    }
  }

  /** The word counter is declared but never incremented. */
  lemma {:induction false} WordsNeverCounted(text: seq<Code>)
    ensures Fold(text).c2 == 0
    decreases |text|
  {
    if text != [] {
      WordsNeverCounted(text[..|text| - 1]);
    }
  }

  /** The fold counts exactly the printable characters and the newlines,
      and no character is counted as both. */
  lemma {:induction false} CountsMatch(text: seq<Code>)
    ensures Fold(text).contChar == |Printables(text)|
    ensures Fold(text).contRighe == multiset(text)['\n' as int]
    ensures Fold(text).contChar + Fold(text).contRighe <= |text|
    decreases |text|
  {
    if text != [] {
      var n := |text| - 1;
      var t := text[..n];
      assert text == t + [text[n]];
      CountsMatch(t);
      PrintablesSnoc(t, text[n]);
    }
  }

  lemma {:induction false} PrintablesSnoc(t: seq<Code>, c: Code)
    ensures |Printables(t + [c])| == |Printables(t)| + (if Chars.IsPrintable(c) then 1 else 0)
    decreases |t|
  {
    if t == [] {
      assert [c][1..] == [];
    } else {
      assert (t + [c])[1..] == t[1..] + [c];
      PrintablesSnoc(t[1..], c);
    }
  }
}

=== FILE: conto.dfy ===
/** The bank account of D-OOP/Moduli (ContoBancario.cpp with the hidden
    DettagliConto record). Amounts are `double` in the source and exact
    reals here. A rejected request (the source writes an error to `cerr`)
    reports `false`. */
module Conto {

  datatype ContoBancario = ContoBancario(numeroConto: int, titolare: string, saldo: real)

  /** The constructor. */
  function Crea(numero: int, titolare: string, saldoIniziale: real): (c: ContoBancario)
    ensures c.numeroConto == numero && c.titolare == titolare && c.saldo == saldoIniziale
  {
    ContoBancario(numero, titolare, saldoIniziale)
  }

  /** `deposita`: a positive amount is added; anything else is rejected and
      the account is unchanged. Number and holder never change. */
  function Deposita(c: ContoBancario, importo: real): (r: (ContoBancario, bool))
    ensures r.1 <==> importo > 0.0
    ensures r.0.numeroConto == c.numeroConto && r.0.titolare == c.titolare
    ensures r.1 ==> r.0.saldo == c.saldo + importo && r.0.saldo > c.saldo
    ensures !r.1 ==> r.0 == c
  {
    if importo > 0.0 then (c.(saldo := c.saldo + importo), true) else (c, false)
  }

  /** `preleva`: an amount that is positive and covered by the balance is
      taken; anything else is rejected and the account is unchanged. */
  function Preleva(c: ContoBancario, importo: real): (r: (ContoBancario, bool))
    ensures r.1 <==> 0.0 < importo <= c.saldo
    ensures r.0.numeroConto == c.numeroConto && r.0.titolare == c.titolare
    ensures r.1 ==> r.0.saldo == c.saldo - importo && 0.0 <= r.0.saldo < c.saldo
    ensures !r.1 ==> r.0 == c
  {
    if importo > 0.0 && importo <= c.saldo then (c.(saldo := c.saldo - importo), true) else (c, false)
  }

  /** `ottieniSaldo`: a read-only query of the balance, which is all the
      state an account has beyond its number and holder. */
  function OttieniSaldo(c: ContoBancario): (saldo: real)
    ensures Crea(c.numeroConto, c.titolare, saldo) == c
  {
    c.saldo
  }

  datatype Operazione = Deposito(importo: real) | Prelievo(importo: real)

  /** Applies the requests in order; returns the account and which requests
      were accepted. */
  function Esegui(c: ContoBancario, ops: seq<Operazione>): (r: (ContoBancario, seq<bool>))
    ensures |r.1| == |ops|
    decreases |ops|
  {
    if ops == [] then (c, [])
    else
      var (c1, ok) := match ops[0]
        case Deposito(x) => Deposita(c, x)
        case Prelievo(x) => Preleva(c, x);
      var (c2, oks) := Esegui(c1, ops[1..]);
      (c2, [ok] + oks)
  }

  /** The net effect of the accepted requests. */
  function Netto(ops: seq<Operazione>, oks: seq<bool>): real
    requires |oks| == |ops|
    decreases |ops|
  {
    if ops == [] then 0.0
    else
      (if !oks[0] then 0.0 else match ops[0] case Deposito(x) => x case Prelievo(x) => -x)
      + Netto(ops[1..], oks[1..])
  }

  /** No sequence of requests makes a non-negative balance negative; the
      number and holder never change; and the balance moves by exactly the
      accepted deposits minus the accepted withdrawals. */
  lemma {:induction false} EseguiInvariant(c: ContoBancario, ops: seq<Operazione>)
    ensures c.saldo >= 0.0 ==> Esegui(c, ops).0.saldo >= 0.0
    ensures Esegui(c, ops).0.numeroConto == c.numeroConto
    ensures Esegui(c, ops).0.titolare == c.titolare
    ensures Esegui(c, ops).0.saldo == c.saldo + Netto(ops, Esegui(c, ops).1)
    decreases |ops|
  {
    if ops != [] {
      var (c1, ok) := match ops[0]
        case Deposito(x) => Deposita(c, x)
        case Prelievo(x) => Preleva(c, x);
      EseguiInvariant(c1, ops[1..]);
      var oks := Esegui(c, ops).1;
      assert oks[1..] == Esegui(c1, ops[1..]).1;
    }
  }

  /** The driver in main.cpp: 1000, a deposit of 500 gives 1500, a
      withdrawal of 200 gives 1300, and a withdrawal of 1500 is rejected. */
  lemma Scenario()
    ensures var c0 := Crea(12345, "Mario Rossi", 1000.0);
      var (c1, ok1) := Deposita(c0, 500.0);
      var (c2, ok2) := Preleva(c1, 200.0);
      var (c3, ok3) := Preleva(c2, 1500.0);
      ok1 && OttieniSaldo(c1) == 1500.0 && ok2 && OttieniSaldo(c2) == 1300.0
      && !ok3 && OttieniSaldo(c3) == 1300.0
  {
  }
}

=== FILE: decimal.dfy ===
/** Decimal text of an `int`, as C++ stream insertion (`cout << n`) and
    `printf("%d")` write it: a '-' for negatives, then the digits with no
    leading zeros. */
module Decimal {

  predicate IsDigit(c: char)
  {
    '0' <= c <= '9'
  }

  function DigitChar(d: nat): (c: char)
    requires d < 10
    ensures IsDigit(c)
  {
    ['0', '1', '2', '3', '4', '5', '6', '7', '8', '9'][d]
  }

  function DigitValue(c: char): (d: nat)
    requires IsDigit(c)
    ensures d < 10 && DigitChar(d) == c
  {
    (c as int - '0' as int) as nat
  }

  /** The digits of `n`, most significant first. */
  function NatToString(n: nat): (s: string)
    ensures |s| >= 1
    ensures forall i :: 0 <= i < |s| ==> IsDigit(s[i])
    ensures |s| > 1 ==> s[0] != '0'
  {
    if n < 10 then [DigitChar(n)] else NatToString(n / 10) + [DigitChar(n % 10)]
  }

  /** The value of a string of digits. */
  function ParseNat(s: string): nat
    requires forall i :: 0 <= i < |s| ==> IsDigit(s[i])
  {
    if s == [] then 0 else ParseNat(s[..|s| - 1]) * 10 + DigitValue(s[|s| - 1])
  }

  lemma {:induction false} ParseNatToString(n: nat)
    ensures ParseNat(NatToString(n)) == n
  {
    if n >= 10 {
      var s := NatToString(n);
      assert s[..|s| - 1] == NatToString(n / 10);
      ParseNatToString(n / 10);
    }
  }

  function IntToString(n: int): (s: string)
    ensures |s| >= 1
    ensures (s[0] == '-') <==> n < 0
    ensures forall i :: 0 < i < |s| ==> IsDigit(s[i])
  {
    if n < 0 then "-" + NatToString(-n) else NatToString(n)
  }

  function ParseInt(s: string): int
    requires |s| >= 1
    requires forall i :: 0 < i < |s| ==> IsDigit(s[i])
    requires s[0] == '-' || IsDigit(s[0])
  {
    if s[0] == '-' then -(ParseNat(s[1..]) as int) else ParseNat(s)
  }

  /** The text of an integer reads back as that integer, so distinct
      integers never print alike. */
  lemma IntRoundTrip(n: int)
    ensures ParseInt(IntToString(n)) == n
  {
    if n < 0 {
      assert IntToString(n)[1..] == NatToString(-n);
      ParseNatToString(-n);
    } else {
      ParseNatToString(n);
    }
  }
}

=== FILE: divisibility.dfy ===
/** Integer facts shared by the two arithmetic programs (Altro/sollo.c and
    Altro/zanirato.c): C's truncating remainder, divisibility, the greatest
    common divisor and the sum of divisors. */
module Divisibility {

  function Abs(n: int): nat
  {
    if n < 0 then -n else n
  }

  /** C's `%` on `int`: the magnitude is |a| mod |b| and the sign follows the
      dividend (C99 truncating division). */
  function CRem(a: int, b: int): (r: int)
    requires b != 0
    ensures Abs(r) < Abs(b)
    ensures a >= 0 ==> r >= 0
    ensures a <= 0 ==> r <= 0
    ensures a >= 0 && b > 0 ==> r == a % b
  {
    if a < 0 then -(Abs(a) % Abs(b)) else Abs(a) % Abs(b)
  }

  /** `d` is a positive divisor of `n`. */
  predicate Divides(d: int, n: int)
  {
    d >= 1 && n % d == 0
  }

  lemma MulBounds(d: int, m: int)
    requires d >= 1
    ensures m >= 1 ==> d * m >= d
    ensures m <= -1 ==> d * m <= -d
  {
    if m >= 1 {
      assert d * m == d + d * (m - 1);
      assert d * (m - 1) >= 0;
    } else if m <= -1 {
      assert d * m == -d + d * (m + 1);
      assert d * (m + 1) <= 0;
    }
  }

  /** A multiple of `d` leaves no remainder. */
  lemma MultipleDivides(d: int, k: int)
    requires d >= 1
    ensures Divides(d, d * k)
  {
    var n := d * k;
    var m := k - n / d;
    assert n == d * (n / d) + n % d;
    assert d * m == n % d;
    MulBounds(d, m);
  }

  /** Divisors of two numbers divide every combination `a * k + b`. */
  lemma DividesCombination(d: int, a: int, b: int, k: int)
    requires Divides(d, a) && Divides(d, b)
    ensures Divides(d, a * k + b)
    ensures Divides(d, b - a * k)
  {
    var qa, qb := a / d, b / d;
    assert a == d * qa;
    assert b == d * qb;
    assert a * k + b == d * (qa * k + qb);
    assert b - a * k == d * (qb - qa * k);
    MultipleDivides(d, qa * k + qb);
    MultipleDivides(d, qb - qa * k);
  }

  /** A positive number is at least each of its divisors. */
  lemma DivisorBound(d: int, n: int)
    requires Divides(d, n) && n > 0
    ensures d <= n
  {
    assert n == d * (n / d);
    MulBounds(d, n / d);
  }

  /** `g` is the greatest common divisor of the non-negative `a` and `b`:
      it divides both (0 only for gcd(0, 0)), and every common divisor
      divides it. */
  ghost predicate IsGcd(g: int, a: int, b: int)
  {
    && g >= 0
    && (g == 0 <==> a == 0 && b == 0)
    && (g > 0 ==> Divides(g, a) && Divides(g, b))
    && (forall d :: Divides(d, a) && Divides(d, b) ==> Divides(d, g))
  }

  /** There is only one greatest common divisor. */
  lemma GcdUnique(g1: int, g2: int, a: int, b: int)
    requires IsGcd(g1, a, b) && IsGcd(g2, a, b)
    ensures g1 == g2
  {
    if g1 > 0 && g2 > 0 {
      assert Divides(g1, g2) && Divides(g2, g1);
      DivisorBound(g1, g2);
      DivisorBound(g2, g1);
    }
  }

  /** The Euclid loop `while (y != 0) { r = x % y; x = y; y = r; }`,
      as the value it leaves in `x`. */
  function Euclid(x: int, y: int): (g: int)
    ensures x >= 0 && y >= 0 ==> g >= 0 && (g == 0 <==> x == 0 && y == 0)
    ensures x >= 0 && y > 0 ==> g <= y
    decreases Abs(y)
  {
    if y == 0 then x else Euclid(y, CRem(x, y))
  }

  /** On non-negative inputs the Euclid loop computes the gcd. */
  lemma {:induction false} EuclidIsGcd(x: int, y: int)
    requires x >= 0 && y >= 0
    ensures IsGcd(Euclid(x, y), x, y)
    decreases y
  {
    if y == 0 {
      if x > 0 {
        MultipleDivides(x, 1);
        MultipleDivides(x, 0);
      }
      forall d | Divides(d, x) && Divides(d, y) ensures Divides(d, x) {}
    } else {
      var r := x % y;
      var q := x / y;
      assert x == y * q + r;
      EuclidIsGcd(y, r);
      var g := Euclid(y, r);
      assert g == Euclid(x, y);
      assert g > 0;
      DividesCombination(g, y, r, q);
      forall d | Divides(d, x) && Divides(d, y) ensures Divides(d, g) {
        DividesCombination(d, y, x, q);
      }
    }
  }

  /** The sum of the divisors of `x` among 1..n. */
  function SumDivisorsUpTo(x: int, n: nat): (s: int)
    ensures s >= 0
  {
    if n == 0 then 0
    else SumDivisorsUpTo(x, n - 1) + (if x % n == 0 then n else 0)
  }

  /** The sum of the positive divisors of `x`; 0 when `x` has none (x <= 0). */
  function SumDivisors(x: int): int
  {
    if x <= 0 then 0 else SumDivisorsUpTo(x, x)
  }

  predicate IsPrime(x: int)
  {
    x >= 2 && forall d :: 1 < d < x ==> !Divides(d, x)
  }

  lemma {:induction false} SumDivisorsMonotone(x: int, m: nat, n: nat)
    requires m <= n
    ensures SumDivisorsUpTo(x, m) <= SumDivisorsUpTo(x, n)
    decreases n - m
  {
    if m < n {
      SumDivisorsMonotone(x, m, n - 1);
    }
  }

  lemma {:induction false} PrimeSumsToOne(x: int, n: nat)
    requires IsPrime(x) && 1 <= n < x
    ensures SumDivisorsUpTo(x, n) == 1
    decreases n
  {
    if n > 1 {
      PrimeSumsToOne(x, n - 1);
      assert !Divides(n, x);
    } else {
      assert x % 1 == 0;
    }
  }

  /** Above 1, the divisor sum is x + 1 exactly for the primes. */
  lemma PrimeIffSumIsSuccessor(x: int)
    requires x >= 2
    ensures SumDivisors(x) == x + 1 <==> IsPrime(x)
  {
    assert x % x == 0 by { MultipleDivides(x, 1); }
    if IsPrime(x) {
      PrimeSumsToOne(x, x - 1);
    } else {
      var d :| 1 < d < x && Divides(d, x);
      assert x % 1 == 0;
      SumDivisorsMonotone(x, 1, d - 1);
      assert SumDivisorsUpTo(x, 1) == 1;
      SumDivisorsMonotone(x, d, x - 1);
      assert SumDivisorsUpTo(x, x - 1) >= 1 + d;
    }
  }
}

=== FILE: generators.dfy ===
/** The value sequences yielded by the C++20 coroutine generators of
    generator_esempio.cpp. Only what each coroutine yields is modelled: the
    sequence a consumer sees by calling `next()` until it returns false and
    reading `value()` after each successful call. The promise type, the
    coroutine handle and its suspension points are left out. */
module Generators {

  /** The Fibonacci numbers, as a reference: F(0) = 0, F(1) = 1. */
  function Fib(k: nat): nat
  {
    if k < 2 then k else Fib(k - 1) + Fib(k - 2)
  }

  /** The first `n` Fibonacci numbers, none when `n` is not positive. */
  function Fibs(n: int): (ys: seq<int>)
    ensures |ys| == if n > 0 then n else 0
    ensures forall i :: 0 <= i < |ys| ==> ys[i] == Fib(i)
  {
    if n <= 0 then [] else seq(n, i requires 0 <= i => Fib(i) as int)
  }

  /** `fibonacci(n)`: 0 when `n > 0`, 1 when `n > 1`, then the sum of the
      last two values while `i < n`. The yielded sequence has `max(n, 0)`
      values, starts 0, 1 and follows the Fibonacci recurrence, so it is the
      list of the first `n` Fibonacci numbers. */
  method Fibonacci(n: int) returns (ys: seq<int>)
    ensures |ys| == if n > 0 then n else 0
    ensures n > 0 ==> ys[0] == 0
    ensures n > 1 ==> ys[1] == 1
    ensures forall i :: 2 <= i < |ys| ==> ys[i] == ys[i - 1] + ys[i - 2]
    ensures ys == Fibs(n)
  {
    ys := [];
    if n > 0 {
      ys := ys + [0];
    }
    if n > 1 {
      ys := ys + [1];
    }
    var a, b := 0, 1;
    var i := 2;
    while i < n
      invariant n > 1 ==> 2 <= i <= n
      invariant |ys| == if n > 1 then i else if n > 0 then 1 else 0
      invariant forall k :: 0 <= k < |ys| ==> ys[k] == Fib(k)
      invariant n > 1 ==> a == Fib(i - 2) && b == Fib(i - 1)
    {
      var next := a + b;
      ys := ys + [next];
      a := b;
      b := next;
      i := i + 1;
    }
  }

  /** The driver's first loop: `fibonacci(10)` yields 0 1 1 2 3 5 8 13 21 34. */
  lemma FibonacciTen()
    ensures Fibs(10) == [0, 1, 1, 2, 3, 5, 8, 13, 21, 34]
  {
    assert Fib(2) == 1 && Fib(3) == 2 && Fib(4) == 3 && Fib(5) == 5;
    assert Fib(6) == 8 && Fib(7) == 13 && Fib(8) == 21 && Fib(9) == 34;
  }

  /** How many values `for (i = start; i <= max; i += 2)` visits. */
  function StepCount(start: int, max: int): (c: nat)
    ensures c > 0 ==> start + 2 * (c - 1) <= max < start + 2 * c
    ensures c == 0 <==> max < start
  {
    if max < start then 0 else (max - start) / 2 + 1
  }

  /** The values that loop visits: `start`, `start + 2`, ... up to `max`. */
  function Stepping(start: int, max: int): (ys: seq<int>)
  {
    seq(StepCount(start, max), i requires 0 <= i => start + 2 * i)
  }

  /** The loop shared by both coroutines: it yields exactly the numbers of
      the same parity as `start` from `start` up to `max`, in increasing
      order. */
  method CountBy2(start: int, max: int) returns (ys: seq<int>)
    ensures ys == Stepping(start, max)
    ensures forall x :: x in ys <==> start <= x <= max && (x - start) % 2 == 0
    ensures forall k :: 0 < k < |ys| ==> ys[k] == ys[k - 1] + 2
  {
    ys := [];
    var i := start;
    while i <= max
      invariant start <= i && (i - start) % 2 == 0
      invariant i == start || i <= max + 2
      invariant |ys| == (i - start) / 2
      invariant forall k :: 0 <= k < |ys| ==> ys[k] == start + 2 * k
      decreases max - i
    {
      ys := ys + [i];
      i := i + 2;
    }
    SteppingMembers(start, max);
  }

  /** Membership in `Stepping`, as a condition on the number alone. */
  lemma SteppingMembers(start: int, max: int)
    ensures forall x :: x in Stepping(start, max) <==> start <= x <= max && (x - start) % 2 == 0
  {
    var ys := Stepping(start, max);
    forall x | start <= x <= max && (x - start) % 2 == 0
      ensures x in ys
    {
      var k := (x - start) / 2;
      assert ys[k] == x;
    }
  }

  /** `even_numbers(max)`: 0, 2, 4, ... up to `max`; nothing when `max < 0`. */
  method EvenNumbers(max: int) returns (ys: seq<int>)
    ensures ys == Stepping(0, max)
    ensures |ys| == if max < 0 then 0 else max / 2 + 1
    ensures forall k :: 0 <= k < |ys| ==> ys[k] == 2 * k
    ensures forall x :: x in ys <==> 0 <= x <= max && x % 2 == 0
  {
    ys := CountBy2(0, max);
  }

  /** `odd_numbers(max)`: 1, 3, 5, ... up to `max`, each two more than the
      one before; nothing when `max < 1`. */
  method OddNumbers(max: int) returns (ys: seq<int>)
    ensures ys == Stepping(1, max)
    ensures |ys| == if max < 1 then 0 else (max - 1) / 2 + 1
    ensures forall k :: 0 <= k < |ys| ==> ys[k] == 2 * k + 1
    ensures forall k :: 0 < k < |ys| ==> ys[k] == ys[k - 1] + 2
    ensures forall x :: x in ys <==> 1 <= x <= max && x % 2 == 1
  {
    ys := CountBy2(1, max);
  }

  /** Between them the two generators yield every number from 0 to `max`
      exactly once: each such number is in one sequence and not the other,
      and nothing else is in either. */
  lemma EvensAndOddsPartition(max: int)
    ensures forall x :: 0 <= x <= max ==> (x in Stepping(0, max) <==> x !in Stepping(1, max))
    ensures forall x :: x in Stepping(0, max) || x in Stepping(1, max) ==> 0 <= x <= max
  {
    SteppingMembers(0, max);
    SteppingMembers(1, max);
  }

  /** The driver's second and third loops: the numbers up to 20. */
  lemma UpToTwenty()
    ensures Stepping(0, 20) == [0, 2, 4, 6, 8, 10, 12, 14, 16, 18, 20]
    ensures Stepping(1, 20) == [1, 3, 5, 7, 9, 11, 13, 15, 17, 19]
  {
  }
}

=== FILE: golzi.dfy ===
/** The per-character cipher of D-File/esercizio_e_golzi.cpp (`crypt` and
    `decrypt`) as written, and the cipher its comments describe. As written,
    every character outside 'a'..'w' and 'A'..'W' is moved back by 23 — not
    only 'x'..'z' and 'X'..'Z' — so some punctuation does not survive the
    round trip. */
module Golzi {
  import opened Chars

  const KEY := 3

  /** `crypt` as written: `c += key` for 'a'..'w' and 'A'..'W', otherwise
      `c -= 23`, stored back into a signed `char`. */
  function Crypt(c: SChar): (e: SChar)
    ensures ('a' as int <= c <= 'w' as int || 'A' as int <= c <= 'W' as int) ==> e == c + KEY
    ensures ('x' as int <= c <= 'z' as int) ==> e == c - 23 && 'a' as int <= e <= 'c' as int
    ensures ('X' as int <= c <= 'Z' as int) ==> e == c - 23 && 'A' as int <= e <= 'C' as int
    ensures !IsLetter(c) ==> e != c
  {
    if 'a' as int <= c <= 'w' as int || 'A' as int <= c <= 'W' as int then c + KEY
    else WrapSChar(c - 23)
  }

  /** `decrypt` as written: `c -= key` for 'd'..'z' and 'D'..'Z', otherwise
      `c += 23`. */
  function Decrypt(c: SChar): (d: SChar)
    ensures ('d' as int <= c <= 'z' as int || 'D' as int <= c <= 'Z' as int) ==> d == c - KEY
    ensures !IsLetter(c) ==> d != c
  {
    if 'd' as int <= c <= 'z' as int || 'D' as int <= c <= 'Z' as int then c - KEY
    else WrapSChar(c + 23)
  }

  /** On letters the round trip works and the case is kept. */
  lemma LettersRoundTrip(c: SChar)
    requires IsLetter(c)
    ensures Decrypt(Crypt(c)) == c
    ensures IsLower(Crypt(c)) <==> IsLower(c)
    ensures IsUpper(Crypt(c)) <==> IsUpper(c)
  {
  }

  /** The characters the round trip breaks: '[' .. '`', '{' .. DEL, and the
      negative `char`s -128 .. -111 — those whose shifted value lands in the
      range `decrypt` shifts by three. */
  predicate Broken(c: int)
  {
    (91 <= c <= 96) || (123 <= c <= 127) || (-128 <= c <= -111)
  }

  /** The round trip restores a character exactly when it is not broken. */
  lemma RoundTripIff(c: SChar)
    ensures Decrypt(Crypt(c)) == c <==> !Broken(c)
  {
  }

  /** The evident counterexample: '[' encrypts to 'D', which decrypts to 'A'. */
  lemma BracketCounterexample()
    ensures Crypt('[' as int) == 'D' as int
    ensures Decrypt(Crypt('[' as int)) == 'A' as int
  {
  }

  /** The cipher the comments describe: rotate each letter by three within
      its case and leave every other character alone. */
  function CryptFixed(c: SChar): (e: SChar)
    ensures IsLetter(c) ==> IsLetter(e) && (IsLower(e) <==> IsLower(c))
    ensures !IsLetter(c) ==> e == c
  {
    if 'a' as int <= c <= 'w' as int || 'A' as int <= c <= 'W' as int then c + KEY
    else if IsLetter(c) then c - 23
    else c
  }

  function DecryptFixed(c: SChar): (d: SChar)
    ensures IsLetter(c) ==> IsLetter(d) && (IsLower(d) <==> IsLower(c))
    ensures !IsLetter(c) ==> d == c
  {
    if 'd' as int <= c <= 'z' as int || 'D' as int <= c <= 'Z' as int then c - KEY
    else if IsLetter(c) then c + 23
    else c
  }

  /** The corrected pair are mutual inverses on every character. */
  lemma FixedRoundTrip(c: SChar)
    ensures DecryptFixed(CryptFixed(c)) == c
    ensures CryptFixed(DecryptFixed(c)) == c
  {
  }

  /** The corrected cipher agrees with the original on every letter. */
  lemma FixedAgreesOnLetters(c: SChar)
    requires IsLetter(c)
    ensures CryptFixed(c) == Crypt(c)
    ensures DecryptFixed(CryptFixed(c)) == Decrypt(Crypt(c))
  {
  }
}

=== FILE: hexdump.dfy ===
/** `printHexAndAscii` of D-FileBinari/fileShow.c: the file is shown in
    lines of up to 16 bytes, each line being the offset, the bytes in hex
    and the bytes as ASCII. The file is given as its byte sequence, and the
    printed text is returned. */
module HexDump {
  import Chars

  type Byte = b: int | 0 <= b < 256

  const HEX_DIGITS := "0123456789abcdef"

  /** `fread` chunk size: the length of `buffer`. */
  const CHUNK := 16

  function HexDigit(d: nat): (c: char)
    requires d < 16
  {
    HEX_DIGITS[d]
  }

  predicate IsHexDigit(c: char)
  {
    '0' <= c <= '9' || 'a' <= c <= 'f'
  }

  function HexValue(c: char): (v: nat)
    requires IsHexDigit(c)
    ensures v < 16 && HexDigit(v) == c
  {
    if c <= '9' then (c as int - '0' as int) as nat else (c as int - 'a' as int + 10) as nat
  }

  function Pow16(w: nat): (p: nat)
    ensures p >= 1
  {
    if w == 0 then 1 else 16 * Pow16(w - 1)
  }

  /** `%0<w>x`: `n` in lowercase hex, zero-padded to at least `w` digits. */
  function ZeroPadHex(n: nat, w: nat): (s: string)
    ensures |s| >= 1 && |s| >= w
    ensures forall i :: 0 <= i < |s| ==> IsHexDigit(s[i])
    ensures w >= 1 && n < Pow16(w) ==> |s| == w
    decreases n + w
  {
    if n < 16 && w <= 1 then [HexDigit(n)]
    else ZeroPadHex(n / 16, if w == 0 then 0 else w - 1) + [HexDigit(n % 16)]
  }

  /** The value of a string of hex digits. */
  function ParseHex(s: string): nat
    requires forall i :: 0 <= i < |s| ==> IsHexDigit(s[i])
  {
    if s == [] then 0 else ParseHex(s[..|s| - 1]) * 16 + HexValue(s[|s| - 1])
  }

  /** Hex text reads back as the number printed. */
  lemma {:induction false} HexRoundTrip(n: nat, w: nat)
    ensures ParseHex(ZeroPadHex(n, w)) == n
    decreases n + w
  {
    var s := ZeroPadHex(n, w);
    if !(n < 16 && w <= 1) {
      var w' := if w == 0 then 0 else w - 1;
      assert s[..|s| - 1] == ZeroPadHex(n / 16, w');
      HexRoundTrip(n / 16, w');
    }
  }

  /** One of the 16 hex columns: `%02x ` for a present byte, three spaces
      for a missing one, and one more space after column 7. */
  function Column(chunk: seq<Byte>, i: nat): (s: string)
  {
    (if i < |chunk| then ZeroPadHex(chunk[i], 2) + " " else "   ") + (if i == 7 then " " else "")
  }

  /** Where column `i` starts within the hex area. */
  function Offset(i: nat): nat
  {
    3 * i + (if i > 7 then 1 else 0)
  }

  /** The column that character `k` of the hex area belongs to. */
  function ColumnOf(k: nat): (i: nat)
    requires k < Offset(CHUNK)
    ensures i < CHUNK && Offset(i) <= k < Offset(i + 1)
  {
    if k < 24 then k / 3 else if k == 24 then 7 else (k - 1) / 3
  }

  /** The 16 columns side by side: a fixed width of 49 characters. */
  function HexArea(chunk: seq<Byte>): (s: string)
    ensures |s| == Offset(CHUNK)
  {
    seq(Offset(CHUNK), k requires 0 <= k < Offset(CHUNK) =>
      var i := ColumnOf(k);
      Column(chunk, i)[k - Offset(i)])
  }

  /** Column `j` sits at a fixed place, whatever the chunk length. */
  lemma ColumnAt(chunk: seq<Byte>, j: nat)
    requires j < CHUNK
    ensures HexArea(chunk)[Offset(j)..Offset(j + 1)] == Column(chunk, j)
  {
    var a := HexArea(chunk)[Offset(j)..Offset(j + 1)];
    forall k | 0 <= k < |a| ensures a[k] == Column(chunk, j)[k] {
      assert ColumnOf(Offset(j) + k) == j;
    }
  }

  /** The column loop of `printHexAndAscii`. */
  method HexColumns(chunk: seq<Byte>) returns (s: string)
    ensures s == HexArea(chunk)
  {
    s := "";
    var i := 0;
    while i < CHUNK
      invariant i <= CHUNK
      invariant s == HexArea(chunk)[..Offset(i)]
    {
      ColumnAt(chunk, i);
      assert HexArea(chunk)[..Offset(i + 1)] == HexArea(chunk)[..Offset(i)] + HexArea(chunk)[Offset(i)..Offset(i + 1)];
      s := s + Column(chunk, i);
      i := i + 1;
    }
  }

  /** The ASCII column: printable bytes as themselves, others as '.'. */
  function AsciiArea(chunk: seq<Byte>): (s: string)
    ensures |s| == |chunk|
    ensures forall i :: 0 <= i < |chunk| ==>
      (Chars.IsPrintable(chunk[i]) ==> s[i] as int == chunk[i]) && (!Chars.IsPrintable(chunk[i]) ==> s[i] == '.')
  {
    seq(|chunk|, i requires 0 <= i < |chunk| => if Chars.IsPrintable(chunk[i]) then chunk[i] as char else '.')
  }

  /** One printed line for a chunk read at `address`. */
  function Line(chunk: seq<Byte>, address: nat): string
  {
    ZeroPadHex(address, 8) + ": " + HexArea(chunk) + " " + AsciiArea(chunk) + "\n"
  }

  function Min(a: int, b: int): int
  {
    if a < b then a else b
  }

  /** The lines printed for `data` when it starts at `address`: one per
      16-byte chunk, the last one possibly shorter. */
  function Lines(data: seq<Byte>, address: nat): (ls: seq<string>)
    ensures |ls| == (|data| + CHUNK - 1) / CHUNK
    decreases |data|
  {
    if data == [] then []
    else
      var n := Min(CHUNK, |data|);
      [Line(data[..n], address)] + Lines(data[n..], address + n)
  }

  function Concat(ls: seq<string>): string
  {
    if ls == [] then "" else ls[0] + Concat(ls[1..])
  }

  /** Line `k` shows bytes 16k .. 16k+15 at offset 16k. */
  lemma {:induction false} LineK(data: seq<Byte>, address: nat, k: nat)
    requires k < |Lines(data, address)|
    ensures Lines(data, address)[k] ==
      Line(data[CHUNK * k..Min(CHUNK * k + CHUNK, |data|)], address + CHUNK * k)
    decreases |data|
  {
    var n := Min(CHUNK, |data|);
    if k > 0 {
      LineK(data[n..], address + n, k - 1);
      assert data[n..][CHUNK * (k - 1)..Min(CHUNK * (k - 1) + CHUNK, |data[n..]|)]
          == data[CHUNK * k..Min(CHUNK * k + CHUNK, |data|)];
    }
  }

  /** Where each part of a line sits. */
  lemma LineLayout(head: string, hex: string, ascii: string)
    requires |head| == 8
    ensures var line := head + ": " + hex + " " + ascii + "\n";
      line[..8] == head && line[10..10 + |hex|] == hex && line[10 + |hex|] == ' '
      && line[11 + |hex|..|line| - 1] == ascii
  {
  }

  /** The first eight characters of a line are its offset in hex. */
  lemma LineOffset(chunk: seq<Byte>, address: nat)
    requires |chunk| <= CHUNK && address < Pow16(8)
    ensures ParseHex(Line(chunk, address)[..8]) == address
  {
    LineLayout(ZeroPadHex(address, 8), HexArea(chunk), AsciiArea(chunk));
    HexRoundTrip(address, 8);
  }

  /** The two hex digits of a present byte open its column. */
  lemma ColumnDigits(chunk: seq<Byte>, i: nat)
    requires i < |chunk| && |chunk| <= CHUNK
    ensures HexArea(chunk)[Offset(i)..Offset(i) + 2] == ZeroPadHex(chunk[i], 2)
  {
    ColumnAt(chunk, i);
    assert |ZeroPadHex(chunk[i], 2)| == 2;
    assert HexArea(chunk)[Offset(i)..Offset(i) + 2] == Column(chunk, i)[..2];
  }

  /** Byte i is the two hex digits at column i of the hex area, which
      starts at character 10. */
  lemma LineByte(chunk: seq<Byte>, address: nat, i: nat)
    requires |chunk| <= CHUNK && address < Pow16(8) && i < |chunk|
    ensures ParseHex(Line(chunk, address)[10 + Offset(i)..10 + Offset(i) + 2]) == chunk[i]
  {
    var line := Line(chunk, address);
    var hex := HexArea(chunk);
    LineLayout(ZeroPadHex(address, 8), hex, AsciiArea(chunk));
    ColumnDigits(chunk, i);
    var p := Offset(i);
    assert line[10 + p..10 + p + 2] == line[10..10 + |hex|][p..p + 2];
    HexRoundTrip(chunk[i], 2);
  }

  /** After the hex area comes a blank and the ASCII column. */
  lemma LineTail(chunk: seq<Byte>, address: nat)
    requires |chunk| <= CHUNK && address < Pow16(8)
    ensures Line(chunk, address)[10 + Offset(CHUNK)] == ' '
    ensures Line(chunk, address)[11 + Offset(CHUNK)..|Line(chunk, address)| - 1] == AsciiArea(chunk)
  {
    LineLayout(ZeroPadHex(address, 8), HexArea(chunk), AsciiArea(chunk));
  }

  /** Each line gives back its offset (while it fits in eight hex digits)
      and its bytes, followed by the ASCII column. */
  lemma LineDecodes(chunk: seq<Byte>, address: nat, i: nat)
    requires |chunk| <= CHUNK && address < Pow16(8) && i < |chunk|
    ensures ParseHex(Line(chunk, address)[..8]) == address
    ensures ParseHex(Line(chunk, address)[10 + Offset(i)..10 + Offset(i) + 2]) == chunk[i]
    ensures Line(chunk, address)[10 + Offset(CHUNK)] == ' '
    ensures Line(chunk, address)[11 + Offset(CHUNK)..|Line(chunk, address)| - 1] == AsciiArea(chunk)
  {
    LineOffset(chunk, address);
    LineByte(chunk, address, i);
    LineTail(chunk, address);
  }

  /** `printHexAndAscii`: read chunks of up to 16 bytes until none is left,
      print each as a line and advance the offset by the bytes read. */
  method PrintHexAndAscii(data: seq<Byte>) returns (out: string)
    ensures out == Concat(Lines(data, 0))
    ensures data == [] ==> out == ""
  {
    out := "";
    var address := 0;
    assert data[address..] == data;
    while address < |data|
      invariant address <= |data|
      invariant out + Concat(Lines(data[address..], address)) == Concat(Lines(data, 0))
      decreases |data| - address
    {
      var bytesRead := if |data| - address < CHUNK then |data| - address else CHUNK;
      var chunk := data[address..address + bytesRead];
      var rest := data[address..];
      assert rest[..bytesRead] == chunk;
      assert rest[bytesRead..] == data[address + bytesRead..];
      var hex := HexColumns(chunk);
      var line := ZeroPadHex(address, 8) + ": " + hex + " " + AsciiArea(chunk) + "\n";
      assert line == Line(chunk, address);
      var tail := Lines(data[address + bytesRead..], address + bytesRead);
      assert Lines(rest, address) == [line] + tail;
      assert ([line] + tail)[1..] == tail;
      assert Concat(Lines(rest, address)) == line + Concat(tail);
      assert out + (line + Concat(tail)) == (out + line) + Concat(tail);
      out := out + line;
      address := address + bytesRead;
    }
  }
}

=== FILE: linked_list.dfy ===
/** The singly linked list of 01_c_linked_list.c (and the identical algorithms
    of the LinkedList class in 01_cpp_linked_list.cpp). Every operation takes
    the head and returns the new head together with the condition it reported
    on the console. Positions are zero-based. */
module LinkedList {
  import opened Nodes
  import Seqs
  import Opt

  /** What an operation reported: success, "List is empty!" or
      "Position out of range!". */
  datatype Status = Done | ListEmpty | OutOfRange

  datatype Outcome = Outcome(head: Chain, status: Status)

  /** `insertAtBeginning`: the new node becomes the head. */
  function InsertAtBeginning(head: Chain, data: int): (r: Chain)
    ensures Elems(r) == [data] + Elems(head)
    ensures |Elems(r)| == |Elems(head)| + 1
  {
    Node(data, head)
  }

  /** `insertAtEnd`: walk to the last node and link the new node after it;
      an empty list gets the new node as its head. */
  function InsertAtEnd(head: Chain, data: int): (r: Chain)
    ensures Elems(r) == Elems(head) + [data]
  {
    match head
    case Nil => Node(data, Nil)
    case Node(d, next) => Node(d, InsertAtEnd(next, data))
  }

  /** The traversal of `insertAtPosition`: advance `steps` nodes from `current`
      and link a node holding `data` after the node reached; `None` when the
      walk runs off the end of the chain. */
  function LinkAfter(current: Chain, data: int, steps: nat): (r: Opt.Option<Chain>)
    ensures r.None? <==> steps >= |Elems(current)|
    ensures r.Some? ==> Elems(r.value) == Seqs.InsertAt(Elems(current), steps + 1, data)
  {
    match current
    case Nil => Opt.None
    case Node(d, next) =>
      if steps == 0 then Opt.Some(Node(d, Node(data, next)))
      else
        match LinkAfter(next, data, steps - 1)
        case None => Opt.None
        case Some(rest) => Opt.Some(Node(d, rest))
  }

  /** `insertAtPosition`. Position 0 is `insertAtBeginning`; positions
      1..length insert at that index; larger positions leave the list as it
      was and report OutOfRange. */
  function InsertAtPosition(head: Chain, data: int, position: nat): (r: Outcome)
    ensures position <= |Elems(head)| ==>
      r.status == Done && Elems(r.head) == Seqs.InsertAt(Elems(head), position, data)
    ensures position > |Elems(head)| ==> r.status == OutOfRange && r.head == head
  {
    if position == 0 then Outcome(InsertAtBeginning(head, data), Done)
    else
      match LinkAfter(head, data, position - 1)
      case None => Outcome(head, OutOfRange)
      case Some(h) => Outcome(h, Done)
  }

  /** `deleteFromBeginning`: the second node (or NULL) becomes the head. */
  function DeleteFromBeginning(head: Chain): (r: Outcome)
    ensures Elems(head) == [] ==> r == Outcome(Nil, ListEmpty)
    ensures Elems(head) != [] ==> r.status == Done && Elems(r.head) == Elems(head)[1..]
  {
    match head
    case Nil => Outcome(Nil, ListEmpty)
    case Node(_, next) => Outcome(next, Done)
  }

  /** The traversal of `deleteFromEnd` on a non-empty chain: unlink the last node. */
  function DropLast(current: Chain): (r: Chain)
    requires current != Nil
    ensures Elems(r) == Elems(current)[..|Elems(current)| - 1]
  {
    if current.next == Nil then Nil
    else Node(current.data, DropLast(current.next))
  }

  /** `deleteFromEnd`: an empty list reports emptiness; otherwise the last node goes. */
  function DeleteFromEnd(head: Chain): (r: Outcome)
    ensures Elems(head) == [] ==> r == Outcome(Nil, ListEmpty)
    ensures Elems(head) != [] ==>
      r.status == Done && Elems(r.head) == Elems(head)[..|Elems(head)| - 1]
  {
    if head == Nil then Outcome(Nil, ListEmpty) else Outcome(DropLast(head), Done)
  }

  /** The traversal of `deleteFromPosition`: advance `steps` nodes and unlink
      the successor of the node reached; `None` when that node or its
      successor is missing. */
  function UnlinkAfter(current: Chain, steps: nat): (r: Opt.Option<Chain>)
    ensures r.None? <==> steps + 1 >= |Elems(current)|
    ensures r.Some? ==> Elems(r.value) == Seqs.RemoveAt(Elems(current), steps + 1)
  {
    match current
    case Nil => Opt.None
    case Node(d, next) =>
      if steps == 0 then
        (if next == Nil then Opt.None else Opt.Some(Node(d, next.next)))
      else
        match UnlinkAfter(next, steps - 1)
        case None => Opt.None
        case Some(rest) => Opt.Some(Node(d, rest))
  }

  /** `deleteFromPosition`: removes exactly the element at `position` when
      `position < length`; otherwise reports and leaves the list alone. */
  function DeleteFromPosition(head: Chain, position: nat): (r: Outcome)
    ensures Elems(head) == [] ==> r == Outcome(Nil, ListEmpty)
    ensures position < |Elems(head)| ==>
      r.status == Done && Elems(r.head) == Seqs.RemoveAt(Elems(head), position)
    ensures Elems(head) != [] && position >= |Elems(head)| ==>
      r == Outcome(head, OutOfRange)
  {
    if head == Nil then Outcome(Nil, ListEmpty)
    else if position == 0 then DeleteFromBeginning(head)
    else
      match UnlinkAfter(head, position - 1)
      case None => Outcome(head, OutOfRange)
      case Some(h) => Outcome(h, Done)
  }

  /** `search`: the index of the first node holding `key`, or -1 when no node does. */
  method Search(head: Chain, key: int) returns (position: int)
    ensures -1 <= position < |Elems(head)|
    ensures position == -1 <==> key !in Elems(head)
    ensures position >= 0 ==> Elems(head)[position] == key && key !in Elems(head)[..position]
  {
    var current := head;
    position := 0;
    while current != Nil
      invariant 0 <= position <= |Elems(head)|
      invariant Elems(current) == Elems(head)[position..]
      invariant key !in Elems(head)[..position]
      decreases current
    {
      if current.data == key {
        assert Elems(head)[position] == Elems(current)[0];
        return;
      }
      assert Elems(head)[..position + 1] == Elems(head)[..position] + [current.data];
      current := current.next;
      position := position + 1;
    }
    assert Elems(head)[..position] == Elems(head);
    position := -1;
  }

  /** Deleting at the position just inserted at gives back the original list. */
  lemma InsertThenDelete(head: Chain, data: int, position: nat)
    requires position <= |Elems(head)|
    ensures DeleteFromPosition(InsertAtPosition(head, data, position).head, position).head == head
  {
    var ins := InsertAtPosition(head, data, position).head;
    var del := DeleteFromPosition(ins, position).head;
    Seqs.RemoveInsert(Elems(head), position, data);
    assert Elems(del) == Elems(head);
    ElemsInjective(del, head);
  }

  /** In the C++ class, position 0 is delegated to `insertAtBeginning`, every
      position up to the length inserts, and larger ones change nothing. */
  lemma PositionalInsertCases(head: Chain, data: int, position: nat)
    ensures InsertAtPosition(head, data, 0).head == InsertAtBeginning(head, data)
    ensures position == |Elems(head)| ==>
      InsertAtPosition(head, data, position).head == InsertAtEnd(head, data)
    ensures position > |Elems(head)| ==> InsertAtPosition(head, data, position).head == head
  {
    if position == |Elems(head)| {
      var r := InsertAtPosition(head, data, position).head;
      assert Elems(r) == Elems(InsertAtEnd(head, data));
      ElemsInjective(r, InsertAtEnd(head, data));
    }
  }

  /** In the C++ class, `deleteFromPosition` changes the list iff the position
      is below the length, and a change always shortens the list by one. */
  lemma PositionalDeleteIff(head: Chain, position: nat)
    ensures DeleteFromPosition(head, position).head != head <==> position < |Elems(head)|
    ensures position < |Elems(head)| ==>
      |Elems(DeleteFromPosition(head, position).head)| == |Elems(head)| - 1
  {
    var r := DeleteFromPosition(head, position).head;
    if position < |Elems(head)| {
      assert |Elems(r)| != |Elems(head)|;
    }
  }

  /** The worked example: insertAtEnd(10), insertAtBeginning(5),
      insertAtPosition(7, 1) give 5,7,10; deleting position 1 gives 5,10. */
  lemma Scenario()
    ensures Elems(InsertAtPosition(InsertAtBeginning(InsertAtEnd(Nil, 10), 5), 7, 1).head) == [5, 7, 10]
    ensures Elems(DeleteFromPosition(InsertAtPosition(InsertAtBeginning(InsertAtEnd(Nil, 10), 5), 7, 1).head, 1).head)
      == [5, 10]
  {
    var l := InsertAtPosition(InsertAtBeginning(InsertAtEnd(Nil, 10), 5), 7, 1).head;
    assert Elems(l) == Seqs.InsertAt([5, 10], 1, 7);
    assert Elems(l) == [5, 7, 10];
  }
}

=== FILE: linked_queue.dfy ===
/** The LinkedQueue of 03_c_queue.c: a chain from `front` to `rear`.
    `rear` is modelled as the last cell of the chain (the node `rear`
    addresses), so the front/rear invariant becomes a predicate. */
module LinkedQueue {
  import opened Nodes
  import Opt
  import QueueSpec

  datatype Queue = Queue(front: Chain, rear: Chain)

  /** The last cell of a non-empty chain. */
  function LastCell(c: Chain): (r: Chain)
    requires c != Nil
    ensures r == Node(Elems(c)[|Elems(c)| - 1], Nil)
  {
    if c.next == Nil then c else LastCell(c.next)
  }

  /** `front` and `rear` are both NULL or both set, and `rear` is the last node. */
  predicate Valid(q: Queue)
  {
    && (q.front == Nil <==> q.rear == Nil)
    && (q.front != Nil ==> q.rear == LastCell(q.front))
  }

  /** The queued values, oldest (front) first. */
  function Contents(q: Queue): seq<int>
  {
    Elems(q.front)
  }

  /** `initLinkedQueue`. */
  function Init(): (q: Queue)
    ensures Valid(q) && Contents(q) == []
  {
    Queue(Nil, Nil)
  }

  predicate IsEmpty(q: Queue) { q.front == Nil }

  /** Linking a new node after the last one (`rear->next = newNode`). */
  function Append(c: Chain, value: int): (r: Chain)
    ensures Elems(r) == Elems(c) + [value]
  {
    match c
    case Nil => Node(value, Nil)
    case Node(d, n) => Node(d, Append(n, value))
  }

  /** `linkedQueueEnqueue`: the new node becomes the rear, and also the front
      when the queue was empty. Allocation never fails in the model. */
  function Enqueue(q: Queue, value: int): (r: (bool, Queue))
    requires Valid(q)
    ensures r.0 && Valid(r.1)
    ensures r.1.rear == Node(value, Nil)
    ensures Contents(r.1) == Contents(q) + [value]
  {
    var newNode := Node(value, Nil);
    if IsEmpty(q) then (true, Queue(newNode, newNode))
    else (true, Queue(Append(q.front, value), newNode))
  }

  /** `linkedQueueDequeue`: fails on an empty queue; otherwise unlinks the
      front node and returns its value, clearing `rear` when the queue empties. */
  function Dequeue(q: Queue): (r: (Opt.Option<int>, Queue))
    requires Valid(q)
    ensures Valid(r.1)
    ensures Contents(q) == [] ==> r == (Opt.None, q)
    ensures Contents(q) != [] ==> r.0 == Opt.Some(Contents(q)[0]) && Contents(r.1) == Contents(q)[1..]
    ensures |Contents(q)| == 1 ==> r.1 == Queue(Nil, Nil)
  {
    match q.front
    case Nil => (Opt.None, q)
    case Node(d, next) => (Opt.Some(d), Queue(next, if next == Nil then Nil else q.rear))
  }

  /** `linkedQueueFront`. */
  function Front(q: Queue): (r: Opt.Option<int>)
    ensures r.None? <==> Contents(q) == []
    ensures r.Some? ==> r.value == Contents(q)[0]
  {
    match q.front
    case Nil => Opt.None
    case Node(d, _) => Opt.Some(d)
  }

  /** `linkedQueueSize`: 0 when empty, otherwise the node count. */
  method Size(q: Queue) returns (n: int)
    ensures n == |Contents(q)|
  {
    if IsEmpty(q) {
      return 0;
    }
    n := CountNodes(q.front);
  }

  /** Runs queue requests against the chain, collecting the replies. */
  function Run(q: Queue, ops: seq<QueueSpec.Op>): (r: (Queue, seq<QueueSpec.Reply>))
    requires Valid(q)
    ensures Valid(r.0)
    decreases |ops|
  {
    if ops == [] then (q, [])
    else
      var (q1, reply) := match ops[0]
        case Enqueue(v) =>
          var (ok, q1) := Enqueue(q, v);
          (q1, if ok then QueueSpec.Accepted(v) else QueueSpec.Overflow)
        case Dequeue =>
          var (v, q1) := Dequeue(q);
          (q1, if v.Some? then QueueSpec.Got(v.value) else QueueSpec.Underflow);
      var (q2, rest) := Run(q1, ops[1..]);
      (q2, [reply] + rest)
  }

  /** The chain behaves as the unbounded abstract queue, so it inherits the FIFO law. */
  lemma {:induction false} Refines(q: Queue, ops: seq<QueueSpec.Op>)
    requires Valid(q)
    ensures Run(q, ops).1 == QueueSpec.Run(Contents(q), Opt.None, ops).1
    ensures Contents(Run(q, ops).0) == QueueSpec.Run(Contents(q), Opt.None, ops).0
    decreases |ops|
  {
    if ops != [] {
      match ops[0]
      case Enqueue(v) => Refines(Enqueue(q, v).1, ops[1..]);
      case Dequeue => Refines(Dequeue(q).1, ops[1..]);
    }
  }
}

=== FILE: linked_stack.dfy ===
/** The LinkedStack of 02_c_stack.c and 02_cpp_stack.cpp: a chain whose head
    node is the top of the stack. Allocation never fails in the model. */
module LinkedStack {
  import opened Nodes
  import Opt
  import Seqs
  import ArrayStack

  datatype Stack = Stack(top: Chain)

  /** The values on the stack, top first (the order `display` prints). */
  function Contents(s: Stack): seq<int>
  {
    Elems(s.top)
  }

  /** `initLinkedStack` / the constructor: `top = NULL`. */
  function Init(): (s: Stack)
    ensures Contents(s) == []
  {
    Stack(Nil)
  }

  predicate IsEmpty(s: Stack) { s.top == Nil }

  /** `linkedStackPush` / `LinkedStack::push`: always succeeds and puts the
      value on top of the old stack. */
  function Push(s: Stack, value: int): (r: (bool, Stack))
    ensures r.0
    ensures Contents(r.1) == [value] + Contents(s)
  {
    (true, Stack(Node(value, s.top)))
  }

  /** `linkedStackPop` / `LinkedStack::pop`: fails on an empty stack;
      otherwise returns the top value and unlinks the top node. */
  function Pop(s: Stack): (r: (Opt.Option<int>, Stack))
    ensures Contents(s) == [] ==> r == (Opt.None, s)
    ensures Contents(s) != [] ==>
      r.0 == Opt.Some(Contents(s)[0]) && Contents(r.1) == Contents(s)[1..]
  {
    match s.top
    case Nil => (Opt.None, s)
    case Node(d, next) => (Opt.Some(d), Stack(next))
  }

  /** `linkedStackPeek` / `LinkedStack::peek`. */
  function Peek(s: Stack): (r: Opt.Option<int>)
    ensures r.None? <==> Contents(s) == []
    ensures r.Some? ==> r.value == Contents(s)[0]
  {
    match s.top
    case Nil => Opt.None
    case Node(d, _) => Opt.Some(d)
  }

  /** `linkedStackSize` / `LinkedStack::size`: walks the chain counting nodes. */
  method Size(s: Stack) returns (n: int)
    ensures n == |Contents(s)|
  {
    n := CountNodes(s.top);
  }

  /** A push or a pop request, as issued by a caller. */
  datatype Op = PushOp(value: int) | PopOp

  /** Runs `ops` in order; returns the final stack and, per pop, what it yielded. */
  function Run(s: Stack, ops: seq<Op>): (r: (Stack, seq<Opt.Option<int>>))
    decreases |ops|
  {
    if ops == [] then (s, [])
    else
      match ops[0]
      case PushOp(v) => Run(Push(s, v).1, ops[1..])
      case PopOp =>
        var (v, s') := Pop(s);
        var (t, out) := Run(s', ops[1..]);
        (t, [v] + out)
  }

  function PushCount(ops: seq<Op>): nat
  {
    if ops == [] then 0 else (if ops[0].PushOp? then 1 else 0) + PushCount(ops[1..])
  }

  function SomeCount(out: seq<Opt.Option<int>>): nat
  {
    if out == [] then 0 else (if out[0].Some? then 1 else 0) + SomeCount(out[1..])
  }

  /** The number of nodes is the starting count plus the pushes minus the
      pops that succeeded. */
  lemma {:induction false} SizeCountsOps(s: Stack, ops: seq<Op>)
    ensures |Contents(Run(s, ops).0)| == |Contents(s)| + PushCount(ops) - SomeCount(Run(s, ops).1)
    decreases |ops|
  {
    if ops != [] {
      match ops[0]
      case PushOp(v) =>
        SizeCountsOps(Push(s, v).1, ops[1..]);
      case PopOp =>
        var (v, s') := Pop(s);
        SizeCountsOps(s', ops[1..]);
        var out := Run(s', ops[1..]).1;
        assert ([v] + out)[1..] == out;
    }
  }

  /** The array and linked backings hold the same stack: the array's
      bottom-first slots are the chain read backwards. */
  predicate Corresponds(a: ArrayStack.Stack, l: Stack)
  {
    ArrayStack.Valid(a) && ArrayStack.Elems(a) == Seqs.Reverse(Contents(l))
  }

  /** The two backings are interchangeable: from corresponding states, a pop
      or a peek gives the same answer, a push into a non-full array gives
      the same answer, and the states still correspond afterwards. */
  lemma {:induction false} BackingsAgree(a: ArrayStack.Stack, l: Stack, value: int)
    requires Corresponds(a, l)
    ensures ArrayStack.Peek(a) == Peek(l)
    ensures ArrayStack.Pop(a).0 == Pop(l).0 && Corresponds(ArrayStack.Pop(a).1, Pop(l).1)
    ensures ArrayStack.Size(a) == |Contents(l)|
    ensures !ArrayStack.IsFull(a) ==>
      ArrayStack.Push(a, value).0 && Corresponds(ArrayStack.Push(a, value).1, Push(l, value).1)
  {
    var c := Contents(l);
    var e := ArrayStack.Elems(a);
    if c != [] {
      assert c == [c[0]] + c[1..];
      assert Seqs.Reverse(c) == Seqs.Reverse(c[1..]) + [c[0]];
      assert e[..|e| - 1] == Seqs.Reverse(c[1..]);
    }
    assert Seqs.Reverse([value] + c) == Seqs.Reverse(c) + [value];
  }
}

=== FILE: lista.dfy ===
/** The search, locate and print routines of lista01.cpp over a linked chain. */
module Lista {
  import opened Nodes
  import Seqs
  import Decimal
  import LinkedList

  /** `cerca_eleR`: recursive membership test. */
  function CercaEleR(p: Chain, e: int): (found: bool)
    ensures found <==> e in Elems(p)
  {
    if p == Nil then false
    else if p.data == e then true
    else CercaEleR(p.next, e)
  }

  /** `cerca_ele`: the iterative membership test; it stops at the first match
      and agrees with the recursive version on every list. */
  method CercaEle(p: Chain, e: int) returns (f: bool)
    ensures f <==> e in Elems(p)
    ensures f == CercaEleR(p, e)
  {
    f := false;
    var cur := p;
    while cur != Nil && !f
      invariant f ==> cur != Nil && cur.data == e
      invariant e in Elems(p) <==> f || e in Elems(cur)
      decreases cur, if f then 0 else 1
    {
      if cur.data == e {
        f := true;
      } else {
        cur := cur.next;
      }
    }
  }

  /** Where `trova_pos_ele` stops: the first index holding `e`, or the last
      index when `e` is absent. */
  function PosEle(s: seq<int>, e: int): (k: nat)
    requires |s| > 0
    ensures k < |s|
    ensures e in s ==> s[k] == e && e !in s[..k]
    ensures e !in s ==> k == |s| - 1
  {
    if s[0] == e || |s| == 1 then 0
    else
      var k := 1 + PosEle(s[1..], e);
      assert s[..k] == [s[0]] + s[1..][..k - 1];
      k
  }

  /** `trova_pos_ele`: the node holding the first occurrence of `e`, or the
      last node when `e` is absent. On an empty list the source returns an
      uninitialised pointer, so a node is required. Returns the node and its
      index. */
  method TrovaPosEle(p: Chain, e: int) returns (node: Chain, k: nat)
    requires p != Nil
    ensures k == PosEle(Elems(p), e)
    ensures node != Nil && Elems(node) == Elems(p)[k..]
  {
    var cur := p;
    var i := 0;
    while cur.data != e && cur.next != Nil
      invariant cur != Nil
      invariant i < |Elems(p)| && Elems(cur) == Elems(p)[i..]
      invariant e !in Elems(p)[..i]
      decreases cur
    {
      assert Elems(p)[..i + 1] == Elems(p)[..i] + [cur.data];
      cur := cur.next;
      i := i + 1;
    }
    if cur.data == e {
      assert Elems(p)[i] == e;
    } else {
      assert Elems(p) == Elems(p)[..i] + [cur.data];
    }
    node, k := cur, i;
  }

  /** Lines 192-196 of the driver: link a new node after the node that
      `trova_pos_ele` finds. */
  function InserisciDopo(p: Chain, voluto: int, nuovo: int): (r: Chain)
    requires p != Nil
    ensures Elems(r) == Seqs.InsertAt(Elems(p), PosEle(Elems(p), voluto) + 1, nuovo)
  {
    if p.data == voluto || p.next == Nil then Node(p.data, Node(nuovo, p.next))
    else
      var r := Node(p.data, InserisciDopo(p.next, voluto, nuovo));
      assert Elems(r) == [p.data] + Seqs.InsertAt(Elems(p.next), PosEle(Elems(p.next), voluto) + 1, nuovo);
      r
  }

  /** The new value lands right after the first occurrence of `voluto`, or at
      the end when `voluto` is absent; nothing else moves. */
  lemma InsertAfterPlacement(p: Chain, voluto: int, nuovo: int)
    requires p != Nil
    ensures voluto in Elems(p) ==>
      exists k :: 0 <= k < |Elems(p)| && Elems(p)[k] == voluto && voluto !in Elems(p)[..k]
        && Elems(InserisciDopo(p, voluto, nuovo)) == Elems(p)[..k + 1] + [nuovo] + Elems(p)[k + 1..]
    ensures voluto !in Elems(p) ==> Elems(InserisciDopo(p, voluto, nuovo)) == Elems(p) + [nuovo]
  {
    var s := Elems(p);
    var k := PosEle(s, voluto);
    var r := Elems(InserisciDopo(p, voluto, nuovo));
    assert r == s[..k + 1] + [nuovo] + s[k + 1..];
  }

  /** The text printed for one node. */
  function Cell(x: int): string
  {
    "[" + Decimal.IntToString(x) + "]->"
  }

  /** The printed form of a list of values: one cell per value, in order,
      then the NULL marker. */
  function Cells(xs: seq<int>): string
  {
    if xs == [] then "NULL \n\n" else Cell(xs[0]) + Cells(xs[1..])
  }

  lemma CellsStep(p: Chain)
    requires p != Nil
    ensures Cells(Elems(p)) == Cell(p.data) + Cells(Elems(p.next))
  {
    assert Elems(p)[1..] == Elems(p.next);
  }

  /** `stampa_listaR`: the recursive printer. It prints the values of the
      list in order, whatever the chain. */
  function StampaListaR(p: Chain): (out: string)
    ensures out == Cells(Elems(p))
  {
    if p == Nil then "NULL \n\n" else Cell(p.data) + StampaListaR(p.next)
  }

  /** `stampa_lista`: the iterative printer, which writes the same text as
      the recursive one. */
  method StampaLista(p: Chain) returns (out: string)
    ensures out == StampaListaR(p)
  {
    out := "";
    var cur := p;
    while cur != Nil
      invariant out + Cells(Elems(cur)) == Cells(Elems(p))
      decreases cur
    {
      CellsStep(cur);
      assert (out + Cell(cur.data)) + Cells(Elems(cur.next)) == out + (Cell(cur.data) + Cells(Elems(cur.next)));
      out := out + Cell(cur.data);
      cur := cur.next;
    }
    out := out + "NULL \n\n";
  }

  /** The printed text always ends with the "NULL" terminator line and has
      at least five characters ("[", a digit, "]->") per node. */
  lemma {:induction false} PrintedShape(p: Chain)
    ensures |StampaListaR(p)| >= 7 + 5 * |Elems(p)|
    ensures StampaListaR(p)[|StampaListaR(p)| - 7..] == "NULL \n\n"
    decreases p
  {
    if p != Nil {
      PrintedShape(p.next);
    }
  }

  /** The list edits of the driver (lines 84-166): 1, 2, 3; insert 0 at the
      head; insert 4 after the head; append 5; drop the head; unlink the
      second node; drop the last node. */
  lemma Scenario()
    ensures var l0 := FromSeq([1, 2, 3]);
      var l1 := LinkedList.InsertAtBeginning(l0, 0);
      var l2 := LinkedList.LinkAfter(l1, 4, 0).value;
      var l3 := LinkedList.InsertAtEnd(l2, 5);
      var l4 := LinkedList.DeleteFromBeginning(l3).head;
      var l5 := LinkedList.UnlinkAfter(l4, 0).value;
      var l6 := LinkedList.DropLast(l5);
      && Elems(l1) == [0, 1, 2, 3]
      && Elems(l2) == [0, 4, 1, 2, 3]
      && Elems(l3) == [0, 4, 1, 2, 3, 5]
      && Elems(l4) == [4, 1, 2, 3, 5]
      && Elems(l5) == [4, 2, 3, 5]
      && Elems(l6) == [4, 2, 3]
  {
    var l0 := FromSeq([1, 2, 3]);
    var l1 := LinkedList.InsertAtBeginning(l0, 0);
    assert Elems(l1) == [0, 1, 2, 3];
    var l2 := LinkedList.LinkAfter(l1, 4, 0).value;
    assert Elems(l2) == [0, 4, 1, 2, 3];
    var l3 := LinkedList.InsertAtEnd(l2, 5);
    var l4 := LinkedList.DeleteFromBeginning(l3).head;
    assert Elems(l4) == [4, 1, 2, 3, 5];
    var l5 := LinkedList.UnlinkAfter(l4, 0).value;
    assert Elems(l5) == [4, 2, 3, 5];
  }
}

=== FILE: logging.dfy ===
/** The levelled logger of 05_LoggingAvanzato.js: messages below the current
    level are dropped, the rest are tagged and kept in a buffer of the five
    most recent lines. The seconds-since-start text is an input (`stamp`);
    refreshing the display is left out. */
module Logging {
  import Seqs

  const DEBUG := 0
  const INFO := 1
  const WARN := 2
  const ERROR := 3
  const NONE := 4

  const MAX_LOG_LINES_DISPLAY := 5

  datatype Logger = Logger(currentLogLevel: int, logBuffer: seq<string>)

  /** The logger at program start: level INFO, empty buffer. */
  function Iniziale(): (l: Logger)
    ensures l.currentLogLevel == INFO && l.logBuffer == []
  {
    Logger(INFO, [])
  }

  /** The three-letter tag of a level; unknown levels are tagged "LOG". */
  function LevelStr(level: int): (tag: string)
    ensures |tag| == 3
    ensures tag == "LOG" <==> !(DEBUG <= level <= ERROR)
  {
    if level == DEBUG then "DBG"
    else if level == INFO then "INF"
    else if level == WARN then "WRN"
    else if level == ERROR then "ERR"
    else "LOG"
  }

  /** The stored line: "<stamp>s [<tag>]: <message>". */
  function Format(stamp: string, level: int, message: string): (line: string)
    ensures |line| == |stamp| + 9 + |message| && line[..|stamp|] == stamp
    ensures line[|stamp|..|stamp| + 3] == "s [" && line[|stamp| + 3..|stamp| + 6] == LevelStr(level)
    ensures line[|stamp| + 9..] == message
  {
    stamp + "s [" + LevelStr(level) + "]: " + message
  }

  /** `log`: a message below the current level leaves the logger as it was;
      otherwise its line is appended and, past five lines, the oldest line
      is dropped. */
  function Log(l: Logger, level: int, message: string, stamp: string): (r: Logger)
    requires |l.logBuffer| <= MAX_LOG_LINES_DISPLAY
    ensures |r.logBuffer| <= MAX_LOG_LINES_DISPLAY
    ensures r.currentLogLevel == l.currentLogLevel
    ensures level < l.currentLogLevel ==> r == l
    ensures level >= l.currentLogLevel ==>
      r.logBuffer == Seqs.LastN(l.logBuffer + [Format(stamp, level, message)], MAX_LOG_LINES_DISPLAY)
  {
    if level < l.currentLogLevel then l
    else
      var buffer := l.logBuffer + [Format(stamp, level, message)];
      Logger(l.currentLogLevel, if |buffer| > MAX_LOG_LINES_DISPLAY then buffer[1..] else buffer)
  }

  /** One call of `log`. */
  datatype Entry = Entry(level: int, message: string, stamp: string)

  /** Logs every entry in order. */
  function LogAll(l: Logger, es: seq<Entry>): (r: Logger)
    requires |l.logBuffer| <= MAX_LOG_LINES_DISPLAY
    ensures |r.logBuffer| <= MAX_LOG_LINES_DISPLAY
    ensures r.currentLogLevel == l.currentLogLevel
    decreases |es|
  {
    if es == [] then l else LogAll(Log(l, es[0].level, es[0].message, es[0].stamp), es[1..])
  }

  /** The lines of the entries that pass the level filter, in order. */
  function Accepted(current: int, es: seq<Entry>): seq<string>
    decreases |es|
  {
    if es == [] then []
    else
      var e := es[|es| - 1];
      Accepted(current, es[..|es| - 1]) + (if e.level >= current then [Format(e.stamp, e.level, e.message)] else [])
  }

  lemma LastNAppend(s: seq<string>, x: string, n: nat)
    requires n >= 1
    ensures Seqs.LastN(Seqs.LastN(s, n) + [x], n) == Seqs.LastN(s + [x], n)
  {
    var a := Seqs.LastN(Seqs.LastN(s, n) + [x], n);
    var b := Seqs.LastN(s + [x], n);
    assert |a| == |b|;
    forall i | 0 <= i < |a| ensures a[i] == b[i] {
    }
  }

  /** The buffer always holds the last five lines that passed the filter. */
  lemma {:induction false} BufferIsLastFive(es: seq<Entry>, current: int, initial: seq<string>)
    requires |initial| <= MAX_LOG_LINES_DISPLAY
    ensures LogAll(Logger(current, initial), es).logBuffer ==
      Seqs.LastN(initial + Accepted(current, es), MAX_LOG_LINES_DISPLAY)
    decreases |es|
  {
    if es == [] {
      assert initial + [] == initial;
    } else {
      var front := es[..|es| - 1];
      var e := es[|es| - 1];
      LogAllSnoc(Logger(current, initial), front, e);
      BufferIsLastFive(front, current, initial);
      assert es == front + [e];
      var mid := LogAll(Logger(current, initial), front);
      if e.level >= current {
        var line := Format(e.stamp, e.level, e.message);
        var x := initial + Accepted(current, front);
        assert Log(mid, e.level, e.message, e.stamp).logBuffer == Seqs.LastN(Seqs.LastN(x, MAX_LOG_LINES_DISPLAY) + [line], MAX_LOG_LINES_DISPLAY);
        LastNAppend(x, line, MAX_LOG_LINES_DISPLAY);
        assert Accepted(current, es) == Accepted(current, front) + [line];
        assert initial + Accepted(current, es) == x + [line];
      } else {
        assert Accepted(current, es) == Accepted(current, front) + [];
      }
    }
  }

  lemma {:induction false} LogAllSnoc(l: Logger, es: seq<Entry>, e: Entry)
    requires |l.logBuffer| <= MAX_LOG_LINES_DISPLAY
    ensures LogAll(l, es + [e]) == Log(LogAll(l, es), e.level, e.message, e.stamp)
    decreases |es|
  {
    if es == [] {
      assert [e][1..] == [];
    } else {
      assert (es + [e])[1..] == es[1..] + [e];
      LogAllSnoc(Log(l, es[0].level, es[0].message, es[0].stamp), es[1..], e);
    }
  }

  /** The assignment to `currentLogLevel` in the driver: the new level
      applies from now on; the lines already kept stay. */
  function SetLevel(l: Logger, level: int): (r: Logger)
    ensures r.currentLogLevel == level && r.logBuffer == l.logBuffer
  {
    l.(currentLogLevel := level)
  }

  /** The driver's switch to DEBUG: a DEBUG message dropped at the initial
      level INFO is kept once the level is lowered, and the buffer held
      before the switch is kept too. */
  lemma SwitchToDebugAdmitsDebug(buffer: seq<string>, message: string, stamp: string)
    requires |buffer| <= MAX_LOG_LINES_DISPLAY
    ensures Log(Logger(INFO, buffer), DEBUG, message, stamp) == Logger(INFO, buffer)
    ensures Log(SetLevel(Logger(INFO, buffer), DEBUG), DEBUG, message, stamp).logBuffer ==
      Seqs.LastN(buffer + [Format(stamp, DEBUG, message)], MAX_LOG_LINES_DISPLAY)
  {
  }

  /** At level NONE every message of a named level (DEBUG .. ERROR) is
      dropped. */
  lemma NoneSilencesNamedLevels(buffer: seq<string>, level: int, message: string, stamp: string)
    requires |buffer| <= MAX_LOG_LINES_DISPLAY && level <= ERROR
    ensures Log(Logger(NONE, buffer), level, message, stamp) == Logger(NONE, buffer)
  {
  }
}

=== FILE: nodes.dfy ===
/** The singly linked node chain shared by the list, stack and queue programs.
    `Nil` plays the part of the NULL pointer; a chain is acyclic and unshared
    by construction, which is the ownership invariant of the C structures. */
module Nodes {

  datatype Chain = Nil | Node(data: int, next: Chain)

  /** The values met by following `next` from the head, in order. */
  function Elems(c: Chain): seq<int>
  {
    match c
    case Nil => []
    case Node(d, n) => [d] + Elems(n)
  }

  /** A chain holding exactly the values of `s`, head first. */
  function FromSeq(s: seq<int>): (c: Chain)
    ensures Elems(c) == s
  {
    if s == [] then Nil else Node(s[0], FromSeq(s[1..]))
  }

  /** Two chains are the same chain exactly when they hold the same values. */
  lemma {:induction false} ElemsInjective(a: Chain, b: Chain)
    requires Elems(a) == Elems(b)
    ensures a == b
  {
    match a
    case Nil =>
    case Node(d, n) =>
      assert Elems(b)[0] == d;
      assert Elems(n) == Elems(a)[1..] == Elems(b)[1..] == Elems(b.next);
      ElemsInjective(n, b.next);
  }

  /** The counting loop of `linkedStackSize`, `LinkedStack::size` and
      `linkedQueueSize`: walk the chain and count the nodes. */
  method CountNodes(head: Chain) returns (count: int)
    ensures count == |Elems(head)|
  {
    count := 0;
    var current := head;
    while current != Nil
      invariant count + |Elems(current)| == |Elems(head)|
      decreases current
    {
      count := count + 1;
      current := current.next;
    }
  }
}

=== FILE: option.dfy ===
/** An optional value: the model's stand-in for a NULL pointer, a JavaScript
    `undefined`/`null`, or a lookup that found nothing. */
module Opt {

  datatype Option<T> = None | Some(value: T)

}

=== FILE: pila.dfy ===
/** The linked stack of pila01.cpp: every operation takes the head of the
    chain and returns the new head. */
module Pila {
  import opened Nodes
  import Seqs

  /** `creaPila`: the empty stack. */
  function CreaPila(): (p: Chain)
    ensures Elems(p) == []
  {
    Nil
  }

  /** `isVuota`: true exactly for the NULL head. */
  function IsVuota(p: Chain): (b: bool)
    ensures b <==> Elems(p) == []
  {
    p == Nil
  }

  /** `push`: a new node on top of the old stack. */
  function Push(p: Chain, elemento: int): (r: Chain)
    ensures Elems(r) == [elemento] + Elems(p)
    ensures r.next == p
  {
    Node(elemento, p)
  }

  /** `pop1`: the stack below the top; the empty stack stays empty. */
  function Pop1(p: Chain): (r: Chain)
    ensures Elems(p) == [] ==> r == Nil
    ensures Elems(p) != [] ==> Elems(r) == Elems(p)[1..]
  {
    if p != Nil then (if p.next != Nil then p.next else Nil) else p
  }

  /** `pop`: like `pop1`, but it first saves the head in a temporary and
      releases that node before returning. The result pairs the new head
      with the released node (Nil when nothing was released). */
  function Pop(p: Chain): (r: (Chain, Chain))
    ensures Elems(p) == [] ==> r == (Nil, Nil)
    ensures Elems(p) != [] ==> Elems(r.0) == Elems(p)[1..]
    ensures Elems(p) != [] ==> r.1 != Nil && r.1.data == Elems(p)[0]
  {
    var tempo := if p != Nil then p else Nil;
    var testa := if p != Nil then (if p.next != Nil then p.next else Nil) else p;
    (testa, tempo)
  }

  /** The two pop variants leave the same stack on every input; `pop`
      releases exactly the node `pop1` unlinks, whose successor is the new
      head, so no surviving node is released. */
  lemma PopsAgree(p: Chain)
    ensures Pop(p).0 == Pop1(p)
    ensures Pop(p).1 == Nil <==> p == Nil
    ensures Pop(p).1 != Nil ==> Elems(Pop(p).1) == [Pop(p).1.data] + Elems(Pop1(p))
  {
    if p != Nil {
      ElemsInjective(Pop(p).0, Pop1(p));
    }
  }

  /** Popping what was just pushed gives back the original stack, and the
      node released holds the pushed value. */
  lemma PopPush(p: Chain, x: int)
    ensures Pop(Push(p, x)).0 == p
    ensures Pop(Push(p, x)).1.data == x
  {
    ElemsInjective(Pop(Push(p, x)).0, p);
  }

  /** The value `rand() % 9 + 1` for a non-negative draw of `rand()`. */
  function Digit(draw: nat): (d: int)
    ensures 1 <= d <= 9
  {
    draw % 9 + 1
  }

  /** The digits produced by a sequence of draws, in draw order. */
  function Digits(draws: seq<nat>): (ds: seq<int>)
    ensures |ds| == |draws|
    ensures forall i :: 0 <= i < |ds| ==> ds[i] == Digit(draws[i])
  {
    if draws == [] then [] else Digits(draws[..|draws| - 1]) + [Digit(draws[|draws| - 1])]
  }

  /** `creaPilaRandom`: push `quanti` random digits onto an empty stack, the
      i-th draw of `rand()` being `draws[i]`. The last digit drawn ends on top. */
  method CreaPilaRandom(quanti: int, draws: seq<nat>) returns (p: Chain)
    requires quanti <= |draws|
    ensures quanti <= 0 ==> p == Nil
    ensures quanti > 0 ==> Elems(p) == Seqs.Reverse(Digits(draws[..quanti]))
    ensures forall v :: v in Elems(p) ==> 1 <= v <= 9
  {
    p := CreaPila();
    var x := 0;
    while x < quanti
      invariant 0 <= x <= if quanti < 0 then 0 else quanti
      invariant Elems(p) == Seqs.Reverse(Digits(draws[..x]))
      decreases quanti - x
    {
      var dato := Digit(draws[x]);
      assert draws[..x + 1][..x] == draws[..x];
      p := Push(p, dato);
      x := x + 1;
    }
    if quanti > 0 {
      assert draws[..x] == draws[..quanti];
    } else {
      ElemsInjective(p, Nil);
    }
    forall v | v in Elems(p) ensures 1 <= v <= 9 {
      var i :| 0 <= i < |Elems(p)| && Elems(p)[i] == v;
    }
  }

  /** The driver of pila01.cpp: pushing 10, 20, 30 and popping once leaves
      20 on top of 10. */
  lemma Scenario()
    ensures Elems(Pop(Push(Push(Push(CreaPila(), 10), 20), 30)).0) == [20, 10]
  {
  }
}

=== FILE: queue_spec.dfy ===
/** The abstract queue that the three backings of 03_c_queue.c implement: a
    sequence, oldest first, optionally bounded by a capacity. */
module QueueSpec {
  import Opt

  /** A request issued to a queue. */
  datatype Op = Enqueue(value: int) | Dequeue

  /** What a request reported: an enqueue accepted or refused (overflow), a
      dequeue that produced a value or found the queue empty (underflow). */
  datatype Reply = Accepted(value: int) | Overflow | Got(value: int) | Underflow

  /** One request against the abstract queue `q` with optional capacity `bound`. */
  function Step(q: seq<int>, bound: Opt.Option<nat>, op: Op): (r: (seq<int>, Reply))
  {
    match op
    case Enqueue(v) =>
      if bound.Some? && |q| >= bound.value then (q, Overflow) else (q + [v], Accepted(v))
    case Dequeue =>
      if q == [] then (q, Underflow) else (q[1..], Got(q[0]))
  }

  /** Runs `ops` in order; returns the final queue and the replies. */
  function Run(q: seq<int>, bound: Opt.Option<nat>, ops: seq<Op>): (r: (seq<int>, seq<Reply>))
    ensures |r.1| == |ops|
    decreases |ops|
  {
    if ops == [] then (q, [])
    else
      var (q1, reply) := Step(q, bound, ops[0]);
      var (q2, rest) := Run(q1, bound, ops[1..]);
      (q2, [reply] + rest)
  }

  /** The values that dequeues produced, in order. */
  function Dequeued(replies: seq<Reply>): seq<int>
  {
    if replies == [] then []
    else (if replies[0].Got? then [replies[0].value] else []) + Dequeued(replies[1..])
  }

  /** The values that enqueues got accepted, in order. */
  function Enqueued(replies: seq<Reply>): seq<int>
  {
    if replies == [] then []
    else (if replies[0].Accepted? then [replies[0].value] else []) + Enqueued(replies[1..])
  }

  /** The FIFO law: what came out, followed by what is still queued, is what
      was there at the start followed by every accepted value, in order. So
      values leave exactly in the order they entered. */
  lemma {:induction false} FifoLaw(q: seq<int>, bound: Opt.Option<nat>, ops: seq<Op>)
    ensures Dequeued(Run(q, bound, ops).1) + Run(q, bound, ops).0 == q + Enqueued(Run(q, bound, ops).1)
    decreases |ops|
  {
    if ops != [] {
      var (q1, reply) := Step(q, bound, ops[0]);
      var (q2, rest) := Run(q1, bound, ops[1..]);
      FifoLaw(q1, bound, ops[1..]);
      var replies := [reply] + rest;
      assert replies[1..] == rest;
      match reply
      case Accepted(v) =>
        assert q1 == q + [v];
        assert Dequeued(replies) == Dequeued(rest);
        assert Enqueued(replies) == [v] + Enqueued(rest);
        assert q + ([v] + Enqueued(rest)) == q1 + Enqueued(rest);
      case Got(v) =>
        assert q == [v] + q1;
        assert Dequeued(replies) == [v] + Dequeued(rest);
        assert Enqueued(replies) == Enqueued(rest);
        assert [v] + Dequeued(rest) + q2 == [v] + (Dequeued(rest) + q2);
      case Overflow =>
        assert Dequeued(replies) == Dequeued(rest) && Enqueued(replies) == Enqueued(rest);
      case Underflow =>
        assert Dequeued(replies) == Dequeued(rest) && Enqueued(replies) == Enqueued(rest);
    }
  }
}

=== FILE: robot.dfy ===
/** The grid explorer of 06_RobotEsploratoreSemplice.js: a robot on a 10 x 10
    occupancy map (0 unknown, 1 free, 2 obstacle) that turns on obstacles and
    otherwise advances, for at most 30 steps. Motors, display and pauses are
    left out; each ultrasonic reading is an input (`None` for `null`). */
module Robot {
  import Opt

  const LARGHEZZA := 10
  const ALTEZZA := 10
  const DISTANZA_OSTACOLO := 25.0
  const MAX_PASSI := 30

  const SCONOSCIUTO := 0
  const LIBERO := 1
  const OSTACOLO := 2

  /** Map rows are indexed by y, cells within a row by x. */
  type Mappa = seq<seq<int>>

  datatype Robot = Robot(x: int, y: int, orientamento: int, mappa: Mappa, passi: int)

  predicate InGriglia(x: int, y: int)
  {
    0 <= x < LARGHEZZA && 0 <= y < ALTEZZA
  }

  predicate MappaValida(m: Mappa)
  {
    |m| == ALTEZZA && forall r :: 0 <= r < |m| ==> |m[r]| == LARGHEZZA
  }

  /** Every cell holds 0, 1 or 2. */
  predicate CelleValide(m: Mappa)
    requires MappaValida(m)
  {
    forall r, c :: 0 <= r < ALTEZZA && 0 <= c < LARGHEZZA ==> m[r][c] in {SCONOSCIUTO, LIBERO, OSTACOLO}
  }

  /** The robot invariant: on the grid, facing one of four directions, its
      own cell marked free, and a well-formed map. */
  predicate Valid(r: Robot)
  {
    && MappaValida(r.mappa)
    && CelleValide(r.mappa)
    && InGriglia(r.x, r.y)
    && 0 <= r.orientamento < 4
    && r.mappa[r.y][r.x] == LIBERO
    && 0 <= r.passi <= MAX_PASSI
  }

  function Set(m: Mappa, x: int, y: int, v: int): (r: Mappa)
    requires MappaValida(m) && InGriglia(x, y)
    ensures MappaValida(r)
    ensures r[y][x] == v
    ensures forall i, j :: 0 <= i < ALTEZZA && 0 <= j < LARGHEZZA && (i, j) != (y, x) ==> r[i][j] == m[i][j]
  {
    m[y := m[y][x := v]]
  }

  /** `inizializzaMappa` with the robot at (5, 5): every cell unknown except
      the start cell, which is free. */
  function InizializzaMappa(): (r: Robot)
    ensures Valid(r)
    ensures r.x == 5 && r.y == 5 && r.orientamento == 0 && r.passi == 0
    ensures forall i, j :: 0 <= i < ALTEZZA && 0 <= j < LARGHEZZA ==>
      r.mappa[i][j] == if (i, j) == (5, 5) then LIBERO else SCONOSCIUTO
  {
    var vuota := seq(ALTEZZA, _ => seq(LARGHEZZA, _ => SCONOSCIUTO));
    var x, y := LARGHEZZA / 2, ALTEZZA / 2;
    Robot(x, y, 0, Set(vuota, x, y, LIBERO), 0)
  }

  /** The cell one step ahead in direction `o` (0 north: y - 1, 1 east:
      x + 1, 2 south: y + 1, 3 west: x - 1). */
  function Avanti(x: int, y: int, o: int): (c: (int, int))
  {
    if o == 0 then (x, y - 1)
    else if o == 1 then (x + 1, y)
    else if o == 2 then (x, y + 1)
    else if o == 3 then (x - 1, y)
    else (x, y)
  }

  function Clamp(v: int, hi: int): (c: int)
    requires hi >= 0
    ensures 0 <= c <= hi
    ensures 0 <= v <= hi ==> c == v
  {
    if v < 0 then 0 else if v > hi then hi else v
  }

  /** `aggiornaPosizioneDopoMovimento`: one cell ahead, clamped into the
      grid, and the new cell marked free. */
  function AggiornaPosizione(r: Robot): (s: Robot)
    requires Valid(r)
    ensures Valid(s)
    ensures s.orientamento == r.orientamento && s.passi == r.passi
    ensures InGriglia(Avanti(r.x, r.y, r.orientamento).0, Avanti(r.x, r.y, r.orientamento).1) ==>
      (s.x, s.y) == Avanti(r.x, r.y, r.orientamento)
    ensures !InGriglia(Avanti(r.x, r.y, r.orientamento).0, Avanti(r.x, r.y, r.orientamento).1) ==>
      (s.x, s.y) == (r.x, r.y)
  {
    var (nx, ny) := Avanti(r.x, r.y, r.orientamento);
    var x, y := Clamp(nx, LARGHEZZA - 1), Clamp(ny, ALTEZZA - 1);
    r.(x := x, y := y, mappa := Set(r.mappa, x, y, LIBERO))
  }

  /** `giraDestra`: a quarter turn clockwise. */
  function GiraDestra(o: int): (p: int)
    requires 0 <= o < 4
    ensures 0 <= p < 4
    ensures Avanti(0, 0, p) == (-Avanti(0, 0, o).1, Avanti(0, 0, o).0)
  {
    (o + 1) % 4
  }

  /** `giraSinistra`: a quarter turn anticlockwise. */
  function GiraSinistra(o: int): (p: int)
    requires 0 <= o < 4
    ensures 0 <= p < 4
    ensures Avanti(0, 0, p) == (Avanti(0, 0, o).1, -Avanti(0, 0, o).0)
  {
    (o + 3) % 4
  }

  /** The two turns undo each other, and four right turns are a full circle. */
  lemma TurnsInverse(o: int)
    requires 0 <= o < 4
    ensures GiraSinistra(GiraDestra(o)) == o
    ensures GiraDestra(GiraSinistra(o)) == o
    ensures GiraDestra(GiraDestra(GiraDestra(GiraDestra(o)))) == o
    ensures GiraDestra(o) != o
  {
    if o == 0 {
    } else if o == 1 {
    } else if o == 2 {
    } else {
    }
  }

  /** `controllaEAggiornaMappa`: with a reading closer than 25 cm the cell
      ahead, if on the grid, is marked as an obstacle and `true` returned;
      otherwise nothing changes and `false` is returned. */
  function ControllaEAggiornaMappa(r: Robot, distanza: Opt.Option<real>): (res: (Robot, bool))
    requires Valid(r)
    ensures Valid(res.0)
    ensures res.1 <==> distanza.Some? && distanza.value < DISTANZA_OSTACOLO
    ensures !res.1 ==> res.0 == r
    ensures (res.0.x, res.0.y, res.0.orientamento, res.0.passi) == (r.x, r.y, r.orientamento, r.passi)
    ensures res.1 && InGriglia(Avanti(r.x, r.y, r.orientamento).0, Avanti(r.x, r.y, r.orientamento).1) ==>
      res.0.mappa == Set(r.mappa, Avanti(r.x, r.y, r.orientamento).0, Avanti(r.x, r.y, r.orientamento).1, OSTACOLO)
    ensures res.1 && !InGriglia(Avanti(r.x, r.y, r.orientamento).0, Avanti(r.x, r.y, r.orientamento).1) ==>
      res.0 == r
  {
    if distanza.Some? && distanza.value < DISTANZA_OSTACOLO then
      var (ox, oy) := Avanti(r.x, r.y, r.orientamento);
      if InGriglia(ox, oy) then (r.(mappa := Set(r.mappa, ox, oy, OSTACOLO)), true)
      else (r, true)
    else (r, false)
  }

  /** What one call of `esplora` did. */
  datatype Azione = Fine | GiratoDestra | Avanzato | GiratoSinistra

  /** `esplora`: stop once 30 steps are done; otherwise turn right on an
      obstacle, advance when the cell ahead is on the grid and not a known
      obstacle, or else turn left; then count the step. */
  function Esplora(r: Robot, distanza: Opt.Option<real>): (res: (Robot, Azione))
    requires Valid(r)
    ensures Valid(res.0)
    ensures res.1 == Fine <==> r.passi >= MAX_PASSI
    ensures res.1 == Fine ==> res.0 == r
    ensures res.1 != Fine ==> res.0.passi == r.passi + 1
    ensures res.1 == GiratoDestra <==> r.passi < MAX_PASSI && distanza.Some? && distanza.value < DISTANZA_OSTACOLO
    ensures res.1 == GiratoDestra ==> res.0.orientamento == GiraDestra(r.orientamento)
    ensures res.1 == GiratoSinistra ==> res.0.orientamento == GiraSinistra(r.orientamento)
    ensures res.1 == Avanzato ==> (res.0.x, res.0.y) == Avanti(r.x, r.y, r.orientamento)
    ensures res.1 == GiratoSinistra ==> res.0.mappa == r.mappa
    ensures res.1 == Avanzato ==> res.0.mappa == Set(r.mappa, res.0.x, res.0.y, LIBERO)
    ensures res.1 == Avanzato ==> r.mappa[res.0.y][res.0.x] != OSTACOLO
  {
    if r.passi >= MAX_PASSI then (r, Fine)
    else
      var (r1, ostacolo) := ControllaEAggiornaMappa(r, distanza);
      var (r2, azione) :=
        if ostacolo then (r1.(orientamento := GiraDestra(r1.orientamento)), GiratoDestra)
        else
          var (nx, ny) := Avanti(r1.x, r1.y, r1.orientamento);
          if InGriglia(nx, ny) && r1.mappa[ny][nx] != OSTACOLO then (AggiornaPosizione(r1), Avanzato)
          else (r1.(orientamento := GiraSinistra(r1.orientamento)), GiratoSinistra);
      (r2.(passi := r2.passi + 1), azione)
  }

  /** The forever loop over a sequence of sensor readings. */
  function Esplorazione(r: Robot, letture: seq<Opt.Option<real>>): (s: Robot)
    requires Valid(r)
    ensures Valid(s)
    decreases |letture|
  {
    if letture == [] then r else Esplorazione(Esplora(r, letture[0]).0, letture[1..])
  }

  /** From the start, `n` calls make min(n, 30) steps; after that the robot
      and its map no longer change. */
  lemma {:induction false} StepsBounded(r: Robot, letture: seq<Opt.Option<real>>)
    requires Valid(r)
    ensures Esplorazione(r, letture).passi ==
      if r.passi + |letture| < MAX_PASSI then r.passi + |letture| else MAX_PASSI
    ensures r.passi >= MAX_PASSI ==> Esplorazione(r, letture) == r
    decreases |letture|
  {
    if letture != [] {
      StepsBounded(Esplora(r, letture[0]).0, letture[1..]);
    }
  }
}

=== FILE: semaforo.dfy ===
/** The smart traffic light of 01_Esercizio_SemaforoIntelligente.js: a
    four-state machine advanced by a 100 ms tick, with a pedestrian button
    that shortens the green. Display, lights and the timer are left out;
    a tick and a button press are the inputs. */
module Semaforo {

  datatype Stato = Rosso | GialloVerde | Verde | GialloRosso

  datatype Semaforo = Semaforo(statoCorrente: Stato, tempoNelloStato: int, richiestaPedonale: bool)

  const DURATA_ROSSO := 5000
  const DURATA_GIALLO := 2000
  const DURATA_VERDE := 5000
  const PASSO := 100

  /** The fixed cycle of states. */
  function Successivo(s: Stato): Stato
  {
    match s
    case Rosso => GialloVerde
    case GialloVerde => Verde
    case Verde => GialloRosso
    case GialloRosso => Rosso
  }

  /** The longest a state can last. */
  function DurataMassima(s: Stato): int
  {
    if s == Rosso || s == Verde then 5000 else 2000
  }

  /** `cambiaStato`: enter the new state with a fresh timer; the pending
      request is kept. */
  function CambiaStato(s: Semaforo, nuovo: Stato): (r: Semaforo)
    ensures r.statoCorrente == nuovo && r.tempoNelloStato == 0
    ensures r.richiestaPedonale == s.richiestaPedonale
  {
    s.(statoCorrente := nuovo, tempoNelloStato := 0)
  }

  /** The state after the initialisation statements: red, timer 0, no
      request. */
  function Iniziale(): (r: Semaforo)
    ensures Valid(r)
    ensures r == Semaforo(Rosso, 0, false)
  {
    CambiaStato(Semaforo(Rosso, 0, false), Rosso)
  }

  /** The button handler: a request is now pending. */
  function Pulsante(s: Semaforo): (r: Semaforo)
    ensures Valid(s) ==> Valid(r)
    ensures r.richiestaPedonale
    ensures r.statoCorrente == s.statoCorrente && r.tempoNelloStato == s.tempoNelloStato
  {
    s.(richiestaPedonale := true)
  }

  /** Whether a state whose timer reads `t` is over. */
  function Scaduto(s: Stato, t: int, richiesta: bool): bool
  {
    match s
    case Rosso => t >= DURATA_ROSSO
    case GialloVerde => t >= DURATA_GIALLO
    case Verde => (richiesta && t >= DURATA_GIALLO) || t >= DURATA_VERDE
    case GialloRosso => t >= DURATA_GIALLO
  }

  /** One pass of the forever loop: add 100 ms, then change state if the
      current one is over; entering green clears the request. */
  function Tick(s: Semaforo): (r: Semaforo)
    ensures r.statoCorrente == s.statoCorrente ==> r.tempoNelloStato == s.tempoNelloStato + PASSO
    ensures r.statoCorrente != s.statoCorrente ==>
      r.statoCorrente == Successivo(s.statoCorrente) && r.tempoNelloStato == 0
    ensures r.statoCorrente != s.statoCorrente && r.statoCorrente != Verde ==>
      r.richiestaPedonale == s.richiestaPedonale
  {
    var t := s.tempoNelloStato + PASSO;
    var st := s.statoCorrente;
    if !Scaduto(st, t, s.richiestaPedonale) then s.(tempoNelloStato := t)
    else if st == GialloVerde then CambiaStato(s, Verde).(richiestaPedonale := false)
    else CambiaStato(s, Successivo(st))
  }

  /** The timer is a multiple of 100 below the state's longest duration. */
  predicate Valid(s: Semaforo)
  {
    s.tempoNelloStato % PASSO == 0 && 0 <= s.tempoNelloStato < DurataMassima(s.statoCorrente)
  }

  /** A tick either stays put with 100 ms more on the timer, or moves to the
      next state of the cycle with the timer reset — no other transition
      exists — and it keeps the timer invariant. */
  lemma TickStep(s: Semaforo)
    requires Valid(s)
    ensures Valid(Tick(s))
    ensures Tick(s).statoCorrente == s.statoCorrente ==>
      Tick(s).tempoNelloStato == s.tempoNelloStato + PASSO
    ensures Tick(s).statoCorrente != s.statoCorrente ==>
      Tick(s).statoCorrente == Successivo(s.statoCorrente) && Tick(s).tempoNelloStato == 0
    ensures Tick(s).statoCorrente == Verde && s.statoCorrente != Verde ==> !Tick(s).richiestaPedonale
  {
  }

  /** `n` ticks in a row. */
  function Ticks(s: Semaforo, n: nat): Semaforo
    decreases n
  {
    if n == 0 then s else Ticks(Tick(s), n - 1)
  }

  lemma {:induction false} TicksSnoc(s: Semaforo, n: nat)
    ensures Ticks(s, n + 1) == Tick(Ticks(s, n))
    decreases n
  {
    if n > 0 {
      TicksSnoc(Tick(s), n - 1);
    }
  }

  /** While the state is not over, ticks only advance the timer. */
  lemma {:induction false} Waits(s: Semaforo, n: nat)
    requires forall k :: 1 <= k <= n ==> !Scaduto(s.statoCorrente, s.tempoNelloStato + PASSO * k, s.richiestaPedonale)
    ensures Ticks(s, n) == s.(tempoNelloStato := s.tempoNelloStato + PASSO * n)
    decreases n
  {
    if n > 0 {
      var s1 := Tick(s);
      assert !Scaduto(s.statoCorrente, s.tempoNelloStato + PASSO * 1, s.richiestaPedonale);
      forall k | 1 <= k <= n - 1
        ensures !Scaduto(s1.statoCorrente, s1.tempoNelloStato + PASSO * k, s1.richiestaPedonale)
      {
        assert s1.tempoNelloStato + PASSO * k == s.tempoNelloStato + PASSO * (k + 1);
      }
      Waits(s1, n - 1);
    }
  }

  /** Red lasts 50 ticks (5000 ms), whatever the button does meanwhile. */
  lemma RedLasts5000(r: bool)
    ensures Ticks(Semaforo(Rosso, 0, r), 49).statoCorrente == Rosso
    ensures Ticks(Semaforo(Rosso, 0, r), 50) == Semaforo(GialloVerde, 0, r)
  {
    Waits(Semaforo(Rosso, 0, r), 49);
    TicksSnoc(Semaforo(Rosso, 0, r), 49);
  }

  /** Green lasts 5000 ms, or 2000 ms when a request is pending. */
  lemma GreenDuration()
    ensures Ticks(Semaforo(Verde, 0, false), 49).statoCorrente == Verde
    ensures Ticks(Semaforo(Verde, 0, false), 50).statoCorrente == GialloRosso
    ensures Ticks(Semaforo(Verde, 0, true), 19).statoCorrente == Verde
    ensures Ticks(Semaforo(Verde, 0, true), 20).statoCorrente == GialloRosso
  {
    Waits(Semaforo(Verde, 0, false), 49);
    TicksSnoc(Semaforo(Verde, 0, false), 49);
    Waits(Semaforo(Verde, 0, true), 19);
    TicksSnoc(Semaforo(Verde, 0, true), 19);
  }

  /** Both yellows last 2000 ms; leaving the first yellow for green drops any
      request made during red or yellow. */
  lemma YellowLasts2000(r: bool)
    ensures Ticks(Semaforo(GialloVerde, 0, r), 20) == Semaforo(Verde, 0, false)
    ensures Ticks(Semaforo(GialloRosso, 0, r), 20) == Semaforo(Rosso, 0, r)
  {
    Waits(Semaforo(GialloVerde, 0, r), 19);
    TicksSnoc(Semaforo(GialloVerde, 0, r), 19);
    Waits(Semaforo(GialloRosso, 0, r), 19);
    TicksSnoc(Semaforo(GialloRosso, 0, r), 19);
  }
}

=== FILE: sensori.dfy ===
/** The sensor helpers of Esercizio2_FunzioniSensori.js: colour names, the
    obstacle test, speed from distance, and the action chosen for a colour.
    Colour codes are integers and distances are reals; displaying and
    driving the motors are left out. */
module Sensori {

  const COLORI: seq<string> := ["Nessuno", "Nero", "Blu", "Verde", "Giallo", "Rosso", "Bianco", "Marrone"]

  /** `nomeColore`: the name for codes 0..7, otherwise "Sconosciuto". */
  function NomeColore(codiceColore: int): (nome: string)
    ensures 0 <= codiceColore < |COLORI| ==> nome == COLORI[codiceColore]
    ensures nome == "Sconosciuto" <==> !(0 <= codiceColore < |COLORI|)
  {
    if 0 <= codiceColore < |COLORI| then COLORI[codiceColore] else "Sconosciuto"
  }

  /** Different known codes get different names. */
  lemma NomiDistinti(a: int, b: int)
    requires 0 <= a < |COLORI| && 0 <= b < |COLORI| && a != b
    ensures NomeColore(a) != NomeColore(b)
  {
  }

  /** `ostacoloRilevato`: strictly closer than the threshold. */
  function OstacoloRilevato(distanza: real, soglia: real): (b: bool)
    ensures distanza == soglia ==> !b
    ensures soglia == 10.0 ==> (b <==> CalcolaVelocita(distanza) == 0)
  {
    distanza < soglia
  }

  /** `calcolaVelocita`: 0 below 10 cm, 30 below 30 cm, 60 below 50 cm,
      otherwise 90. */
  function CalcolaVelocita(distanza: real): (v: int)
    ensures 0 <= v <= 100
    ensures v in {0, 30, 60, 90}
  {
    if distanza < 10.0 then 0
    else if distanza < 30.0 then 30
    else if distanza < 50.0 then 60
    else 90
  }

  /** Farther never means slower, and the robot stops exactly when an
      obstacle is within 10 cm. */
  lemma VelocitaMonotona(d1: real, d2: real)
    ensures d1 <= d2 ==> CalcolaVelocita(d1) <= CalcolaVelocita(d2)
    ensures CalcolaVelocita(d1) == 0 <==> OstacoloRilevato(d1, 10.0)
  {
  }

  /** The seven actions `eseguiAzione` knows. */
  const AZIONI: set<string> := {"fermarsi", "girare a sinistra", "girare a destra", "aumentare velocità",
                               "ridurre velocità", "proseguire dritto", "proseguire con cautela"}

  /** `decidiAzioneColore`: one action for each of the codes 1..6, and
      "proseguire con cautela" for every other code. */
  function DecidiAzioneColore(codiceColore: int): (azione: string)
    ensures azione in AZIONI
    ensures !(1 <= codiceColore <= 6) ==> azione == "proseguire con cautela"
  {
    match codiceColore
    case 1 => "fermarsi"
    case 2 => "girare a sinistra"
    case 3 => "aumentare velocità"
    case 4 => "ridurre velocità"
    case 5 => "girare a destra"
    case 6 => "proseguire dritto"
    case _ => "proseguire con cautela"
  }

  /** Codes 1..6 each get their own action, none of them the default. */
  lemma AzioniDistinte(a: int, b: int)
    requires 1 <= a <= 6 && 1 <= b <= 6 && a != b
    ensures DecidiAzioneColore(a) != DecidiAzioneColore(b)
    ensures DecidiAzioneColore(a) != "proseguire con cautela"
  {
  }

  /** `eseguiAzione`'s result: true exactly for the seven known actions. */
  function EseguiAzione(azione: string, velocitaBase: real): (ok: bool)
    ensures ok <==> azione in AZIONI
  {
    match azione
    case "fermarsi" => true
    case "girare a sinistra" => true
    case "girare a destra" => true
    case "aumentare velocità" => true
    case "ridurre velocità" => true
    case "proseguire dritto" => true
    case "proseguire con cautela" => true
    case _ => false
  }

  /** Whatever colour is seen, the action decided on can be carried out. */
  lemma DecisioniEseguibili(codiceColore: int, velocitaBase: real)
    ensures EseguiAzione(DecidiAzioneColore(codiceColore), velocitaBase)
  {
  }
}

=== FILE: seqs.dfy ===
/** Positional edits on sequences, the abstract meaning of the list operations. */
module Seqs {

  /** `s` with `x` placed at index `i`; later elements move one place right. */
  function InsertAt(s: seq<int>, i: nat, x: int): (r: seq<int>)
    requires i <= |s|
    ensures |r| == |s| + 1
    ensures r[i] == x
    ensures forall j :: 0 <= j < i ==> r[j] == s[j]
    ensures forall j :: i < j < |r| ==> r[j] == s[j - 1]
  {
    s[..i] + [x] + s[i..]
  }

  /** `s` without its element at index `i`; later elements move one place left. */
  function RemoveAt(s: seq<int>, i: nat): (r: seq<int>)
    requires i < |s|
    ensures |r| == |s| - 1
    ensures forall j :: 0 <= j < i ==> r[j] == s[j]
    ensures forall j :: i <= j < |r| ==> r[j] == s[j + 1]
  {
    s[..i] + s[i + 1..]
  }

  /** Removing what was just inserted at the same index gives the sequence back. */
  lemma RemoveInsert(s: seq<int>, i: nat, x: int)
    requires i <= |s|
    ensures RemoveAt(InsertAt(s, i, x), i) == s
  {
    var t := RemoveAt(InsertAt(s, i, x), i);
    assert |t| == |s|;
    forall j | 0 <= j < |s| ensures t[j] == s[j] {}
  }

  /** The elements of `s` in the opposite order. */
  function Reverse<T>(s: seq<T>): (r: seq<T>)
    ensures |r| == |s|
    ensures forall i :: 0 <= i < |s| ==> r[i] == s[|s| - 1 - i]
  {
    if s == [] then [] else Reverse(s[1..]) + [s[0]]
  }

  /** The last `n` elements of `s` (all of `s` when it is shorter). */
  function LastN<T>(s: seq<T>, n: nat): (r: seq<T>)
    ensures |r| == if |s| < n then |s| else n
    ensures forall i :: 0 <= i < |r| ==> r[i] == s[|s| - |r| + i]
  {
    if |s| <= n then s else s[|s| - n..]
  }
}

=== FILE: simple_queue.dfy ===
/** The SimpleQueue of 03_c_queue.c: a 100-slot array whose live part is
    items[front..rear]. `front == -1` means empty; otherwise `front` is
    always 0, because a dequeue shifts the remaining elements left. */
module SimpleQueue {
  import Opt
  import QueueSpec

  const MAX_SIZE: int := 100

  datatype Queue = Queue(items: seq<int>, front: int, rear: int)

  /** Empty is `front == rear == -1`; non-empty is `front == 0 <= rear`. */
  predicate Valid(q: Queue)
  {
    && |q.items| == MAX_SIZE
    && -1 <= q.rear < MAX_SIZE
    && (q.front == -1 <==> q.rear == -1)
    && (q.front != -1 ==> q.front == 0)
  }

  /** The queued values, oldest first. */
  function Elems(q: Queue): seq<int>
    requires Valid(q)
  {
    if q.front == -1 then [] else q.items[q.front..q.rear + 1]
  }

  /** `initSimpleQueue`; the buffer's old contents are modelled as zeros. */
  function Init(): (q: Queue)
    ensures Valid(q) && Elems(q) == []
  {
    Queue(seq(MAX_SIZE, _ => 0), -1, -1)
  }

  predicate IsEmpty(q: Queue) { q.front == -1 }

  predicate IsFull(q: Queue) { q.rear == MAX_SIZE - 1 }

  /** `simpleQueueEnqueue`: fails, unchanged, iff `rear == MAX_SIZE-1`;
      otherwise stores the value at `++rear` (setting `front` to 0 first
      when the queue was empty). */
  function Enqueue(q: Queue, value: int): (r: (bool, Queue))
    requires Valid(q)
    ensures Valid(r.1)
    ensures r.0 <==> |Elems(q)| < MAX_SIZE
    ensures !r.0 ==> r.1 == q
    ensures r.0 ==> Elems(r.1) == Elems(q) + [value] && r.1.items[r.1.rear] == value
  {
    if IsFull(q) then (false, q)
    else
      var front := if q.front == -1 then 0 else q.front;
      var q' := Queue(q.items[q.rear + 1 := value], front, q.rear + 1);
      assert Elems(q') == Elems(q) + [value];
      (true, q')
  }

  /** The buffer after the source's left shift `items[i] = items[i+1]` for
      `i` in 0..rear-1: each of the first `rear` slots takes its right
      neighbour's value and the rest keep theirs. */
  function ShiftedLeft(items: seq<int>, rear: int): (r: seq<int>)
    requires 0 < rear < |items|
    ensures |r| == |items|
    ensures forall i :: 0 <= i < rear ==> r[i] == items[i + 1]
    ensures forall i :: rear <= i < |items| ==> r[i] == items[i]
  {
    items[1..rear + 1] + items[rear..]
  }

  /** The shifting loop of `simpleQueueDequeue`, as the source writes it. */
  method ShiftLeft(items: seq<int>, rear: int) returns (r: seq<int>)
    requires 0 < rear < |items|
    ensures r == ShiftedLeft(items, rear)
  {
    r := items;
    var i := 0;
    while i < rear
      invariant 0 <= i <= rear
      invariant |r| == |items|
      invariant forall j :: 0 <= j < i ==> r[j] == items[j + 1]
      invariant forall j :: i <= j < |items| ==> r[j] == items[j]
    {
      r := r[i := r[i + 1]];
      i := i + 1;
    }
  }

  /** `simpleQueueDequeue`: fails on an empty queue; otherwise returns the
      oldest value; removing the only value resets `front` and `rear` to -1,
      otherwise the rest shift one slot left. */
  function Dequeue(q: Queue): (r: (Opt.Option<int>, Queue))
    requires Valid(q)
    ensures Valid(r.1)
    ensures Elems(q) == [] ==> r == (Opt.None, q)
    ensures Elems(q) != [] ==> r.0 == Opt.Some(Elems(q)[0]) && Elems(r.1) == Elems(q)[1..]
    ensures |Elems(q)| == 1 ==> r.1.front == -1 && r.1.rear == -1
  {
    if IsEmpty(q) then (Opt.None, q)
    else if q.front == q.rear then (Opt.Some(q.items[q.front]), Queue(q.items, -1, -1))
    else
      var q' := Queue(ShiftedLeft(q.items, q.rear), q.front, q.rear - 1);
      assert Elems(q') == Elems(q)[1..];
      (Opt.Some(q.items[q.front]), q')
  }

  /** `simpleQueueFront`: the oldest value, without removing it. */
  function Front(q: Queue): (r: Opt.Option<int>)
    requires Valid(q)
    ensures r.None? <==> Elems(q) == []
    ensures r.Some? ==> r.value == Elems(q)[0]
  {
    if IsEmpty(q) then Opt.None else Opt.Some(q.items[q.front])
  }

  /** `simpleQueueSize`: 0 when empty, `rear - front + 1` otherwise. */
  function Size(q: Queue): (n: int)
    requires Valid(q)
    ensures n == |Elems(q)|
  {
    if IsEmpty(q) then 0 else q.rear - q.front + 1
  }

  /** Runs queue requests against the array, collecting the replies. */
  function Run(q: Queue, ops: seq<QueueSpec.Op>): (r: (Queue, seq<QueueSpec.Reply>))
    requires Valid(q)
    ensures Valid(r.0)
    decreases |ops|
  {
    if ops == [] then (q, [])
    else
      var (q1, reply) := match ops[0]
        case Enqueue(v) =>
          var (ok, q1) := Enqueue(q, v);
          (q1, if ok then QueueSpec.Accepted(v) else QueueSpec.Overflow)
        case Dequeue =>
          var (v, q1) := Dequeue(q);
          (q1, if v.Some? then QueueSpec.Got(v.value) else QueueSpec.Underflow);
      var (q2, rest) := Run(q1, ops[1..]);
      (q2, [reply] + rest)
  }

  /** The shifting array behaves as the abstract queue of capacity MAX_SIZE,
      so it inherits the FIFO law. */
  lemma {:induction false} Refines(q: Queue, ops: seq<QueueSpec.Op>)
    requires Valid(q)
    ensures Run(q, ops).1 == QueueSpec.Run(Elems(q), Opt.Some(MAX_SIZE), ops).1
    ensures Elems(Run(q, ops).0) == QueueSpec.Run(Elems(q), Opt.Some(MAX_SIZE), ops).0
    decreases |ops|
  {
    if ops != [] {
      match ops[0]
      case Enqueue(v) => Refines(Enqueue(q, v).1, ops[1..]);
      case Dequeue => Refines(Dequeue(q).1, ops[1..]);
    }
  }
}

=== FILE: sollo.dfy ===
/** The integer routines of Altro/sollo.c. C `int` arithmetic is taken as
    exact: the inputs are assumed small enough that nothing overflows. */
module Sollo {
  import opened Divisibility

  /** `MCD`: swap so that the first argument is the larger, then run
      Euclid's loop. On non-negative inputs the result is the gcd. */
  function MCD(x: int, y: int): (g: int)
    ensures g == Euclid(if y > x then y else x, if y > x then x else y)
    ensures x >= 0 && y >= 0 ==> IsGcd(g, x, y)
  {
    var (a, b) := if y > x then (y, x) else (x, y);
    EuclidIsGcd2(x, y, a, b);
    Euclid(a, b)
  }

  /** Euclid on the swapped pair still computes the gcd of the original pair. */
  lemma EuclidIsGcd2(x: int, y: int, a: int, b: int)
    requires (a, b) == (if y > x then (y, x) else (x, y))
    ensures x >= 0 && y >= 0 ==> IsGcd(Euclid(a, b), x, y)
  {
    if x >= 0 && y >= 0 {
      EuclidIsGcd(a, b);
    }
  }

  /** Argument order never matters, on any inputs, because of the swap. */
  lemma Symmetric(a: int, b: int)
    ensures MCD(a, b) == MCD(b, a)
  {
  }

  /** Zero is neutral on either side, for every integer. */
  lemma WithZero(a: int)
    ensures MCD(a, 0) == a
    ensures MCD(0, a) == a
  {
    if a != 0 {
      assert CRem(0, a) == 0;
      assert Euclid(0, a) == Euclid(a, 0);
    }
  }

  /** `sommaDivisori`: add up every i in 1..x that divides x. */
  method SommaDivisori(x: int) returns (r: int)
    ensures r == SumDivisors(x)
    ensures x <= 0 ==> r == 0
    ensures x >= 2 ==> (r == x + 1 <==> IsPrime(x))
  {
    r := 0;
    var i := 1;
    while i <= x
      invariant 1 <= i && (x >= 1 ==> i <= x + 1) && (x < 1 ==> i == 1)
      invariant r == SumDivisorsUpTo(x, i - 1)
      decreases x - i
    {
      if CRem(x, i) == 0 {
        r := r + i;
      }
      i := i + 1;
    }
    if x >= 2 {
      PrimeIffSumIsSuccessor(x);
    }
  }

  /** `areaRettangolo`: the product, which the source computes in `int`;
      a product outside the 32-bit range is undefined in C and excluded. */
  function AreaRettangolo(x: int, y: int): (area: int)
    requires -0x8000_0000 <= x * y < 0x8000_0000
    ensures x >= 0 && y >= 0 ==> area >= 0
    ensures area == 0 <==> x == 0 || y == 0
    ensures y != 0 ==> area / y == x
  {
    x * y
  }
}

=== FILE: stack_apps.dfy ===
/** The two stack consumers of 02_c_stack.c and 02_cpp_stack.cpp: the
    bracket checker `areParenthesesBalanced` and `reverseString`. */
module StackApps {
  import opened Nodes
  import Opt
  import Seqs
  import ArrayStack
  import LinkedStack

  predicate IsOpener(c: char) { c == '(' || c == '[' || c == '{' }

  predicate IsCloser(c: char) { c == ')' || c == ']' || c == '}' }

  /** The test of the source: the popped code is not the opener of `c`'s kind. */
  predicate Mismatch(c: char, top: int)
  {
    (c == ')' && top != '(' as int) || (c == ']' && top != '[' as int) || (c == '}' && top != '{' as int)
  }

  /** How many openers, and how many closers, a string holds. */
  function Openers(s: string): nat
    decreases |s|
  {
    if s == [] then 0 else (if IsOpener(s[0]) then 1 else 0) + Openers(s[1..])
  }

  function Closers(s: string): nat
    decreases |s|
  {
    if s == [] then 0 else (if IsCloser(s[0]) then 1 else 0) + Closers(s[1..])
  }

  /** The scanning loop of `areParenthesesBalanced` over the rest of the
      string, with the 100-slot ArrayStack of the source. As in the source,
      the result of the push is ignored, so an opener met with a full
      stack is silently dropped. */
  function ScanArray(expr: string, st: ArrayStack.Stack): (ok: bool)
    requires ArrayStack.Valid(st)
    ensures ok ==> Closers(expr) <= Openers(expr) + |ArrayStack.Elems(st)|
    ensures Openers(expr) == 0 && Closers(expr) == 0 ==> (ok <==> ArrayStack.Elems(st) == [])
    decreases |expr|
  {
    if expr == [] then ArrayStack.IsEmpty(st)
    else
      var c := expr[0];
      if IsOpener(c) then ScanArray(expr[1..], ArrayStack.Push(st, c as int).1)
      else if IsCloser(c) then
        if ArrayStack.IsEmpty(st) then false
        else
          var (top, st') := ArrayStack.Pop(st);
          if Mismatch(c, top.value) then false else ScanArray(expr[1..], st')
      else ScanArray(expr[1..], st)
  }

  /** `areParenthesesBalanced` as written: starts from an empty ArrayStack. */
  function AreParenthesesBalanced(expr: string): (ok: bool)
    ensures ok ==> Closers(expr) <= Openers(expr)
    ensures Openers(expr) == 0 && Closers(expr) == 0 ==> ok
    ensures expr != [] && IsCloser(expr[0]) ==> !ok
  {
    ScanArray(expr, ArrayStack.Init())
  }

  /** The same scan over an unbounded LinkedStack, where no opener is lost. */
  function ScanLinked(expr: string, st: LinkedStack.Stack): (ok: bool)
    ensures ok ==> Closers(expr) == Openers(expr) + |LinkedStack.Contents(st)|
    decreases |expr|
  {
    if expr == [] then LinkedStack.IsEmpty(st)
    else
      var c := expr[0];
      if IsOpener(c) then ScanLinked(expr[1..], LinkedStack.Push(st, c as int).1)
      else if IsCloser(c) then
        if LinkedStack.IsEmpty(st) then false
        else
          var (top, st') := LinkedStack.Pop(st);
          if Mismatch(c, top.value) then false else ScanLinked(expr[1..], st')
      else ScanLinked(expr[1..], st)
  }

  /** The checker with the overflow corrected: an unbounded stack. */
  function Balanced(expr: string): (ok: bool)
    ensures ok ==> Closers(expr) == Openers(expr)
  {
    ScanLinked(expr, LinkedStack.Init())
  }

  /** The stack height the scan reaches stays within the array's capacity:
      every opener finds a free slot (nesting depth at most MAX_SIZE). */
  predicate Fits(expr: string, height: nat)
    decreases |expr|
  {
    if expr == [] then true
    else if IsOpener(expr[0]) then height < ArrayStack.MAX_SIZE && Fits(expr[1..], height + 1)
    else if IsCloser(expr[0]) then Fits(expr[1..], if height > 0 then height - 1 else 0)
    else Fits(expr[1..], height)
  }

  /** While no opener overflows the array, the checker as written and the
      corrected one give the same verdict. */
  lemma {:induction false} ScansAgree(expr: string, a: ArrayStack.Stack, l: LinkedStack.Stack)
    requires LinkedStack.Corresponds(a, l)
    requires Fits(expr, |LinkedStack.Contents(l)|)
    ensures ScanArray(expr, a) == ScanLinked(expr, l)
    decreases |expr|
  {
    LinkedStack.BackingsAgree(a, l, if expr == [] then 0 else expr[0] as int);
    if expr != [] {
      var c := expr[0];
      if IsOpener(c) {
        ScansAgree(expr[1..], ArrayStack.Push(a, c as int).1, LinkedStack.Push(l, c as int).1);
      } else if IsCloser(c) {
        if !LinkedStack.IsEmpty(l) {
          ScansAgree(expr[1..], ArrayStack.Pop(a).1, LinkedStack.Pop(l).1);
        }
      } else {
        ScansAgree(expr[1..], a, l);
      }
    }
  }


  /** The well-nested bracket strings, as a grammar: nothing, or a bracket
      pair of one kind around a well-nested string, followed by another. */
  datatype Nest = Empty | Group(kind: nat, inner: Nest, rest: Nest)

  function OpenOf(kind: nat): char { if kind % 3 == 0 then '(' else if kind % 3 == 1 then '[' else '{' }

  function CloseOf(kind: nat): char { if kind % 3 == 0 then ')' else if kind % 3 == 1 then ']' else '}' }

  function Render(n: Nest): string
  {
    match n
    case Empty => ""
    case Group(k, inner, rest) => [OpenOf(k)] + Render(inner) + [CloseOf(k)] + Render(rest)
  }

  /** Scanning a well-nested string leaves the stack exactly as it found it. */
  lemma {:induction false} ScanSkipsNest(n: Nest, tail: string, st: LinkedStack.Stack)
    ensures ScanLinked(Render(n) + tail, st) == ScanLinked(tail, st)
  {
    match n
    case Empty =>
      assert Render(n) + tail == tail;
    case Group(k, inner, rest) =>
      var pushed := LinkedStack.Push(st, OpenOf(k) as int).1;
      var s := Render(n) + tail;
      assert s[0] == OpenOf(k);
      assert s[1..] == Render(inner) + ([CloseOf(k)] + Render(rest) + tail);
      ScanSkipsNest(inner, [CloseOf(k)] + Render(rest) + tail, pushed);
      var s2 := [CloseOf(k)] + Render(rest) + tail;
      assert s2[1..] == Render(rest) + tail;
      ScanSkipsNest(rest, tail, st);
  }

  /** Every string the grammar produces is accepted. */
  lemma NestIsBalanced(n: Nest)
    ensures Balanced(Render(n))
  {
    ScanSkipsNest(n, "", LinkedStack.Init());
    assert Render(n) + "" == Render(n);
  }

  /** The brackets of a string, in order, every other character dropped. */
  function Brackets(s: string): (b: string)
    ensures |b| <= |s|
    ensures forall i :: 0 <= i < |b| ==> IsOpener(b[i]) || IsCloser(b[i])
    decreases |s|
  {
    if s == [] then []
    else if IsOpener(s[0]) || IsCloser(s[0]) then [s[0]] + Brackets(s[1..])
    else Brackets(s[1..])
  }

  /** The scan sees only the brackets of its input. */
  lemma {:induction false} ScanSeesBrackets(s: string, st: LinkedStack.Stack)
    ensures ScanLinked(s, st) == ScanLinked(Brackets(s), st)
    decreases |s|
  {
    if s != [] {
      var c := s[0];
      if IsOpener(c) || IsCloser(c) {
        var b := Brackets(s);
        assert b[0] == c && b[1..] == Brackets(s[1..]);
        if IsOpener(c) {
          ScanSeesBrackets(s[1..], LinkedStack.Push(st, c as int).1);
        } else if !LinkedStack.IsEmpty(st) {
          ScanSeesBrackets(s[1..], LinkedStack.Pop(st).1);
        }
      } else {
        ScanSeesBrackets(s[1..], st);
      }
    }
  }

  /** The grammar kind of an opener. */
  function KindOf(c: char): (k: nat)
    requires IsOpener(c)
    ensures OpenOf(k) == c
  {
    if c == '(' then 0 else if c == '[' then 1 else 2
  }

  /** After an opener has been pushed, an accepted rest that cannot start
      with an opener must start with that opener's closer. */
  lemma CloserMatchesPush(o: char, u: string, st: LinkedStack.Stack)
    requires IsOpener(o) && (u == [] || IsCloser(u[0]))
    requires ScanLinked(u, LinkedStack.Push(st, o as int).1)
    ensures u != [] && u[0] == CloseOf(KindOf(o))
    ensures ScanLinked(u[1..], st)
  {
    assert LinkedStack.Pop(LinkedStack.Push(st, o as int).1) == (Opt.Some(o as int), st);
  }

  /** One level of the parse the scan performs: a run of brackets the scan
      accepts opens with a well-nested prefix, after which comes either the
      end or a closer, and the scan accepts what is left from the same stack. */
  lemma {:induction false} ParseLevel(t: string, st: LinkedStack.Stack) returns (n: Nest, u: string)
    requires forall i :: 0 <= i < |t| ==> IsOpener(t[i]) || IsCloser(t[i])
    requires ScanLinked(t, st)
    ensures t == Render(n) + u
    ensures u == [] || IsCloser(u[0])
    ensures ScanLinked(u, st)
    decreases |t|
  {
    if t == [] || IsCloser(t[0]) {
      n, u := Empty, t;
      assert Render(n) + u == t;
    } else {
      var o := t[0];
      var k := KindOf(o);
      var n1, u1 := ParseLevel(t[1..], LinkedStack.Push(st, o as int).1);
      CloserMatchesPush(o, u1, st);
      assert forall i :: 0 <= i < |u1| ==> u1[i] == t[1 + |Render(n1)| + i];
      var n2, u2 := ParseLevel(u1[1..], st);
      n, u := Group(k, n1, n2), u2;
      GroupSplit(t, k, n1, n2, u1, u2);
    }
  }

  lemma GroupSplit(t: string, k: nat, n1: Nest, n2: Nest, u1: string, u2: string)
    requires t != [] && t[0] == OpenOf(k)
    requires t[1..] == Render(n1) + u1
    requires u1 != [] && u1[0] == CloseOf(k) && u1[1..] == Render(n2) + u2
    ensures t == Render(Group(k, n1, n2)) + u2
  {
    calc {
      t;
      [t[0]] + t[1..];
      [OpenOf(k)] + Render(n1) + ([u1[0]] + u1[1..]);
      [OpenOf(k)] + Render(n1) + [CloseOf(k)] + Render(n2) + u2;
    }
  }

  /** Every accepted string has the bracket grammar's shape: its brackets
      are a well-nested string. */
  lemma BalancedIsNest(s: string) returns (n: Nest)
    requires Balanced(s)
    ensures Render(n) == Brackets(s)
  {
    ScanSeesBrackets(s, LinkedStack.Init());
    var u;
    n, u := ParseLevel(Brackets(s), LinkedStack.Init());
    assert Render(n) + [] == Render(n);
  }

  /** The unbounded checker accepts exactly the strings whose brackets the
      grammar produces; other characters are ignored. */
  lemma BalancedIffNest(s: string)
    ensures Balanced(s) <==> exists n :: Render(n) == Brackets(s)
  {
    if exists n :: Render(n) == Brackets(s) {
      var n :| Render(n) == Brackets(s);
      NestIsBalanced(n);
      ScanSeesBrackets(s, LinkedStack.Init());
    }
    if Balanced(s) {
      var n := BalancedIsNest(s);
    }
  }

  /** For nesting depth at most MAX_SIZE the source's checker is correct:
      it agrees with the unbounded scan, and so accepts exactly the strings
      whose brackets are well nested. */
  lemma CheckerCorrectWithinCapacity(expr: string)
    requires Fits(expr, 0)
    ensures AreParenthesesBalanced(expr) == Balanced(expr)
    ensures AreParenthesesBalanced(expr) <==> exists n :: Render(n) == Brackets(expr)
  {
    ScansAgree(expr, ArrayStack.Init(), LinkedStack.Init());
    BalancedIffNest(expr);
  }

  /** A closer that does not match the opener on top rejects at once,
      whatever follows, in both checkers. */
  lemma MismatchRejects(c: char, rest: string, a: ArrayStack.Stack, l: LinkedStack.Stack)
    requires IsCloser(c) && ArrayStack.Valid(a)
    requires ArrayStack.Elems(a) != [] && Mismatch(c, ArrayStack.Elems(a)[|ArrayStack.Elems(a)| - 1])
    requires LinkedStack.Contents(l) != [] && Mismatch(c, LinkedStack.Contents(l)[0])
    ensures !ScanArray([c] + rest, a)
    ensures !ScanLinked([c] + rest, l)
  {
    assert ([c] + rest)[0] == c;
  }

  /** After any well-nested prefix, an opener followed straight away by a
      closer of another kind is rejected, whatever the stack and the rest. */
  lemma CrossedPairRejects(n: Nest, k: nat, j: nat, tail: string, st: LinkedStack.Stack)
    requires k % 3 != j % 3
    ensures !ScanLinked(Render(n) + [OpenOf(k), CloseOf(j)] + tail, st)
  {
    ScanSkipsNest(n, [OpenOf(k), CloseOf(j)] + tail, st);
    var pushed := LinkedStack.Push(st, OpenOf(k) as int).1;
    var s := [OpenOf(k), CloseOf(j)] + tail;
    assert s[0] == OpenOf(k) && s[1..] == [CloseOf(j)] + tail;
    MismatchRejects(CloseOf(j), tail, ArrayStack.Push(ArrayStack.Init(), OpenOf(k) as int).1, pushed);
    assert Render(n) + [OpenOf(k), CloseOf(j)] + tail == Render(n) + s;
  }

  /** A closer met while the stack is empty, at the start of the input or
      later in the scan, rejects at once, whatever follows. */
  lemma CloserOnEmptyRejects(c: char, rest: string, a: ArrayStack.Stack, l: LinkedStack.Stack)
    requires IsCloser(c) && ArrayStack.Valid(a)
    requires ArrayStack.IsEmpty(a) && LinkedStack.IsEmpty(l)
    ensures !ScanArray([c] + rest, a)
    ensures !ScanLinked([c] + rest, l)
    ensures !AreParenthesesBalanced([c] + rest)
    ensures !Balanced([c] + rest)
  {
  }

  /** The first example: "{[()()]}" is balanced, and the checker as written
      accepts it. */
  lemma ExampleNested()
    ensures Balanced("{[()()]}")
    ensures AreParenthesesBalanced("{[()()]}")
  {
    assert Fits("{[()()]}", 0);
    CheckerCorrectWithinCapacity("{[()()]}");
  }

  /** The empty string is balanced. */
  lemma ExampleEmpty()
    ensures AreParenthesesBalanced("")
  {
    assert ArrayStack.Elems(ArrayStack.Init()) == [];
  }

  /** Crossed brackets "{[(])}" are rejected: ']' meets '('. */
  lemma ExampleCrossed()
    ensures !Balanced("{[(])}")
    ensures !AreParenthesesBalanced("{[(])}")
  {
    assert Fits("{[(])}", 0);
    CheckerCorrectWithinCapacity("{[(])}");
  }

  /** ")(" is rejected at its first character. */
  lemma ExampleReversed()
    ensures !AreParenthesesBalanced(")(")
  {
    CloserOnEmptyRejects(')', "(", ArrayStack.Init(), LinkedStack.Init());
    assert [')'] + "(" == ")(";
  }

  /** `n` copies of `c`. */
  function Repeat(c: char, n: nat): (s: string)
    ensures |s| == n && forall i :: 0 <= i < n ==> s[i] == c
  {
    if n == 0 then [] else [c] + Repeat(c, n - 1)
  }

  /** `n` openers then `n` closers: accepted by the unbounded checker. */
  lemma {:induction false} DeepNestBalanced(n: nat)
    ensures Balanced(Repeat('(', n) + Repeat(')', n))
  {
    ScanSkipsNest(Deep(n), "", LinkedStack.Init());
    DeepRender(n);
    assert Render(Deep(n)) + "" == Render(Deep(n));
  }

  function Deep(n: nat): Nest
  {
    if n == 0 then Empty else Group(0, Deep(n - 1), Empty)
  }

  lemma {:induction false} DeepRender(n: nat)
    ensures Render(Deep(n)) == Repeat('(', n) + Repeat(')', n)
  {
    if n > 0 {
      DeepRender(n - 1);
      RepeatSnoc(')', n - 1);
      assert Render(Deep(n)) == ['('] + Render(Deep(n - 1)) + [')'] + "";
    }
  }

  lemma {:induction false} RepeatSnoc(c: char, n: nat)
    ensures Repeat(c, n + 1) == Repeat(c, n) + [c]
  {
    if n > 0 {
      RepeatSnoc(c, n - 1);
    }
  }

  /** Every slot in use holds the code of '('. */
  predicate AllOpenParens(a: ArrayStack.Stack)
    requires ArrayStack.Valid(a)
  {
    forall i :: 0 <= i < |ArrayStack.Elems(a)| ==> ArrayStack.Elems(a)[i] == '(' as int
  }

  /** The array stack after `k` pushes of '(' (pushes into a full stack are lost). */
  function PushParens(a: ArrayStack.Stack, k: nat): (r: ArrayStack.Stack)
    requires ArrayStack.Valid(a)
    ensures ArrayStack.Valid(r)
    decreases k
  {
    if k == 0 then a else PushParens(ArrayStack.Push(a, '(' as int).1, k - 1)
  }

  lemma {:induction false} PushParensShape(a: ArrayStack.Stack, k: nat)
    requires ArrayStack.Valid(a) && AllOpenParens(a)
    ensures AllOpenParens(PushParens(a, k))
    ensures |ArrayStack.Elems(PushParens(a, k))| ==
      if |ArrayStack.Elems(a)| + k < ArrayStack.MAX_SIZE then |ArrayStack.Elems(a)| + k else ArrayStack.MAX_SIZE
    decreases k
  {
    if k > 0 {
      var a1 := ArrayStack.Push(a, '(' as int).1;
      PushParensShape(a1, k - 1);
    }
  }

  lemma {:induction false} ScanOpeners(k: nat, tail: string, a: ArrayStack.Stack)
    requires ArrayStack.Valid(a)
    ensures ScanArray(Repeat('(', k) + tail, a) == ScanArray(tail, PushParens(a, k))
    decreases k
  {
    if k > 0 {
      var s := Repeat('(', k) + tail;
      assert s[0] == '(' && s[1..] == Repeat('(', k - 1) + tail;
      ScanOpeners(k - 1, tail, ArrayStack.Push(a, '(' as int).1);
    } else {
      assert Repeat('(', k) + tail == tail;
    }
  }

  lemma {:induction false} ScanClosersRejects(m: nat, a: ArrayStack.Stack)
    requires ArrayStack.Valid(a) && AllOpenParens(a)
    requires |ArrayStack.Elems(a)| < m
    ensures !ScanArray(Repeat(')', m), a)
    decreases m
  {
    var s := Repeat(')', m);
    assert s[0] == ')' && s[1..] == Repeat(')', m - 1);
    if !ArrayStack.IsEmpty(a) {
      var a1 := ArrayStack.Pop(a).1;
      assert ArrayStack.Elems(a1) == ArrayStack.Elems(a)[..|ArrayStack.Elems(a)| - 1];
      ScanClosersRejects(m - 1, a1);
    }
  }

  /** The checker as written rejects every nest of parentheses deeper than
      the array: the openers past the hundredth are dropped, so the closers
      outnumber the stored openers. */
  lemma DeepNestRejectedAsWritten(n: nat)
    requires n > ArrayStack.MAX_SIZE
    ensures !AreParenthesesBalanced(Repeat('(', n) + Repeat(')', n))
  {
    var a := ArrayStack.Init();
    ScanOpeners(n, Repeat(')', n), a);
    PushParensShape(a, n);
    ScanClosersRejects(n, PushParens(a, n));
  }

  /** The overflow bug: 101 nested parentheses are balanced, but the
      checker as written drops the 101st opener and then rejects. */
  lemma OverflowRejectsBalancedInput()
    ensures Balanced(Repeat('(', 101) + Repeat(')', 101))
    ensures !AreParenthesesBalanced(Repeat('(', 101) + Repeat(')', 101))
  {
    DeepNestBalanced(101);
    DeepNestRejectedAsWritten(101);
  }

  /** Non-bracket characters do not affect either checker. */
  lemma {:induction false} IgnoresOtherChars(c: char, tail: string, a: ArrayStack.Stack, l: LinkedStack.Stack)
    requires !IsOpener(c) && !IsCloser(c) && ArrayStack.Valid(a)
    ensures ScanArray([c] + tail, a) == ScanArray(tail, a)
    ensures ScanLinked([c] + tail, l) == ScanLinked(tail, l)
  {
    assert ([c] + tail)[1..] == tail;
  }

  /** `reverseString`: push every character on a LinkedStack, then pop until
      the stack is empty, appending each popped character. */
  method ReverseString(str: string) returns (reversed: string)
    ensures reversed == Seqs.Reverse(str)
  {
    var stack := LinkedStack.Init();
    var i := 0;
    while i < |str|
      invariant 0 <= i <= |str|
      invariant |LinkedStack.Contents(stack)| == i
      invariant forall j :: 0 <= j < i ==> LinkedStack.Contents(stack)[j] == str[i - 1 - j] as int
    {
      stack := LinkedStack.Push(stack, str[i] as int).1;
      i := i + 1;
    }
    reversed := "";
    while true
      invariant |reversed| + |LinkedStack.Contents(stack)| == |str|
      invariant forall j :: 0 <= j < |reversed| ==> reversed[j] == str[|str| - 1 - j]
      invariant forall j :: 0 <= j < |LinkedStack.Contents(stack)| ==>
        LinkedStack.Contents(stack)[j] == str[|str| - 1 - |reversed| - j] as int
      decreases |LinkedStack.Contents(stack)|
    {
      var (value, rest) := LinkedStack.Pop(stack);
      if value.None? {
        break;
      }
      reversed := reversed + [value.value as char];
      stack := rest;
    }
  }
}

=== FILE: tansella.dfy ===
/** The per-character Caesar cipher of D-File/crypt_tansella.c (`cryptCes`
    and `decryptCes`): letters move three places forward, and the last three
    letters of each case wrap to the first three of the other case. */
module Tansella {
  import opened Chars

  const CRIPT_KEY := 3

  /** The encryption applied to each character read. */
  function Crypt(r: SChar): (e: SChar)
    ensures ('a' as int <= r <= 'w' as int || 'A' as int <= r <= 'W' as int) ==> e == r + CRIPT_KEY
    ensures !IsLetter(r) ==> e == r
  {
    if 'a' as int <= r <= 'w' as int || 'A' as int <= r <= 'W' as int then r + CRIPT_KEY
    else if r == 88 then 97
    else if r == 89 then 98
    else if r == 90 then 99
    else if r == 120 then 65
    else if r == 121 then 66
    else if r == 122 then 67
    else r
  }

  /** The decryption applied to each character read. */
  function Decrypt(r: SChar): (d: SChar)
    ensures ('d' as int <= r <= 'z' as int || 'D' as int <= r <= 'Z' as int) ==> d == r - 3
    ensures !IsLetter(r) ==> d == r
  {
    if 'd' as int <= r <= 'z' as int || 'D' as int <= r <= 'Z' as int then r - 3
    else if r == 97 then 88
    else if r == 98 then 89
    else if r == 99 then 90
    else if r == 65 then 120
    else if r == 66 then 121
    else if r == 67 then 122
    else r
  }

  /** Decryption undoes encryption, and the other way round, on every char. */
  lemma RoundTrip(c: SChar)
    ensures Decrypt(Crypt(c)) == c
    ensures Crypt(Decrypt(c)) == c
  {
  }

  /** A letter's place in the alphabet, ignoring case. */
  function AlphaIndex(c: int): (i: int)
    requires IsLetter(c)
    ensures 0 <= i < 26
  {
    if IsLower(c) then c - 'a' as int else c - 'A' as int
  }

  /** Encryption is the rotation by three of the 26-letter alphabet, with
      the case flipped exactly for the three letters that wrap around. */
  lemma RotatesAlphabet(c: SChar)
    requires IsLetter(c)
    ensures IsLetter(Crypt(c))
    ensures AlphaIndex(Crypt(c)) == (AlphaIndex(c) + CRIPT_KEY) % 26
    ensures IsLower(Crypt(c)) <==> (IsLower(c) <==> AlphaIndex(c) < 23)
  {
  }

  /** Distinct characters encrypt differently, letters to letters. */
  lemma Injective(a: SChar, b: SChar)
    ensures Crypt(a) == Crypt(b) ==> a == b
    ensures IsLetter(Crypt(a)) <==> IsLetter(a)
  {
    RoundTrip(a);
    RoundTrip(b);
  }

  /** A character is left unchanged exactly when it is not a letter. */
  lemma FixedPoints(c: SChar)
    ensures Crypt(c) == c <==> !IsLetter(c)
  {
  }

  /** The whole file, character by character. */
  function CryptText(t: seq<SChar>): (e: seq<SChar>)
    ensures |e| == |t| && forall i :: 0 <= i < |t| ==> e[i] == Crypt(t[i])
  {
    seq(|t|, i requires 0 <= i < |t| => Crypt(t[i]))
  }

  function DecryptText(t: seq<SChar>): (d: seq<SChar>)
    ensures |d| == |t| && forall i :: 0 <= i < |t| ==> d[i] == Decrypt(t[i])
  {
    seq(|t|, i requires 0 <= i < |t| => Decrypt(t[i]))
  }

  /** Decrypting an encrypted file restores it. */
  lemma TextRoundTrip(t: seq<SChar>)
    ensures DecryptText(CryptText(t)) == t
  {
    forall i | 0 <= i < |t| ensures DecryptText(CryptText(t))[i] == t[i] {
      RoundTrip(t[i]);
    }
  }
}

=== FILE: waiting_line.dfy ===
/** The two-counter waiting-line manager of lista_attesa.c. The waiting
    customers form a FIFO (the `testa`..`coda` chain of the source, whose
    pointer discipline is the LinkedQueue's); clock readings (`time(NULL)`)
    are passed in as `now`. */
module WaitingLine {
  import Opt

  /** A waiting customer: ticket number and arrival time. */
  datatype Cliente = Cliente(numero: int, orarioArrivo: int)

  /** A service counter. `clienteCorrente` is 0 while nobody was ever served. */
  datatype Sportello = Sportello(numeroSportello: int, clienteCorrente: int, inizioServizio: int, attivo: bool)

  /** The waiting list, head (earliest arrival) first, and its two counters. */
  datatype ListaAttesa = ListaAttesa(clienti: seq<Cliente>, prossimoNumero: int, clientiInAttesa: int)

  /** Ticket numbers strictly increase from head to tail. */
  predicate Increasing(cs: seq<Cliente>)
  {
    forall i, j :: 0 <= i < j < |cs| ==> cs[i].numero < cs[j].numero
  }

  /** The list invariant: the count matches the list, tickets increase and
      lie in [1, prossimoNumero). */
  predicate Valid(l: ListaAttesa)
  {
    && l.clientiInAttesa == |l.clienti|
    && l.prossimoNumero >= 1
    && Increasing(l.clienti)
    && (forall i :: 0 <= i < |l.clienti| ==> 1 <= l.clienti[i].numero < l.prossimoNumero)
  }

  /** `inizializzaListaAttesa`: empty, next ticket 1, nobody waiting. */
  function InizializzaListaAttesa(): (l: ListaAttesa)
    ensures Valid(l)
    ensures l.clienti == [] && l.prossimoNumero == 1 && l.clientiInAttesa == 0
  {
    ListaAttesa([], 1, 0)
  }

  /** `inizializzaSportello`: idle, serving nobody (0). */
  function InizializzaSportello(numero: int): (s: Sportello)
    ensures s.numeroSportello == numero && !s.attivo && s.clienteCorrente == 0 && s.inizioServizio == 0
  {
    Sportello(numero, 0, 0, false)
  }

  /** `aggiungiCliente`: the new customer takes the current `prossimoNumero`,
      which then grows by one, and joins at the tail. Allocation never fails
      in the model. */
  function AggiungiCliente(l: ListaAttesa, now: int): (r: ListaAttesa)
    requires Valid(l)
    ensures Valid(r)
    ensures r.clienti == l.clienti + [Cliente(l.prossimoNumero, now)]
    ensures r.prossimoNumero == l.prossimoNumero + 1
    ensures r.clientiInAttesa == l.clientiInAttesa + 1
  {
    ListaAttesa(l.clienti + [Cliente(l.prossimoNumero, now)], l.prossimoNumero + 1, l.clientiInAttesa + 1)
  }

  /** The outcome of a serve request: whether someone was served, the new
      list and counter, and the reported wait in seconds. */
  datatype Servizio = Servizio(ok: bool, lista: ListaAttesa, sportello: Sportello, attesa: Opt.Option<int>)

  /** `serviProssimoCliente`: with nobody waiting it fails and changes
      nothing; otherwise the head customer leaves the list and the counter
      becomes active serving that number from `now`; the wait reported is
      service start minus arrival. */
  function ServiProssimoCliente(l: ListaAttesa, s: Sportello, now: int): (r: Servizio)
    requires Valid(l)
    ensures Valid(r.lista)
    ensures l.clienti == [] ==> r == Servizio(false, l, s, Opt.None)
    ensures l.clienti != [] ==>
      && r.ok
      && r.lista.clienti == l.clienti[1..]
      && r.lista.prossimoNumero == l.prossimoNumero
      && r.lista.clientiInAttesa == l.clientiInAttesa - 1
      && r.sportello == Sportello(s.numeroSportello, l.clienti[0].numero, now, true)
      && r.attesa == Opt.Some(now - l.clienti[0].orarioArrivo)
  {
    if l.clienti == [] then Servizio(false, l, s, Opt.None)
    else
      var c := l.clienti[0];
      Servizio(true, ListaAttesa(l.clienti[1..], l.prossimoNumero, l.clientiInAttesa - 1),
               Sportello(s.numeroSportello, c.numero, now, true), Opt.Some(now - c.orarioArrivo))
  }

  /** The customer served is the one with the smallest ticket still waiting. */
  lemma ServesEarliest(l: ListaAttesa, s: Sportello, now: int)
    requires Valid(l) && l.clienti != []
    ensures forall c :: c in ServiProssimoCliente(l, s, now).lista.clienti ==>
      ServiProssimoCliente(l, s, now).sportello.clienteCorrente < c.numero
  {
    forall c | c in l.clienti[1..]
      ensures l.clienti[0].numero < c.numero
    {
      var j :| 0 <= j < |l.clienti[1..]| && l.clienti[1..][j] == c;
      assert l.clienti[j + 1] == c;
    }
  }

  /** `calcolaTempoMedioAttesa`: 0 with nobody waiting, otherwise
      (count / 2) * 120 seconds, i.e. 60 seconds per waiting customer. */
  function CalcolaTempoMedioAttesa(l: ListaAttesa): (t: real)
    ensures l.clientiInAttesa == 0 ==> t == 0.0
    ensures t == (60 * l.clientiInAttesa) as real
  {
    if l.clientiInAttesa == 0 then 0.0
    else (l.clientiInAttesa as real / 2.0) * 120.0
  }

  /** A menu choice: a new arrival, or serve at counter 1 or 2. */
  datatype Comando = NuovoCliente(now: int) | Servi(sportello1: bool, now: int)

  datatype Stato = Stato(lista: ListaAttesa, s1: Sportello, s2: Sportello)

  /** Runs the commands, collecting the ticket numbers served, in order. */
  function Simula(st: Stato, cmds: seq<Comando>): (r: (Stato, seq<int>))
    requires Valid(st.lista)
    ensures Valid(r.0.lista)
    decreases |cmds|
  {
    if cmds == [] then (st, [])
    else
      match cmds[0]
      case NuovoCliente(now) => Simula(Stato(AggiungiCliente(st.lista, now), st.s1, st.s2), cmds[1..])
      case Servi(primo, now) =>
        var r := ServiProssimoCliente(st.lista, if primo then st.s1 else st.s2, now);
        var st' := if primo then Stato(r.lista, r.sportello, st.s2) else Stato(r.lista, st.s1, r.sportello);
        var (fin, served) := Simula(st', cmds[1..]);
        (fin, (if r.ok then [r.sportello.clienteCorrente] else []) + served)
  }

  /** Every number below `bound` and below every waiting number. */
  predicate Below(served: seq<int>, l: ListaAttesa)
  {
    forall i, j :: 0 <= i < |served| && 0 <= j < |l.clienti| ==> served[i] < l.clienti[j].numero
  }

  /** No customer is served twice and service follows arrival order: the
      tickets served by both counters together strictly increase, and every
      ticket served is below every ticket still waiting. */
  lemma {:induction false} ServedInTicketOrder(st: Stato, cmds: seq<Comando>)
    requires Valid(st.lista)
    ensures forall i, j :: 0 <= i < j < |Simula(st, cmds).1| ==>
      Simula(st, cmds).1[i] < Simula(st, cmds).1[j]
    ensures forall i :: 0 <= i < |Simula(st, cmds).1| ==> 1 <= Simula(st, cmds).1[i]
    ensures Below(Simula(st, cmds).1, Simula(st, cmds).0.lista)
    decreases |cmds|
  {
    if cmds != [] {
      match cmds[0]
      case NuovoCliente(now) =>
        var st' := Stato(AggiungiCliente(st.lista, now), st.s1, st.s2);
        ServedInTicketOrder(st', cmds[1..]);
        NumbersGrow(st', cmds[1..]);
      case Servi(primo, now) =>
        var r := ServiProssimoCliente(st.lista, if primo then st.s1 else st.s2, now);
        var st' := if primo then Stato(r.lista, r.sportello, st.s2) else Stato(r.lista, st.s1, r.sportello);
        ServedInTicketOrder(st', cmds[1..]);
        NumbersGrow(st', cmds[1..]);
        var (fin, served) := Simula(st', cmds[1..]);
        if r.ok {
          var n := st.lista.clienti[0].numero;
          if |st.lista.clienti| > 1 {
            assert n < st.lista.clienti[1].numero;
          }
          assert n < Floor(st'.lista);
          var all := [n] + served;
          forall i, j | 0 <= i < j < |all| ensures all[i] < all[j] {
            if i == 0 {
              assert all[j] == served[j - 1];
            }
          }
        }
    }
  }

  /** The smallest ticket that can still be served: the head's, or the next
      one to be issued when nobody is waiting. */
  function Floor(l: ListaAttesa): int
  {
    if l.clienti != [] then l.clienti[0].numero else l.prossimoNumero
  }

  /** Tickets never go back: everything served later, and everybody left
      waiting at the end, holds a ticket at least the current floor. */
  lemma {:induction false} NumbersGrow(st: Stato, cmds: seq<Comando>)
    requires Valid(st.lista)
    ensures forall i :: 0 <= i < |Simula(st, cmds).1| ==> Floor(st.lista) <= Simula(st, cmds).1[i]
    ensures forall j :: 0 <= j < |Simula(st, cmds).0.lista.clienti| ==>
      Floor(st.lista) <= Simula(st, cmds).0.lista.clienti[j].numero
    decreases |cmds|
  {
    if cmds != [] {
      match cmds[0]
      case NuovoCliente(now) =>
        var st' := Stato(AggiungiCliente(st.lista, now), st.s1, st.s2);
        assert Floor(st.lista) <= Floor(st'.lista);
        NumbersGrow(st', cmds[1..]);
      case Servi(primo, now) =>
        var r := ServiProssimoCliente(st.lista, if primo then st.s1 else st.s2, now);
        var st' := if primo then Stato(r.lista, r.sportello, st.s2) else Stato(r.lista, st.s1, r.sportello);
        if |st.lista.clienti| > 1 {
          assert st.lista.clienti[0].numero < st.lista.clienti[1].numero;
        }
        assert Floor(st.lista) <= Floor(st'.lista);
        NumbersGrow(st', cmds[1..]);
    }
  }

  /** Three arrivals get tickets 1, 2, 3; counter 1 then serves 1, counter 2
      serves 2, and only customer 3 is left waiting. */
  lemma Scenario(t1: int, t2: int, t3: int, t4: int, t5: int)
    ensures var l := AggiungiCliente(AggiungiCliente(AggiungiCliente(InizializzaListaAttesa(), t1), t2), t3);
      var a := ServiProssimoCliente(l, InizializzaSportello(1), t4);
      var b := ServiProssimoCliente(a.lista, InizializzaSportello(2), t5);
      && a.sportello.clienteCorrente == 1
      && b.sportello.clienteCorrente == 2
      && b.lista.clienti == [Cliente(3, t3)]
      && b.lista.clientiInAttesa == 1
  {
  }
}

=== FILE: zanirato.dfy ===
/** The integer routines of Altro/zanirato.c. C `int` arithmetic is taken
    as exact: the inputs are assumed small enough that nothing overflows. */
module Zanirato {
  import opened Divisibility
  import Sollo

  /** `MCD`: Euclid's loop with no preliminary swap. */
  method MCD(a0: int, b0: int) returns (a: int)
    ensures a == Euclid(a0, b0)
    ensures a0 >= 0 && b0 >= 0 ==> IsGcd(a, a0, b0)
  {
    a := a0;
    var b := b0;
    var r := 0;
    while b != 0
      invariant Euclid(a, b) == Euclid(a0, b0)
      decreases Abs(b)
    {
      r := CRem(a, b);
      a := b;
      b := r;
    }
    if a0 >= 0 && b0 >= 0 {
      EuclidIsGcd(a0, b0);
    }
  }

  /** With a zero second argument the loop never runs. */
  lemma ZeroSecond(a: int)
    ensures Euclid(a, 0) == a
  {
  }

  /** When 0 <= a < b, the first round only swaps the arguments, since
      a % b == a; so the missing swap of sollo.c costs one iteration. */
  lemma FirstRoundSwaps(a: int, b: int)
    requires 0 <= a < b
    ensures Euclid(a, b) == Euclid(b, a)
  {
    assert a % b == a;
    assert CRem(a, b) == a;
    assert Euclid(a, b) == Euclid(b, CRem(a, b));
  }

  /** On non-negative inputs the two programs' MCD agree. */
  lemma AgreesWithSollo(a: int, b: int)
    requires a >= 0 && b >= 0
    ensures Euclid(a, b) == Sollo.MCD(a, b)
  {
    EuclidIsGcd(a, b);
    GcdUnique(Euclid(a, b), Sollo.MCD(a, b), a, b);
  }

  /** `somma_divisori`: add up every cont in 1..x that divides x. */
  method SommaDivisori(x: int) returns (ris: int)
    ensures ris == SumDivisors(x)
    ensures x <= 0 ==> ris == 0
  {
    ris := 0;
    var cont := 1;
    while cont <= x
      invariant 1 <= cont && (x >= 1 ==> cont <= x + 1) && (x < 1 ==> cont == 1)
      invariant ris == SumDivisorsUpTo(x, cont - 1)
      decreases x - cont
    {
      if CRem(x, cont) == 0 {
        ris := ris + cont;
      }
      cont := cont + 1;
    }
  }

  /** `area_rettangolo`: computes the same product as sollo.c. */
  function AreaRettangolo(x: int, y: int): (r: int)
    requires -0x8000_0000 <= x * y < 0x8000_0000
    ensures r == Sollo.AreaRettangolo(x, y)
  {
    x * y
  }
}
